=== FILE: README.md ===
# backend-backbone in Dafny

A model of the game and social core of the backend-backbone Pong server,
written as pure Dafny functions over immutable records, with the properties
the server promises proved about it. The model covers the following parts.

- The in-memory registry of remote matches. This includes its lifecycle
  (`waiting`, then `ready`, then `playing`, then `finished`, or removed by
  force) and the 60 Hz physics tick: motion, wall bounces, paddle
  deflection, scoring, serve and win test.
- The matchmaking queue and the socket layer's room bookkeeping.
- The request and invitation lifecycles of remote games, score submission
  and the paginated listings.
- Tournament brackets: pairing, round completion, winners, the champion and
  the history statistics.
- Friend requests and the two block relations: `block` for the friends
  routes, and `userBlock` for the block routes and the chat service.
- The user directory and its search.
- The chat routes and the chat service's checks.
- The HTML-escaping sanitisers and the request-validation helpers.
- The fixed-window rate limiters.
- The error-handling middleware, the logger's routing and formatting, and
  the monitoring service's counters, buffer, alerts and health status.

## How it is modelled

Database tables are maps, sets or sequences. Lookups that the source
delegates to the database become parameters: user existence, fresh ids, and
the row order of `orderBy`.

The following are explicit parameters, or explicit operations:

- the wall clock (milliseconds);
- `Math.random` (a `Serve` of two coin flips);
- the interval timer;
- the clean-up timer.

A JavaScript `Map` keeps insertion order, which the source relies on: the
first match a player is found in, the order of rooms, and conversation
de-duplication. It is modelled by `OrderedMap`, a sequence of pairs with
distinct keys.

Other modelling choices:

- **Numbers.** Positions and percentages are `real`.
- **Strings.** A `char` is one Unicode scalar value. JavaScript's
  `length` counts UTF-16 code units, two for a character above U+FFFF;
  it is `JsText.Utf16Length`, and both length limits use it.
- **Trim.** `trim` follows the WhiteSpace and LineTerminator sets of
  ECMA-262 sections 12.2 and 12.3.
- **parseInt.** `parseInt(s, 10)` follows ECMA-262 section 19.2.5: optional
  white space and sign, then the longest run of decimal digits.
- **Truthiness.** JavaScript truthiness is written out where the source
  depends on it: a user id or a duration of 0 and an empty string count as
  absent.

### Modules

| module | file |
|---|---|
| `Wrappers`, `Http` | `wrappers.dfy` (`Option`, `Result`), `http.dfy` (a status and error text) |
| `JsText` | `js_text.dfy`: `trim`, decimal printing, `parseInt`, `join`, ASCII `toLowerCase` |
| `OrderedMap` | `ordered_map.dfy` |
| `Seqs` | `seqs.dfy`: the order-preserving filter that the queries' `where` clauses are stated against |
| `GameModel`, `GamePhysics`, `GameService`, `GameStats` | the registry, its tick and the statistics aggregation |
| `Matchmaking`, `GameSocket` | the light match service and the socket rooms |
| `MatchRequests`, `Tournaments` | the remote-game routes and the tournament routes |
| `Friends`, `Blocks`, `Users`, `ChatService`, `ChatRoutes` | the social routes |
| `HtmlEscape`, `Validation`, `RateLimiting` | sanitising, validation and rate limiting |
| `ErrorHandling`, `Logger`, `Monitoring` | error handling, logging and monitoring |

### Where the model follows the code

- **Physics.** The ball moves at constant speed and is reflected. A tie at
  the end of a match goes to player 2.
- **`createGame`.** It does not refuse a host who already plays
  (`GameService.HostMayHostTwice`). Paddles and ball start from the built-in
  configuration, not from the merged one.
- **`forceEndGame`.** It deletes the match rather than marking it finished.
- **Match-request duplicates.** The one-to-one request route looks for an
  existing pending request in one direction only, so two users can hold
  crossed pending requests (`MatchRequests.RequestMatchAllowsCrossedPair`).
- **0-0 submissions.** A 0-0 score submission leaves the game looking
  unsubmitted and can be submitted again
  (`MatchRequests.ZeroZeroCanBeResubmitted`).
- **Decline route.** The decline route reuses the accept route's 403 text.
- **`/chats/send`.** It stores the content raw: unescaped and without the
  chat service's block and friendship checks (`ChatRoutes.SendStoresMarkupRaw`).
- **Message length.** The `< 1` branch of `validateMessageContent` cannot be
  reached.
- **Search.** The search's `LIKE` pattern treats `%` and `_` in the query as
  wildcards. `Users.SearchFindsSubstrings` states the match for queries
  without them. The query is lower-cased by JavaScript, with full Unicode
  case mapping, but the columns by SQLite's `LOWER`, which maps ASCII
  letters only. A name with a non-ASCII capital is therefore missed by
  its own lower-cased spelling (`Users.NonAsciiCapitalMissed`).
- **Rows in the friendship and user lookups.**
  - `findFirst` over friendships returns some row linking the pair. Under
    the one-row-per-pair invariant that row is unique (`Users.FoundIsTheRow`).
  - The search's `ORDER BY username` is the order of the rows given to it.
- **Logging.**
  - With the log level the environment selects, audit records never reach
    the main log (`Logger.AuditNeverInMainLog`).
  - Health checks fail at a threshold itself, while alerts fire only above
    it (`Monitoring.ThresholdCriticalWithoutAlert`).
  - The health check's error rate uses the live counters, not the
    snapshot's.
- **Monitoring.** `blockedIPs` collects addresses that nothing blocks.
- **Two copies.** `formatZodError` exists in two identical copies, in the
  validation middleware and in the block schemas; both are
  `Validation.FormatZodError`. The two sanitisers, in the chat service and
  in `SecurityValidation`, are both `HtmlEscape.Sanitize`.
- **The tournament winner filter.** The filter applied to round winners is
  `boolean` imported from the validation library, not the global `Boolean`.
  That `boolean` builds a schema object, which is truthy, so the filter
  keeps every winner, the missing winner of a tie included. The filter is
  the parameter `keep`; the route's own filter is `Tournaments.KeepAll`
  (see Findings).
- **`validateUserIdParam`.** The parameter schema's transform throws its
  `ZodError` from inside `safeParse`. `safeParse` does not catch it, so the
  helper never builds its own `Error`, and the `ZodError` escapes to the
  caller (`Blocks.ValidateUserIdParam`). The two check routes are not
  affected: they catch the `ZodError` themselves.
- **A thread without a partner.** `/chats/thread` reads `toUserId` without
  a schema. When the body lacks it, the query's `undefined` fields are
  dropped, and the caller gets every message they sent or received
  (`ChatRoutes.ThreadRoute`).

## Model

| member | source | states |
|---|---|---|
| GameModel.Merge | src/services/GameService.ts:124 | each of the eight fields takes the override's value when it is set and keeps the built-in value when it is not |
| GameModel.MergeNothing | src/services/GameService.ts:124 | an empty override leaves the built-in configuration unchanged |
| GameModel.CentreBall | src/services/GameService.ts:113-122 | a served ball sits at the canvas centre and moves diagonally at the serve speed in the direction the coin flips choose |
| GameModel.Clamp | src/services/GameService.ts:258-264 | the clamp lands inside [lo, hi] when lo <= hi, and leaves values already inside unchanged |
| GameModel.DefaultPlayable | src/services/GameService.ts:66-75 | the built-in configuration leaves room for the ball between the walls and between the two paddles |
| GamePhysics.Advance | src/services/GameService.ts:244-250 | motion keeps the velocity, and no elapsed time leaves the ball where it was |
| GamePhysics.AdvanceAdditive | src/services/GameService.ts:244-250 | two advances in a row equal one advance over the summed time, so the motion is the velocity times 60 times the elapsed seconds |
| GamePhysics.WallBounce | src/services/GameService.ts:253-265 | a wall contact reverses the vertical direction and leaves the centre inside the band; without contact nothing changes |
| GamePhysics.NotBothPaddles | src/services/GameService.ts:293-330 | on a playable canvas the ball cannot overlap both paddles in the same tick |
| GamePhysics.PaddleCollision | src/services/GameService.ts:293-330 | a hit on the left paddle sends the ball right from the paddle face; a hit on the right paddle sends it left; otherwise the ball is unchanged |
| GamePhysics.ResetBall | src/services/GameService.ts:335-340 | after a point the ball is at the centre, with both speed components of magnitude ballSpeed |
| GamePhysics.Finish | src/services/GameService.ts:376-384 | a finished match is won by player 1 only on a strictly higher score, so a tie goes to player 2 |
| GamePhysics.Step | src/services/GameService.ts:240-279 | a step keeps the match live, stamps it with the current time, and changes nothing of the players but their scores; when the moved ball is strictly inside the field, the ball is the moved ball and the players are unchanged |
| GamePhysics.Tick | src/services/GameService.ts:240-288 | a match that is not live is unchanged; otherwise only the scores, ball, status and winner move, the match finishes exactly when a score reaches maxScore, and with no point scored the ball is the moved ball |
| GamePhysics.PlayerTwoScoresAtLeftEdge | src/services/GameService.ts:271-274 | player 2 scores exactly when the moved ball reaches the left edge |
| GamePhysics.PlayerOneScoresAtRightEdge | src/services/GameService.ts:275-278 | player 1 scores exactly when the moved ball reaches the right edge without having reached the left one |
| GamePhysics.OnePointPerTick | src/services/GameService.ts:271-279 | a tick adds at most one point in total, and neither score goes down |
| GamePhysics.BallStaysInBand | src/services/GameService.ts:253-265 | after a tick of a live match on a playable canvas, the ball's centre lies between ballSize/2 and canvasHeight - ballSize/2 |
| GamePhysics.LeftPaddleHitDeniesPoint | src/services/GameService.ts:268-279 | a hit on player 1's paddle puts the ball at the paddle face heading right, so player 2 cannot score in that tick |
| GamePhysics.RightPaddleHitDeniesPoint | src/services/GameService.ts:268-279 | a hit on player 2's paddle puts the ball at the paddle face heading left, so player 1 cannot score in that tick |
| GamePhysics.ScoreResetsBall | src/services/GameService.ts:271-279 | a point puts the ball back at the centre at serve speed |
| GamePhysics.WinnerOfTick | src/services/GameService.ts:282-287 | the win test sees that tick's point: reaching maxScore finishes the match, with the higher score as winner and a tie going to player 2 |
| GameService.EmptyValid | src/services/GameService.ts:63-64 | the empty registry satisfies the invariant: each match is stored under its own id, the second seat is set from `ready` on, and timers exist only for registered matches |
| GameService.NewGame | src/services/GameService.ts:105-129 | a new match carries its own id and waits with only the host seated at score 0, paddle at 160 and ball at (400, 200), using the built-in positions whatever the override |
| GameService.CreateGame | src/services/GameService.ts:80-137 | fails with "User not found" exactly for an unknown host; otherwise registers a new waiting match under the decimal text of the database id and changes nothing else |
| GameService.JoinGame | src/services/GameService.ts:142-193 | refused with the first failing check's reason; on success the joiner takes the second seat at score 0, not ready, paddle centred, and the match becomes ready |
| GameService.JoinRefusedExactly | src/services/GameService.ts:144-168 | a join is refused exactly for an unknown match, a match not waiting, the host joining, or an unknown user |
| GameService.StartGame | src/services/GameService.ts:221-235 | a match with two players starts playing at `now` with its loop registered; otherwise nothing changes |
| GameService.SetPlayerReady | src/services/GameService.ts:198-216 | false with no change for an unknown match or a non-participant; true otherwise |
| GameService.SetPlayerReadyEffect | src/services/GameService.ts:198-235 | only the caller's flag changes; the match becomes playing exactly when it was ready and both flags are now set, and then its clock is set to now and its loop started; otherwise status, clock and loops stay; no other match changes |
| GameService.EndGame | src/services/GameService.ts:376-416 | a match with two players is finished with its winner, its loop stopped and its removal scheduled |
| GameService.UpdateGame | src/services/GameService.ts:240-288 | a match that is absent or not live is left unchanged |
| GameService.UpdateGameIsTick | src/services/GameService.ts:240-288 | what the loop stores is exactly one tick of the physics; a match that finishes loses its loop and gets its clean-up scheduled, one that goes on keeps loops and clean-ups; no other match changes |
| GameService.MovePaddle | src/services/GameService.ts:345-371 | false with no change unless the match is playing and the caller is seated in it |
| GameService.MoveSeat | src/services/GameService.ts:345-371 | the moved match differs only in the mover's paddle height, to clamp(y + direction * paddleSpeed, 0, canvasHeight - paddleHeight) |
| GameService.ForceEndGame | src/services/GameService.ts:421-436 | the entry is removed from any state and its loop stopped; every other entry is untouched; an absent id changes nothing |
| GameService.ForceEndIdempotent | src/services/GameService.ts:421-436 | forcing an end twice is forcing it once |
| GameService.Reap | src/services/GameService.ts:410-415 | the scheduled removal drops the match's entry and its schedule, and only when one was scheduled; no other match changes |
| GameService.GameOf | src/services/GameService.ts:520-527 | no id exactly when no registered match, finished ones included, seats the player; otherwise the id of a registered match |
| GameService.IsPlayerInGame | src/services/GameService.ts:520-527 | the loop over the registry answers the first match in registration order that seats the player |
| GameService.RemovePlayerFromGame | src/services/GameService.ts:532-537 | the player's first match is forced to end; a player in no match, or whose match has the empty id, changes nothing |
| GameService.CreatePreservesValid | src/services/GameService.ts:80-137 | creating a match keeps the registry invariant |
| GameService.JoinPreservesValid | src/services/GameService.ts:142-193 | joining keeps the registry invariant |
| GameService.ReadyPreservesValid | src/services/GameService.ts:198-235 | setting a ready flag, and the start it may trigger, keep the registry invariant |
| GameService.EndPreservesValid | src/services/GameService.ts:376-416 | ending a match keeps the registry invariant |
| GameService.UpdatePreservesValid | src/services/GameService.ts:240-288 | a tick keeps the registry invariant |
| GameService.MovePreservesValid | src/services/GameService.ts:345-371 | a paddle move keeps the registry invariant |
| GameService.ForceEndPreservesValid | src/services/GameService.ts:421-436 | a forced end keeps the registry invariant |
| GameService.ReapPreservesValid | src/services/GameService.ts:410-415 | the scheduled removal keeps the registry invariant |
| GameService.HostMayHostTwice | src/services/GameService.ts:80-137 | a host already seated in a waiting match can create a second one |
| GameStats.PlayerGames | src/services/GameService.ts:457-462 | the games counted are the remote games in which the player holds a seat, each as often as stored, in row order |
| GameStats.Wins | src/services/GameService.ts:464-470 | the number of games whose recorded winner is the player |
| GameStats.PlayerStats | src/services/GameService.ts:455-489 | games played is the number of the player's games, wins and total score are taken over exactly those games, losses make up the rest; the unrounded win rate and average are the ratios, in [0, 100] for the rate, and 0 with no games |
| GameStats.WinsAppend | src/services/GameService.ts:464-470 | wins over two batches of games add up |
| GameStats.TotalScoreAppend | src/services/GameService.ts:471-483 | total scores over two batches of games add up |
| GameStats.TotalScoreBounds | src/services/GameService.ts:471-483 | with scores in [0, max], the total lies in [0, max times the number of games] |
| GameStats.StatsAppend | src/services/GameService.ts:455-489 | the games, wins and total score over two batches of rows are the sums over each batch |
| GameStats.AverageWithinScores | src/services/GameService.ts:471-489 | with every stored score in [0, max], the unrounded average score lies in [0, max] |
| Matchmaking.Add | src/modules/game/gameservice.ts:22-26 | a queued user is not added again; otherwise the user is appended at the back |
| Matchmaking.AddKeepsNoDuplicates | src/modules/game/gameservice.ts:22-26 | the queue never holds a user twice |
| Matchmaking.IndexOf | src/modules/game/gameservice.ts:29 | the first position of the user, or none when the user is absent |
| Matchmaking.Remove | src/modules/game/gameservice.ts:28-33 | an absent user changes nothing; a present one is removed once, the queue shrinks by one, and nobody else is affected |
| Matchmaking.RemoveUndoesAdd | src/modules/game/gameservice.ts:22-33 | removing a user just added to a queue without them restores the queue |
| Matchmaking.RemoveKeepsOrder | src/modules/game/gameservice.ts:28-33 | what remains is the part before the user followed by the part after, in order |
| Matchmaking.FindMatch | src/modules/game/gameservice.ts:35-42 | with two or more waiting, the two oldest are paired and removed; with fewer, no pair and the queue is unchanged |
| Matchmaking.FindMatchDistinct | src/modules/game/gameservice.ts:35-42 | a pair drawn from a duplicate-free queue is two different users, neither of whom is left in the queue |
| Matchmaking.CreateMatch | src/modules/game/gameservice.ts:44-64 | a new match is playing at 0-0, both paddles at 200, ball at (400, 250) with speed (5, 3), and is stored under its id |
| Matchmaking.StepPaddle | src/modules/game/gameservice.ts:70-86 | up moves 8 towards 0 and down 8 towards 400 without passing them; any other direction leaves the paddle |
| Matchmaking.UpdatePaddle | src/modules/game/gameservice.ts:66-87 | only the caller's paddle in an existing playing match moves; everything else is unchanged |
| Matchmaking.UpdateKeepsPaddlesOnCanvas | src/modules/game/gameservice.ts:70-86 | paddles that start in [0, 400] stay there, whoever moves |
| Matchmaking.RemoveMatch | src/modules/game/gameservice.ts:93-95 | the match is gone and the others are untouched |
| GameSocket.Without | src/modules/socket/GameSocket.ts:335 | deleting a player from a room keeps exactly the other members, and keeps them distinct |
| GameSocket.AddPlayerToRoom | src/modules/socket/GameSocket.ts:321-327 | the room, created if missing, gains the player; the player's game is recorded; other rooms are untouched |
| GameSocket.RemovePlayerFromRoom | src/modules/socket/GameSocket.ts:332-341 | the player leaves the room, an emptied room is deleted, the player's record always goes, and other rooms are untouched |
| GameSocket.GetActiveRooms | src/modules/socket/GameSocket.ts:346-351 | each room in insertion order with its number of players |
| GameSocket.GetPlayersInRoom | src/modules/socket/GameSocket.ts:356-359 | a known room's players, and none for an unknown room |
| GameSocket.ActiveRoomsNonEmpty | src/modules/socket/GameSocket.ts:322-338 | while the two maps are in step, every active room reports at least one player |
| GameSocket.AddKeepsInStep | src/modules/socket/GameSocket.ts:321-327 | adding a player with no recorded game keeps the room map and the player map in step |
| GameSocket.AddRecordsPresent | src/modules/socket/GameSocket.ts:321-327 | after an add, every recorded player is present in the room of their game |
| GameSocket.RemoveKeepsInStep | src/modules/socket/GameSocket.ts:332-341 | removing a player from the room of their recorded game keeps the maps in step |
| GameSocket.HandleJoinGame | src/modules/socket/GameSocket.ts:75-122 | missing data and players already recorded in a game are refused with no change; otherwise the join goes to the service and, on success, the player enters the room |
| GameSocket.JoinKeepsInStep | src/modules/socket/GameSocket.ts:75-122 | a join through the socket keeps the room maps in step and records the joiner in the game |
| GameSocket.HandlePlayerReady | src/modules/socket/GameSocket.ts:127-171 | missing data is refused with no change; otherwise the flag goes to the service |
| GameSocket.HandlePaddleMove | src/modules/socket/GameSocket.ts:176-197 | only directions -1 and 1 reach the service; anything else, or missing data, changes nothing |
| GameSocket.HandleSpectateGame | src/modules/socket/GameSocket.ts:202-227 | spectating is allowed exactly for an authenticated user naming a registered match |
| GameSocket.Depart | src/modules/socket/GameSocket.ts:232-294 | a user with no recorded game changes nothing; otherwise the user leaves the room and that match is forced to end |
| GameSocket.DepartKeepsInStep | src/modules/socket/GameSocket.ts:232-294 | leaving or disconnecting keeps the room maps in step |
| GameSocket.JoinThenDepart | src/modules/socket/GameSocket.ts:232-260 | a player who joined and then leaves is recorded nowhere, and the joined match is gone |
| MatchRequests.StatusName | src/modules/game/game.remote-invites.routes.ts:218-222 | every status has a non-empty name to quote in the refusal |
| MatchRequests.SendInvite | src/modules/game/game.remote-invites.routes.ts:35-159 | refused for oneself, an unknown recipient, a pending invite between the pair in either direction, or either user in a game; otherwise exactly one pending invite is added |
| MatchRequests.RespondInvite | src/modules/game/game.remote-invites.routes.ts:163-333 | only the recipient of a pending invite may answer; decline sets declined; accept expires the invite when the requester plays and refuses when the recipient plays; no other row changes |
| MatchRequests.CancelInvite | src/modules/game/game.remote-invites.routes.ts:409-487 | succeeds exactly for the requester of a pending invite, setting it to cancelled; 404, 403 and 400 otherwise |
| MatchRequests.SendKeepsInvariants | src/modules/game/game.remote-invites.routes.ts:35-159 | sending keeps the table free of self-addressed rows and of two pending rows for one pair |
| MatchRequests.RespondKeepsInvariants | src/modules/game/game.remote-invites.routes.ts:163-333 | responding keeps both table invariants and moves only the answered row, out of pending |
| MatchRequests.CancelKeepsInvariants | src/modules/game/game.remote-invites.routes.ts:409-487 | cancelling keeps both table invariants |
| MatchRequests.SettledIsFinal | src/modules/game/game.remote-invites.routes.ts:218-222 | accepted, declined, cancelled and expired invites can no longer be answered or cancelled |
| MatchRequests.OpenAccepted | src/modules/game/game.remote-invites.routes.ts:273-286 | on a 200 only that invitation changes: it is marked accepted and records the id of a match that is ready, with the requester in the first seat and the recipient in the second; a registry failure answers 500 and leaves every invitation as it was |
| MatchRequests.AcceptOpensMatch | src/modules/game/game.remote-invites.routes.ts:274-286 | accepting while neither user plays opens a match hosted by the requester and joined by the recipient, and records it as accepted |
| MatchRequests.RequestMatch | src/modules/game/game.remote-1v1.routes.ts:10-66 | refused for a zero or self opponent, an unknown opponent, or a pending request in the same direction; otherwise one pending request is added |
| MatchRequests.RequestMatchAllowsCrossedPair | src/modules/game/game.remote-1v1.routes.ts:39-50 | a request is accepted while the opposite request is pending, so crossed pending pairs exist |
| MatchRequests.RespondMatch | src/modules/game/game.remote-1v1.routes.ts:70-173 | only the recipient of a pending request may answer; accept opens a 0-0 game with the requester in the first seat |
| MatchRequests.OneToOneMoves | src/modules/game/game.remote-1v1.routes.ts:10-173 | both one-to-one operations change the table only by adding a pending row or moving a pending row to accepted or declined |
| MatchRequests.SubmittedWinner | src/modules/game/game.remote-1v1.routes.ts:230-233 | the first seat on a higher first score, the second seat on a higher second score, no winner on a tie |
| MatchRequests.SubmitScore | src/modules/game/game.remote-1v1.routes.ts:177-250 | an unparsable id is refused with 400, an unknown game with 404, a non-participant with 403, a game already scored with 400; a participant of a 0-0 game always succeeds, recording both scores and the winner |
| MatchRequests.SubmitOnce | src/modules/game/game.remote-1v1.routes.ts:224-227 | once a result with a point on the board is stored, later submissions are refused |
| MatchRequests.ZeroZeroCanBeResubmitted | src/modules/game/game.remote-1v1.routes.ts:224-227 | a 0-0 submission leaves the game open to another submission |
| MatchRequests.ListRequests | src/modules/game/game.remote-1v1.routes.ts:254-322 | the total is the number of the user's requests with the asked status; the page is the rows of that filtered list from the offset on, at most `limit` of them and all that remain otherwise; `hasMore` holds exactly when offset + limit < total |
| MatchRequests.HasMoreIffRowsRemain | src/modules/game/game.remote-1v1.routes.ts:314 | `hasMore` says exactly that matching rows remain beyond the page |
| MatchRequests.ListInvites | src/modules/game/game.remote-invites.routes.ts:337-406 | the first min(50, n) of the user's n invites of the asked kind, in row order, each labelled sent when the user requested it and received otherwise |
| MatchRequests.InviteLabelsMatchRole | src/modules/game/game.remote-invites.routes.ts:394 | "sent" rows were sent by the user and "received" rows were sent to the user |
| Tournaments.Pairs | src/modules/game/game.tournaments.routes.ts:87-106 | entries 2k and 2k+1 meet in the k-th match at 0-0; an odd last entry has an empty seat |
| Tournaments.EntrantsOfPairs | src/modules/game/game.tournaments.routes.ts:87-106 | reading the seats of the paired matches back gives the entrants in order |
| Tournaments.CreateTournament | src/modules/game/game.tournaments.routes.ts:52-118 | four to eight names give an in-progress tournament whose round-1 matches pair them in order |
| Tournaments.InRound | src/modules/game/game.tournaments.routes.ts:155-157 | exactly the matches of that round, in their order |
| Tournaments.InRoundInOrder | src/modules/game/game.tournaments.routes.ts:155-157 | the round's matches are the table filtered by round, in table order and with their multiplicity |
| Tournaments.AllPlayed | src/modules/game/game.tournaments.routes.ts:159-161 | a round is over exactly when every match has a nonzero score |
| Tournaments.ZeroZeroKeepsRoundOpen | src/modules/game/game.tournaments.routes.ts:159-161 | one 0-0 match keeps the round open |
| Tournaments.MatchWinner | src/modules/game/game.tournaments.routes.ts:167-172 | the first seat on a higher first score, the second on a higher second score, none on a tie |
| Tournaments.Winners | src/modules/game/game.tournaments.routes.ts:167-173 | every kept winner is the winner of some match of the round and passes the filter |
| Tournaments.WinnersKeepAll | src/modules/game/game.tournaments.routes.ts:167-173 | under a filter that keeps everything, the winners are the match winners one for one |
| Tournaments.TieSeatsNobody | src/modules/game/game.tournaments.routes.ts:167-200 | under the route's own filter, a tied first-round match puts a missing name into the second round's first seat |
| Tournaments.NamedRoundSeatsNames | src/modules/game/game.tournaments.routes.ts:167-200 | with missing names dropped, a champion always has a name and every next-round match has a named first seat, with an empty second seat only in the last match |
| Tournaments.WinnersInOrder | src/modules/game/game.tournaments.routes.ts:167-173 | the kept winners are the match winners in match order with exactly the rejected values dropped |
| Tournaments.CloseRound | src/modules/game/game.tournaments.routes.ts:153-208 | an open round changes nothing; a single winner completes the tournament as champion; otherwise the winners are paired into the next round |
| Tournaments.SubmitScore | src/modules/game/game.tournaments.routes.ts:138-208 | an unknown match changes nothing; otherwise the scores are stored and the round is closed |
| Tournaments.SubmitKeepsTable | src/modules/game/game.tournaments.routes.ts:147-150 | a submission keeps every earlier match except the scored one, which gets the new scores |
| Tournaments.ChampionWonLastRound | src/modules/game/game.tournaments.routes.ts:175-184 | a champion is the winner of a match in the round just closed |
| Tournaments.BracketFirstResult | src/modules/game/game.tournaments.routes.ts:159-164 | in a four-player cup, the first result leaves the round waiting |
| Tournaments.BracketSecondResult | src/modules/game/game.tournaments.routes.ts:186-206 | the second result pairs the two winners into a round-2 final |
| Tournaments.BracketFinal | src/modules/game/game.tournaments.routes.ts:175-184 | the final's result names its winner champion and completes the tournament |
| Tournaments.FinalMatch | src/modules/game/game.tournaments.routes.ts:249-251 | a match of the highest round, or none for a tournament without matches |
| Tournaments.WonByFinalWinner | src/modules/game/game.tournaments.routes.ts:247-259 | a tournament counts as won exactly when its final's first seat wins on a higher score, or else its second seat, and that seat is the user |
| Tournaments.Divide | src/modules/game/game.tournaments.routes.ts:267-270 | division of non-negative numbers: the quotient when the divisor is positive, NaN for 0/0 and Infinity otherwise |
| Tournaments.Percent | src/modules/game/game.tournaments.routes.ts:267-270 | a finite value times 100; NaN and Infinity stay non-finite |
| Tournaments.CountCompleted | src/modules/game/game.tournaments.routes.ts:244-246 | the number of tournaments whose status is completed |
| Tournaments.CountWon | src/modules/game/game.tournaments.routes.ts:247-259 | the number of tournaments whose final the user wins by the history's test |
| Tournaments.HistoryStatsAsWritten | src/modules/game/game.tournaments.routes.ts:243-270 | the counts are the completed and won counts, bounded by the total; the rate is 0 for no tournaments and won over completed times 100 otherwise, whatever completed is |
| Tournaments.InProgressHistoryIsNaN | src/modules/game/game.tournaments.routes.ts:226-270 | a history of one tournament in progress, with the user in the first seat of a 0-0 match, has the rate 0/0, NaN |
| Tournaments.HistoryStats | src/modules/game/game.tournaments.routes.ts:243-270 | the counts are the completed and won counts; the rate is always finite: won times 100 over completed, and 0 when nothing is completed |
| Tournaments.HistoryAgreesWhenCompleted | src/modules/game/game.tournaments.routes.ts:267-270 | with at least one completed tournament, the written and the corrected rates agree |
| Friends.Request | src/modules/friends/friends.routes.ts:7-66 | 400 for oneself, 403 under a block either way, 409 for any row between the pair; otherwise one pending row with the caller as requester |
| Friends.Respond | src/modules/friends/friends.routes.ts:70-121 | 404 for a missing request, 403 unless the caller is the recipient, 400 unless pending; otherwise only that row's status becomes accepted or declined |
| Friends.FriendsList | src/modules/friends/friends.routes.ts:124-169 | exactly the other party of each accepted friendship involving the caller |
| Friends.PendingList | src/modules/friends/friends.routes.ts:172-203 | exactly who asked the caller and is still unanswered |
| Friends.SentList | src/modules/friends/friends.routes.ts:206-237 | exactly whom the caller asked and is still unanswered |
| Friends.Block | src/modules/friends/friends.routes.ts:240-273 | 400 for oneself, 409 for an existing pair; otherwise only that pair is added |
| Friends.Unblock | src/modules/friends/friends.routes.ts:276-311 | 400 for oneself, 404 for a missing pair; otherwise only that pair is removed |
| Friends.RequestKeepsValid | src/modules/friends/friends.routes.ts:40-58 | a request keeps one row per pair and no self-friendship |
| Friends.RespondKeepsValid | src/modules/friends/friends.routes.ts:75-86 | an answer keeps the table valid and changes one row from pending |
| Friends.HandledIsFinal | src/modules/friends/friends.routes.ts:80-81 | an answered request refuses every later answer |
| Friends.AcceptedRequestMakesFriends | src/modules/friends/friends.routes.ts:70-91 | a request its recipient accepts puts each user in the other's friends list |
| Friends.BlockStopsRequests | src/modules/friends/friends.routes.ts:28-37 | a block in either direction refuses requests both ways |
| Friends.BlockThenUnblockRestores | src/modules/friends/friends.routes.ts:240-311 | unblocking a fresh block restores the relation |
| Friends.UnblockThenBlockRestores | src/modules/friends/friends.routes.ts:240-311 | blocking again after an unblock restores the relation |
| Blocks.UserIdSchema | src/modules/blocks/blocks.schemas.ts:4 | admits exactly the positive integers |
| Blocks.ParamUserId | src/modules/blocks/blocks.schemas.ts:19-31 | the parameter is read with parseInt(val, 10); NaN and values below 1 are refused, so every accepted id is positive |
| Blocks.ParamReadsDecimal | src/modules/blocks/blocks.schemas.ts:19-31 | every positive id written in decimal is read back as itself |
| Blocks.ValidateUserIdParam | src/modules/blocks/blocks.schemas.ts:20-91 | succeeds exactly when the parameter parses to a positive id, which it returns; otherwise the transform's `ZodError` escapes, carrying the one custom `userId` issue, rather than the helper's own `Error` |
| Blocks.RefusedParamIsZodReply | src/middlewares/errorHandling.middleware.ts:199-250 | a refused id that reaches the global error handler is answered 400, named "ZodError", with a message (built by the handler's `formatZodError`, lines 83-97) that begins with the issue's text |
| Blocks.Block | src/modules/blocks/blocks.routes.ts:21-97 | a malformed body is refused with the schema message; then 400 for oneself, 404 for an unknown user, 409 for an existing block; otherwise exactly (caller, target) is added |
| Blocks.Unblock | src/modules/blocks/blocks.routes.ts:100-148 | 404 without a (caller, target) block; otherwise only that block is removed |
| Blocks.BlockedByMe | src/modules/blocks/blocks.routes.ts:151-188 | exactly whom the caller has blocked (`GET /friends/blocked`, src/modules/friends/friends.routes.ts:314-339, runs the same filter on the `block` table, without an order, and is this function applied to Friends.Blocks) |
| Blocks.Check | src/modules/blocks/blocks.routes.ts:191-231 | for a valid parameter, true exactly when the caller has blocked that user |
| Blocks.CheckBlockedBy | src/modules/blocks/blocks.routes.ts:234-274 | for a valid parameter, true exactly when that user has blocked the caller |
| Blocks.ChecksAreConverse | src/modules/blocks/blocks.routes.ts:191-274 | one user's check equals the other's check-blocked-by |
| Blocks.BlockIsDirectional | src/modules/blocks/blocks.routes.ts:214-267 | a block of b by a does not show as a block of a by b |
| Blocks.BlockThenUnblockRestores | src/modules/blocks/blocks.routes.ts:71-137 | blocking and then unblocking the same user restores the relation |
| Users.BlockedCounterparts | src/modules/users/users.routes.ts:11-25 | exactly the users on the other side of a block involving the caller, in either direction |
| Users.FindFriendship | src/modules/users/users.routes.ts:44-51 | no row exactly when nothing links the pair; otherwise a row linking them |
| Users.FoundIsTheRow | src/modules/users/users.routes.ts:44-51 | with one row per pair, the row found is the row linking the pair |
| Users.Classify | src/modules/users/users.routes.ts:53-61 | accepted for an accepted row; pending_sent or pending_received for a pending row, by who asked; null for no row or a declined one |
| Users.FriendshipIdField | src/modules/users/users.routes.ts:65 | the row's id, read as absent when it is 0 |
| Users.ListUsers | src/modules/users/users.routes.ts:28-68 | every user except the caller and the blocked counterparts, each with its label |
| Users.LabelMatchesLists | src/modules/users/users.routes.ts:53-61 | the labels agree with the friends, sent and pending lists of the friends routes |
| Users.PendingSeenFromBothSides | src/modules/users/users.routes.ts:57-60 | a pending request reads as sent to its requester and received to its recipient |
| Users.LikePrefix | src/modules/users/users.routes.ts:88-100 | a plain term followed by % matches exactly the strings that start with the term |
| Users.LikeContains | src/modules/users/users.routes.ts:88-100 | %term% for a plain term matches exactly the strings that contain it |
| Users.Matches | src/modules/users/users.routes.ts:93-100 | exactly the rows other than the caller whose lower-cased name or e-mail matches the pattern |
| Users.MatchesInOrder | src/modules/users/users.routes.ts:93-100 | the matches are the ids of the admitted rows, in row order, one per admitted row |
| Users.Search | src/modules/users/users.routes.ts:83-100 | refused, quoting the query, exactly when the trimmed query is shorter than 2 UTF-16 code units; otherwise the term is the trimmed query lower-cased by `toLowerCase`, the result is at most 50 matches, all of them when there are at most 50 and the first 50 otherwise |
| Users.SingleEmojiQueryAccepted | src/modules/users/users.routes.ts:83-86 | one emoji, two code units long, passes the length test |
| Users.SearchFindsSubstrings | src/modules/users/users.routes.ts:88-100 | for a term without % and _, a row is found exactly when the term occurs in its ASCII-lower-cased name or e-mail |
| Users.NonAsciiCapitalMissed | src/modules/users/users.routes.ts:88-97 | a user named "Élan" is not found by the term "él" that `toLowerCase` makes of "ÉL", since SQLite's `LOWER` keeps "É" |
| ChatService.CheckMutualBlocking | src/modules/chats/chats.service.ts:58-64 | true exactly when either user has blocked the other |
| ChatService.ChecksSymmetric | src/modules/chats/chats.service.ts:11-64 | the block check and the friendship check give the same answer in both argument orders |
| ChatService.FriendsListIsFriendship | src/modules/chats/chats.service.ts:11-22 | the friendship check holds exactly when each user is in the other's friends list, so only accepted rows count |
| ChatService.ValidateMessageSending | src/modules/chats/chats.service.ts:76-105 | checks self, recipient existence, blocking and friendship in that order, failing with the first failing check's reason |
| ChatService.SendingIsMutual | src/modules/chats/chats.service.ts:76-105 | two existing users may write to each other in both directions or in neither |
| ChatService.BlockSilencesBoth | src/modules/chats/chats.service.ts:93-97 | a block in either direction stops messages both ways |
| ChatService.ValidateMessageContent | src/modules/chats/chats.service.ts:137-157 | required for missing or empty content, empty after trimming, too long beyond 1000 UTF-16 code units of trimmed text, valid otherwise |
| ChatService.AstralCharactersCountTwice | src/modules/chats/chats.service.ts:142-150 | 501 trimmed characters above U+FFFF are already too long |
| ChatService.BasicPlaneLimit | src/modules/chats/chats.service.ts:142-157 | up to 1000 trimmed characters of the Basic Multilingual Plane are valid |
| ChatService.ValidContentSurvivesSanitising | src/modules/chats/chats.service.ts:117-157 | content that passes validation is non-empty after sanitising |
| ChatRoutes.Send | src/modules/chats/chats.routes.ts:13-22 | missing or blank content is refused with 400; otherwise the message is appended exactly as given |
| ChatRoutes.SendStoresMarkupRaw | src/modules/chats/chats.routes.ts:13-22 | markup is stored unescaped |
| ChatRoutes.Thread | src/modules/chats/chats.routes.ts:32-47 | exactly the messages between the two users, and no more than the input holds |
| ChatRoutes.ThreadInOrder | src/modules/chats/chats.routes.ts:38-47 | the thread is the message table filtered to the two users, oldest first, each message as often as stored |
| ChatRoutes.ThreadRoute | src/modules/chats/chats.routes.ts:32-46 | with a partner, the thread between the two; without one, exactly the messages the caller sent or received |
| ChatRoutes.ThreadWithinUnfiltered | src/modules/chats/chats.routes.ts:38-44 | every thread of the caller's lies within the answer for a missing partner |
| ChatRoutes.ThreadSymmetric | src/modules/chats/chats.routes.ts:38-46 | both users read the same thread |
| ChatRoutes.SentMessageEndsThread | src/modules/chats/chats.routes.ts:16-46 | a sent message is the new last entry of the thread, after the old thread |
| ChatRoutes.Counterpart | src/modules/chats/chats.routes.ts:89-91 | the recipient when the caller sent the message, the sender otherwise |
| ChatRoutes.Counterparts | src/modules/chats/chats.routes.ts:60-91 | exactly the other parties of the caller's messages |
| ChatRoutes.CounterpartsInOrder | src/modules/chats/chats.routes.ts:59-90 | one counterpart per message of the caller's, in creation order |
| ChatRoutes.FirstOccurrences | src/modules/chats/chats.routes.ts:93-98 | the same ids as the input |
| ChatRoutes.FirstOccurrencesOrdered | src/modules/chats/chats.routes.ts:93-98 | the reference keeps no id twice and orders ids by first appearance |
| ChatRoutes.Dedup | src/modules/chats/chats.routes.ts:93-98 | the insertion-ordered map's values are the first occurrences: no repeats, the same ids, in order of first appearance |
| ChatRoutes.Conversations | src/modules/chats/chats.routes.ts:56-99 | each user the caller has exchanged a message with, exactly once; the list is the reference de-duplication of the counterparts, ordered by each user's first message |
| HtmlEscape.ReplaceAllAppend | src/modules/chats/chats.service.ts:123-128 | replacing in a concatenation is replacing in each part |
| HtmlEscape.ReplaceOne | src/modules/chats/chats.service.ts:123-128 | a single character becomes the replacement exactly when it is the replaced character, so every occurrence is replaced and nothing else changes |
| HtmlEscape.EscapeIsPerChar | src/modules/chats/chats.service.ts:123-128 | escaping with & first is the same as escaping each character on its own |
| HtmlEscape.UnescapeEscape | src/modules/chats/chats.service.ts:123-128 | the escape can be undone, so no text is lost |
| HtmlEscape.EscapeKeepsTrimmed | src/modules/chats/chats.service.ts:123-129 | escaping trimmed text leaves it trimmed |
| HtmlEscape.Sanitize | src/modules/chats/chats.service.ts:117-130 | the result is trimmed, and empty input gives the empty string (src/middlewares/validation.middleware.ts:102-113 holds an identical copy) |
| HtmlEscape.SanitizeIsEscapeOfTrim | src/modules/chats/chats.service.ts:123-129 | escaping adds and removes no white space, so sanitising is escaping the trimmed input |
| HtmlEscape.SanitizeIsSafe | src/modules/chats/chats.service.ts:123-129 | the result contains no raw <, >, double quote or single quote |
| Validation.FormatZodError | src/middlewares/validation.middleware.ts:64-70 | the first issue's message, or "Invalid input data" with no issue (src/modules/blocks/blocks.schemas.ts:77-83 holds an identical copy) |
| Validation.FormatZodErrorDetailed | src/middlewares/validation.middleware.ts:72-86 | the first issue's message and code, "unknown" as the field for an empty path, fixed defaults with no issue |
| Validation.SplitJoin | src/middlewares/validation.middleware.ts:77 | splitting the joined parts on the separator gives them back when no part holds it |
| Validation.FieldNamesPath | src/middlewares/validation.middleware.ts:77 | a path of plain keys can be read back from the field text |
| Validation.PartRefusal | src/middlewares/validation.middleware.ts:15-25 | a schema failure gives 400 with the summary and the part's name; any other throw gives 400 with the part's fixed text |
| Validation.Validate | src/middlewares/validation.middleware.ts:10-62 | body, then params, then query; the first failing part decides the refusal, and none fails only when all pass |
| Validation.LaterPartsUnread | src/middlewares/validation.middleware.ts:13-56 | once a part fails, the parts after it do not matter |
| RateLimiting.GetKey | src/middlewares/rateLimiting.middleware.ts:41-53 | user:id for a user with a nonzero id, else ip:address; the prefixed generators test only that a user is present |
| RateLimiting.DefaultKeysSeparate | src/middlewares/rateLimiting.middleware.ts:47-52 | different users, and a user and an anonymous caller, never share a bucket |
| RateLimiting.CheckLimit | src/middlewares/rateLimiting.middleware.ts:55-83 | a missing or expired window restarts at count 1 and allows; otherwise the count rises by one and allows while it is at most the maximum; only the touched key changes |
| RateLimiting.WindowEndBelongsToWindow | src/middlewares/rateLimiting.middleware.ts:59 | a call at exactly the reset time still counts against the old window |
| RateLimiting.AtMostMaxPerWindow | src/middlewares/rateLimiting.middleware.ts:55-83 | within one window at most maxRequests calls for a key are allowed |
| RateLimiting.Cleanup | src/middlewares/rateLimiting.middleware.ts:32-39 | deletes exactly the entries whose reset time is before now, keeping the rest unchanged |
| RateLimiting.CleanupKeepsVerdicts | src/middlewares/rateLimiting.middleware.ts:32-39 | a clean-up never changes a later verdict |
| RateLimiting.Middleware | src/middlewares/rateLimiting.middleware.ts:85-111 | refuses with 429, the limiter's message or a default, and the seconds to the window's end rounded up, exactly when the check disallows |
| RateLimiting.SocketCheckLimit | src/middlewares/rateLimiting.middleware.ts:181-195 | the same fixed-window rule under socket:userId, answering only the allow bit |
| ErrorHandling.SubclassStatuses | src/middlewares/errorHandling.middleware.ts:30-81 | each subclass has a fixed status and code: client errors for all but the database error, which is 500 |
| ErrorHandling.NotFound | src/middlewares/errorHandling.middleware.ts:37-42 | status 404 with code NOT_FOUND, and a message starting with the resource |
| ErrorHandling.Unauthorized | src/middlewares/errorHandling.middleware.ts:44-49 | status 401 with the given message or the default |
| ErrorHandling.Forbidden | src/middlewares/errorHandling.middleware.ts:51-56 | status 403 with the given message or the default |
| ErrorHandling.ZodSummary | src/middlewares/errorHandling.middleware.ts:83-89 | no issues give the empty text; a single issue gives its text, which is its message alone when its path is empty |
| ErrorHandling.ZodSummaryExtendsMiddlewareText | src/middlewares/errorHandling.middleware.ts:83-89 | the handler's summary starts with the validation middleware's message |
| ErrorHandling.Classify | src/middlewares/errorHandling.middleware.ts:204-226 | the error's own status; 400 for schema, validation and cast errors; 500 for database driver errors; else the error's status code or 500 |
| ErrorHandling.CreateErrorResponse | src/middlewares/errorHandling.middleware.ts:91-124 | the given status and details, with the given message or else the error's own |
| ErrorHandling.Respond | src/middlewares/errorHandling.middleware.ts:199-250 | outside development a server error is masked as "Internal Server Error" without details; in development it carries the stack |
| ErrorHandling.DevOnlyChangesServerErrors | src/middlewares/errorHandling.middleware.ts:234-246 | below 500 the answer is the same in and out of development |
| ErrorHandling.ProductionMasking | src/middlewares/errorHandling.middleware.ts:234-246 | a database error is masked in production, while client errors keep their message and status |
| ErrorHandling.ClientDetails | src/middlewares/errorHandling.middleware.ts:105-122 | schema failures list each issue and rate-limit errors carry retryAfter |
| ErrorHandling.LogErrorAsWritten | src/middlewares/errorHandling.middleware.ts:126-195 | routes by status, with the 429 branch passing the rate-limit arguments out of order |
| ErrorHandling.LogError | src/middlewares/errorHandling.middleware.ts:126-195 | the same routing, with the 429 branch passing the caller's id and address where the logger expects them |
| ErrorHandling.ErrorsFileGrowth | src/middlewares/errorHandling.middleware.ts:126-195 | the errors file gains two lines for a server error, one for 401 or 403, none otherwise; the security file gains one for server, auth and rate-limit errors |
| ErrorHandling.RateLimitLineLosesCaller | src/middlewares/errorHandling.middleware.ts:173-180 | as written, the rate-limit security line always reads userId=N/A ip=unknown |
| ErrorHandling.RateLimitLineNamesCaller | src/middlewares/errorHandling.middleware.ts:173-180 | corrected, the line names the caller's id and address |
| ErrorHandling.Handle | src/middlewares/errorHandling.middleware.ts:199-250 | answers with the response and logs; a server error adds two lines to the errors file |
| ErrorHandling.NotFoundHandler | src/middlewares/errorHandling.middleware.ts:252-270 | always 404 with "Route not found", logging a warning when warnings pass |
| ErrorHandling.NotFoundAgreesWithHandler | src/middlewares/errorHandling.middleware.ts:252-270 | the answer equals the error handler's answer to a not-found error for a route |
| Logger.ThresholdIsACut | src/utils/logger.ts:121-123 | errors always pass, audit passes only at the audit threshold, and the levels are totally ordered |
| Logger.Fields | src/utils/logger.ts:73-77 | no fields exactly when id, address, endpoint, status and duration are all absent or falsy |
| Logger.Format | src/utils/logger.ts:68-92 | the line starts with "[timestamp] LEVEL: message" |
| Logger.FalsyFieldsVanish | src/utils/logger.ts:73-77 | a user id, duration or status of 0 and an empty address or endpoint print as if absent |
| Logger.BareEntryIsHeader | src/utils/logger.ts:68-92 | an entry with nothing extra prints as its header |
| Logger.Log | src/utils/logger.ts:129-153 | an entry below the threshold changes nothing; otherwise the main log gains the line, and the errors file too for an error |
| Logger.ErrorsFileMirrorsErrors | src/utils/logger.ts:149-152 | a line reaches the errors file only for an error, and equals the main log's line |
| Logger.RequestLevel | src/utils/logger.ts:189-190 | error for 500 and above, warn for 400 to 499, info below 400 |
| Logger.LogRequest | src/utils/logger.ts:189-202 | a server error always reaches the errors file |
| Logger.SecurityLevel | src/utils/logger.ts:239 | high and critical are errors; everything else warns |
| Logger.Security | src/utils/logger.ts:237-256 | the security file gains the formatted line; high and critical also reach the errors file |
| Logger.PerformanceLevel | src/utils/logger.ts:261 | warn on failure or above 5000 ms, debug otherwise |
| Logger.DatabaseLevel | src/utils/logger.ts:277 | error on failure, warn above 1000 ms, debug otherwise |
| Logger.QuietWhenFast | src/utils/logger.ts:259-289 | at the info threshold, fast successful operations log nothing |
| Logger.AuthSeverity | src/utils/logger.ts:320-344 | failed logins are medium, unauthorized access is high, other events are not security events |
| Logger.AuthEvent | src/utils/logger.ts:320-344 | failed logins and unauthorized access add exactly their security line (event, severity, user, address and details); unauthorized access also an errors line; other events touch neither file; the audit file never changes |
| Logger.RateLimitHit | src/utils/logger.ts:308-317 | one medium RATE_LIMIT_EXCEEDED security line, and no errors line |
| Logger.AuditLog | src/utils/logger.ts:205-234 | the audit file always gains the record; the main log gains it exactly at the audit threshold |
| Logger.ThresholdFor | src/utils/logger.ts:375-380 | debug in development, info otherwise |
| Logger.AuditNeverInMainLog | src/utils/logger.ts:205-234 | under the level the environment selects, audit records never reach the main log |
| Monitoring.AddResponseTime | src/services/monitoring.service.ts:198-204 | the new duration is last; the buffer grows below 1000 and stays at 1000 |
| Monitoring.AddKeepsSuffix | src/services/monitoring.service.ts:198-204 | the buffer after an add is the last 1000 of the old buffer followed by the new duration |
| Monitoring.BufferHoldsLatest | src/services/monitoring.service.ts:198-204 | after any sequence of adds, the buffer holds the 1000 most recent durations in arrival order |
| Monitoring.Average | src/services/monitoring.service.ts:113-117 | 0 for an empty buffer; otherwise the mean rounded to the nearest integer |
| Monitoring.AverageWithinRange | src/services/monitoring.service.ts:113-117 | the average lies between the least and the greatest possible duration |
| Monitoring.CountEvent | src/services/monitoring.service.ts:215-230 | exactly the event's counter rises by one, and a non-empty address joins blockedIPs |
| Monitoring.RecordSecurityEvent | src/services/monitoring.service.ts:215-237 | counts the event and writes one medium security line |
| Monitoring.IncrementRateLimitHits | src/services/monitoring.service.ts:210-213 | hits and violations both rise by one, and nothing else changes |
| Monitoring.IncrementRequestCount | src/services/monitoring.service.ts:190-192 | the request count rises by one, and nothing else changes |
| Monitoring.IncrementErrorCount | src/services/monitoring.service.ts:194-196 | the error count rises by one, and nothing else changes |
| Monitoring.ResetDailyCounters | src/services/monitoring.service.ts:173-187 | every counter is zero and blockedIPs is empty; snapshots and connections stay |
| Monitoring.Collect | src/services/monitoring.service.ts:83-111 | the new snapshot records the live counters and average, and is the latest; earlier snapshots stay |
| Monitoring.Latest | src/services/monitoring.service.ts:240-242 | none exactly when nothing was collected; otherwise the last snapshot collected |
| Monitoring.TakenAfter | src/services/monitoring.service.ts:164 | exactly the snapshots taken after the cut-off |
| Monitoring.TakenAfterInOrder | src/services/monitoring.service.ts:164 | the kept snapshots are the history filtered by time: every recent one, as often as recorded, in the order taken |
| Monitoring.CutsCompose | src/services/monitoring.service.ts:162-171 | cutting at an earlier and then a later time is cutting at the later one |
| Monitoring.CleanupOldMetrics | src/services/monitoring.service.ts:162-171 | keeps exactly the snapshots within the retention period, in their order, and resets the counters only at midnight |
| Monitoring.ErrorRate | src/services/monitoring.service.ts:291 | errors per hundred requests, and 0 with no requests |
| Monitoring.HealthStatus | src/services/monitoring.service.ts:269-303 | no checks and healthy without snapshots; critical exactly when some check fails; never warning |
| Monitoring.Alerts | src/services/monitoring.service.ts:119-142 | memory above 85 percent, average above 5000 ms and error rate above 10 percent each raise their alert |
| Monitoring.AlertMeansCritical | src/services/monitoring.service.ts:269-303 | any alert on the latest snapshot means the health status is critical |
| Monitoring.ThresholdCriticalWithoutAlert | src/services/monitoring.service.ts:284-287 | an average of exactly 5000 ms makes the status critical without raising an alert |
| Monitoring.ResetClearsRates | src/services/monitoring.service.ts:173-187 | after a reset the error rate is 0 and the buffer's average is 0 |
| JsText.Trim | src/modules/chats/chats.service.ts:142 | removes exactly the leading and trailing ECMA-262 white space and line terminators |
| JsText.TrimIdempotent | src/modules/chats/chats.service.ts:142 | trimming twice is trimming once |
| JsText.DecimalRoundTrip | src/middlewares/rateLimiting.middleware.ts:49 | a printed natural number reads back as itself |
| JsText.ParseIntOfDecimal | src/modules/blocks/blocks.schemas.ts:21 | parseInt(s, 10) of a printed integer is that integer |
| JsText.Utf16Length | src/modules/chats/chats.service.ts:148 | `length` lies between the character count and twice it, equals the count exactly when no character is above U+FFFF, and doubles it exactly when every one is |
| JsText.Utf16LengthAppend | src/modules/users/users.routes.ts:83 | lengths add up over concatenation |
| JsText.Join | src/middlewares/validation.middleware.ts:77 | no parts give the empty text and one part gives itself; splitting undoes it (Validation.SplitJoin) |
| JsText.AsciiLower | src/modules/users/users.routes.ts:88 | the same length, no ASCII capital left, and every other character unchanged |
| OrderedMap.Set | src/services/GameService.ts:129 | an existing key keeps its position with the new value; a new key goes last |
| OrderedMap.Delete | src/services/GameService.ts:435 | every remaining entry was in the map under another key, and every entry under another key remains |
| OrderedMap.DeleteIsFilter | src/services/GameService.ts:435 | the remaining entries keep their insertion order: the map with the entries under the key filtered out |
| OrderedMap.GetSetOther | src/services/GameService.ts:129 | setting one key leaves every other key's value |
| OrderedMap.GetDeleteOther | src/services/GameService.ts:435 | deleting one key leaves every other key's value |
| OrderedMap.DeleteIdempotent | src/services/GameService.ts:435 | deleting twice is deleting once |
| OrderedMap.Values | src/modules/chats/chats.routes.ts:98 | the values in insertion order |

## Left out

- Database access, Socket.IO emits and broadcasts, console output, log
  files by date, `JSON.stringify` and `toFixed` texts: persistence and
  transport, not logic. Log records carry their JSON metadata as a given
  string.
- The interval timers, the reap timeout and `Date.now` are explicit
  parameters or operations. Two readings of the clock inside one handler
  are modelled as one reading.
- `Math.round`, `toFixed` and floating point: rates and averages are exact
  `real`s, or integers with the rounding stated as bounds.
- GameStats.PlayerStats: does not model the rounding of the win rate and
  the average score, because the source rounds floating-point numbers.
- GameService.JoinPreservesValid and GameSocket.JoinKeepsInStep: each
  handler is one atomic step. `joinGame` awaits the user lookup
  (src/services/GameService.ts:161) between its checks (lines 149-159) and
  its write of the second seat (line 171). Two joins of one waiting match
  can therefore both pass the checks, and the later write replaces the
  earlier joiner. Interleavings of handlers are not modelled.
- Users.Search: the query is lower-cased by JavaScript's full Unicode
  `toLowerCase`, which is the parameter `lowerCase` with no contract of
  its own. The columns are lower-cased by SQLite's ASCII-only `LOWER`,
  which is modelled.
- ChatRoutes.Thread: its own contract states which messages are in the
  thread. Their order and multiplicity are stated by
  `ChatRoutes.ThreadInOrder`, so that callers do not carry that equation.
- ChatRoutes.Counterparts: its own contract states membership. The order
  and the one-per-message correspondence are stated by
  `ChatRoutes.CounterpartsInOrder`.
- Tournaments.InRound: its own contract states membership. The table order
  is stated by `Tournaments.InRoundInOrder`.
- Tournaments.Winners: its own contract states that every kept value is a
  match winner that passes `keep`. Completeness and order are stated by
  `Tournaments.WinnersInOrder`.
- OrderedMap.Delete: its own contract states membership. The insertion
  order is stated by `OrderedMap.DeleteIsFilter`.
- Monitoring.HealthStatus: requires a positive heap total in the latest
  snapshot, because the memory ratio divides by it and the runtime always
  reports a positive heap total.
- Monitoring.Alerts: requires a positive heap total, for the same reason.
- `getSecurityMetrics` returns a copy of `blockedIPs`. In a model with
  immutable values every read is already a copy, so there is nothing to
  state.
- `getChatMetrics` returns fixed placeholder values.
- `process.memoryUsage` and `cpuUsage` are parameters of `Collect`.
- The monitoring service's "Daily counters reset" info line is not
  written.
- `chatEvent`, `requestLogger`, `asyncHandler` and `healthCheck` of the
  logger and error middleware are thin wrappers with no decision of their
  own.
- `setBroadcastCallback` and `removeBroadcastCallback`, which the socket
  layer calls, do not exist in the game service, so they are not modelled.
- The Zod schemas themselves: a part's schema check is given as its
  outcome.
- Foreign keys between tables, whose schema is not part of this model.
- `orderBy`: the rows are given to each query in the order it asks for,
  except for `Blocks.BlockedByMe`, whose table is a set.
  `take` and `skip` are modelled as a cut of that sequence.
- Blocks.BlockedByMe: returns the set of blocked ids. The route's
  newest-first order (`createdAt: 'desc'`, blocks.routes.ts:173) is not
  stated, because the block table is modelled as a set of pairs without
  creation times.
- Tournaments.SubmitScore: the match is an index into one tournament's
  table. The route updates any game by id, with no check that it belongs
  to a tournament or to the caller (game.tournaments.routes.ts:147-150).
  A game outside every tournament then reads its round with a null
  tournament and round. Neither case is modelled.
- Friends.Respond, Friends.Block, Friends.Unblock, ChatRoutes.Send,
  MatchRequests.SubmitScore and MatchRequests.ListRequests: bodies without
  a schema (friends.routes.ts:72, 99, 242 and 278; chats.routes.ts:10)
  and schema fields typed only as `number` (game.remote-1v1.routes.ts:193-194
  and 267-268) are assumed to carry integers. A missing, string or
  fractional value reaches the database, and the source answers 500 from
  its catch; the integer parameters cannot express those inputs.
- Authentication, two-factor codes, the prototype Pong engine, the local
  one-to-one route and the health route: outside the modelled core.

## Findings

| source | as written | input that shows it | evidently intended | confidence | as-written member | corrected member |
|---|---|---|---|---|---|---|
| src/modules/game/game.tournaments.routes.ts:267-270 | the win rate divides won by completed tournaments whenever there is any tournament | one tournament still in progress: 0/0 gives NaN, sent as "NaN" | 0 when nothing is completed | high (not executed) | Tournaments.HistoryStatsAsWritten, Tournaments.InProgressHistoryIsNaN | Tournaments.HistoryStats, Tournaments.HistoryAgreesWhenCompleted |
| src/middlewares/errorHandling.middleware.ts:173-180 | the 429 branch calls `rateLimitHit(url, userId, ip, 0, "unknown")`, but src/utils/logger.ts:308 takes `(endpoint, limit, window, userId, ip)` | any 429 answer: the security line reads userId=N/A ip=unknown whoever called | the caller's id and address in the userId and ip places | high (not executed) | ErrorHandling.LogErrorAsWritten, ErrorHandling.RateLimitLineLosesCaller | ErrorHandling.LogError, ErrorHandling.RateLimitLineNamesCaller |
| src/modules/game/game.tournaments.routes.ts:167-173 | the winners are filtered with `boolean` from the validation library, which returns a truthy schema object for any argument | a 1-1 first-round match beside a 3-1 match: the second round pairs `null` against the 3-1 winner | the global `Boolean`, dropping the `null` of a tie | medium (not executed) | Tournaments.WinnersKeepAll, Tournaments.TieSeatsNobody | Tournaments.NamedRoundSeatsNames |

=== FILE: blocks.dfy ===
/** The block routes over the `userBlock` table: a directional relation of
    (blocker, blocked) pairs, which the chat service also consults. A body
    reaches the routes through its schema, given here as the parse outcome;
    the path parameter's transform is modelled in full. */
module Blocks {
  import opened Wrappers
  import opened Http
  import JsText
  import Validation
  import ErrorHandling

  /** The `userBlock` table: (blocker, blocked) pairs, unique by the pair. */
  type UserBlocks = set<(int, int)>

  /** `UserIdSchema`: the JSON numbers it admits, namely the integers of
      at least 1. */
  function UserIdSchema(x: real): (r: Option<int>)
    ensures r.Some? <==> x == x.Floor as real && x >= 1.0
    ensures r.Some? ==> r.value >= 1 && r.value as real == x
  {
    if x == x.Floor as real && x >= 1.0 then Some(x.Floor) else None
  }

  /** The issue the transform of `CheckBlockStatusParamsSchema` raises. */
  const UserIdIssue := Validation.Issue("custom", [Validation.Key("userId")], "User ID must be a valid positive integer")

  /** The transform of `CheckBlockStatusParamsSchema`: `parseInt(val, 10)`,
      refused when it is `NaN` or not positive. */
  function ParamUserId(val: string): (r: Result<int, Validation.Issue>)
    ensures r.Success? <==> JsText.ParseInt(val).Some? && JsText.ParseInt(val).value > 0
    ensures r.Success? ==> r.value == JsText.ParseInt(val).value
    ensures r.Failure? ==> r.error == UserIdIssue
  {
    match JsText.ParseInt(val)
    case Some(n) => if n <= 0 then Failure(UserIdIssue) else Success(n)
    case None => Failure(UserIdIssue)
  }

  /** Every positive id, written in decimal, is accepted back as itself. */
  lemma ParamReadsDecimal(n: int)
    requires n > 0
    ensures ParamUserId(JsText.IntToDecimal(n)) == Success(n)
  {
    JsText.ParseIntOfDecimal(n);
  }

  /** `validateUserIdParam`: the parsed number, or what it throws. The
      transform throws its `ZodError` from inside `safeParse`, which only
      collects the issues a schema reports and lets a thrown error through;
      so the `ZodError` itself escapes and the helper's own `Error` is never
      built. `zodMessage` is the library's rendering of the issue list. */
  function ValidateUserIdParam(userId: string, zodMessage: string): (r: Result<int, ErrorHandling.Thrown>)
    ensures r.Success? <==> ParamUserId(userId).Success?
    ensures r.Success? ==> r.value > 0 && JsText.ParseInt(userId) == Some(r.value)
    ensures r.Failure? ==> r.error == ErrorHandling.Zod([UserIdIssue], zodMessage)
  {
    match ParamUserId(userId)
    case Success(n) => Success(n)
    case Failure(issue) => Failure(ErrorHandling.Zod([issue], zodMessage))
  }

  /** A refused id reaches the global error handler as a `ZodError`: a 400
      named "ZodError" whose message begins with the issue's text, in every
      environment. */
  lemma RefusedParamIsZodReply(userId: string, zodMessage: string, stack: Option<string>, dev: bool)
    requires ParamUserId(userId).Failure?
    ensures var t := ValidateUserIdParam(userId, zodMessage).error;
            var reply := ErrorHandling.Respond(t, stack, dev);
            && reply.statusCode == 400 && reply.error == "ZodError"
            && "User ID must be a valid positive integer" <= reply.message
  {
    ErrorHandling.ClientDetails([UserIdIssue], zodMessage, 0, "", stack, dev);
  }

  /** How a body fared against `BlockUserSchema`/`UnblockUserSchema`: the
      user id, or the schema's issues. */
  type Body = Result<int, seq<Validation.Issue>>

  /** `POST /blocks/block`. */
  function Block(rel: UserBlocks, users: set<int>, me: int, body: Body): (r: Result<UserBlocks, Reply>)
    ensures body.Failure? ==> r == Failure(Reply(400, Validation.FormatZodError(body.error)))
    ensures body.Success? && body.value == me ==> r == Failure(Reply(400, "Cannot block yourself"))
    ensures body.Success? && body.value != me && body.value !in users ==> r == Failure(Reply(404, "User not found"))
    ensures body.Success? && body.value != me && body.value in users && (me, body.value) in rel ==>
              r == Failure(Reply(409, "User already blocked"))
    ensures r.Success? <==> body.Success? && body.value != me && body.value in users && (me, body.value) !in rel
    ensures r.Success? ==> r.value - rel == {(me, body.value)} && rel < r.value
  {
    match body
    case Failure(issues) => Failure(Reply(400, Validation.FormatZodError(issues)))
    case Success(target) =>
      if me == target then Failure(Reply(400, "Cannot block yourself"))
      else if target !in users then Failure(Reply(404, "User not found"))
      else if (me, target) in rel then Failure(Reply(409, "User already blocked"))
      else Success(rel + {(me, target)})
  }

  /** `POST /blocks/unblock`: no self check; only the caller's own block
      can go. */
  function Unblock(rel: UserBlocks, me: int, body: Body): (r: Result<UserBlocks, Reply>)
    ensures body.Failure? ==> r == Failure(Reply(400, Validation.FormatZodError(body.error)))
    ensures body.Success? && (me, body.value) !in rel ==> r == Failure(Reply(404, "User is not blocked"))
    ensures r.Success? <==> body.Success? && (me, body.value) in rel
    ensures r.Success? ==> rel - r.value == {(me, body.value)} && r.value < rel
  {
    match body
    case Failure(issues) => Failure(Reply(400, Validation.FormatZodError(issues)))
    case Success(target) =>
      if (me, target) !in rel then Failure(Reply(404, "User is not blocked"))
      else Success(rel - {(me, target)})
  }

  /** `GET /blocks/list`: whom the caller has blocked. */
  function BlockedByMe(rel: UserBlocks, me: int): (r: set<int>)
    ensures forall x :: x in r <==> (me, x) in rel
  {
    set p | p in rel && p.0 == me :: p.1
  }

  /** `GET /blocks/check/:userId`: has the caller blocked that user? */
  function Check(rel: UserBlocks, me: int, userId: string): (r: Result<bool, Reply>)
    ensures ParamUserId(userId).Failure? ==> r == Failure(Reply(400, "User ID must be a valid positive integer"))
    ensures ParamUserId(userId).Success? ==> r == Success((me, ParamUserId(userId).value) in rel)
  {
    match ParamUserId(userId)
    case Failure(issue) => Failure(Reply(400, Validation.FormatZodError([issue])))
    case Success(n) => Success((me, n) in rel)
  }

  /** `GET /blocks/check-blocked-by/:userId`: has that user blocked the
      caller? */
  function CheckBlockedBy(rel: UserBlocks, me: int, userId: string): (r: Result<bool, Reply>)
    ensures ParamUserId(userId).Failure? ==> r == Failure(Reply(400, "User ID must be a valid positive integer"))
    ensures ParamUserId(userId).Success? ==> r == Success((ParamUserId(userId).value, me) in rel)
  {
    match ParamUserId(userId)
    case Failure(issue) => Failure(Reply(400, Validation.FormatZodError([issue])))
    case Success(n) => Success((n, me) in rel)
  }

  // ------------------------------------------------------------- properties

  /** The two checks read the same relation from its two ends: `a` sees a
      block on `b` exactly when `b` sees itself blocked by `a`. */
  lemma ChecksAreConverse(rel: UserBlocks, a: int, b: int)
    requires a > 0 && b > 0
    ensures Check(rel, a, JsText.IntToDecimal(b)) == CheckBlockedBy(rel, b, JsText.IntToDecimal(a))
  {
    ParamReadsDecimal(a);
    ParamReadsDecimal(b);
  }

  /** The relation is directional: a block on `b` by `a` does not show as
      `a` being blocked by `b`. */
  lemma BlockIsDirectional(a: int, b: int)
    requires a > 0 && b > 0 && a != b
    ensures var rel := Block({}, {a, b}, a, Success(b)).value;
            && Check(rel, a, JsText.IntToDecimal(b)) == Success(true)
            && CheckBlockedBy(rel, a, JsText.IntToDecimal(b)) == Success(false)
  {
    ParamReadsDecimal(b);
  }

  /** Blocking and then unblocking the same user restores the relation. */
  lemma BlockThenUnblockRestores(rel: UserBlocks, users: set<int>, me: int, target: int)
    requires Block(rel, users, me, Success(target)).Success?
    ensures Unblock(Block(rel, users, me, Success(target)).value, me, Success(target)) == Success(rel)
  {
    assert Block(rel, users, me, Success(target)).value - {(me, target)} == rel;
  }
}

=== FILE: chat_routes.dfy ===
/** The chat routes: sending a message, reading the thread between two
    users, and listing the users the caller has talked with. The message
    table is a sequence in creation order, which is the order the routes
    ask the database for. */
module ChatRoutes {
  import opened Wrappers
  import opened Http
  import JsText
  import OrderedMap
  import Seqs

  datatype Message = Message(senderId: int, recipientId: int, content: string)

  /** `POST /chats/send`: refuses missing or blank content and otherwise
      stores the content exactly as given. */
  function Send(msgs: seq<Message>, me: int, to: int, content: Option<string>): (r: Result<seq<Message>, Reply>)
    ensures r.Failure? <==> content.None? || |JsText.Trim(content.value)| == 0
    ensures r.Failure? ==> r.error == Reply(400, "Message cannot be empty")
    ensures r.Success? ==> r.value == msgs + [Message(me, to, content.value)]
  {
    if content.None? || content.value == "" || |JsText.Trim(content.value)| == 0 then
      Failure(Reply(400, "Message cannot be empty"))
    else Success(msgs + [Message(me, to, content.value)])
  }

  /** The route neither escapes the content nor asks the chat service
      whether the two users may talk: markup from anyone is stored raw. */
  lemma SendStoresMarkupRaw(msgs: seq<Message>, me: int, to: int)
    ensures Send(msgs, me, to, Some("<b>")) == Success(msgs + [Message(me, to, "<b>")])
  {
    assert "<b>" == "" + "<b>" + "";
    JsText.TrimAround("", "<b>", "");
  }

  /** The message belongs to the conversation of `a` and `b`. */
  predicate Between(m: Message, a: int, b: int) {
    (m.senderId == a && m.recipientId == b) || (m.senderId == b && m.recipientId == a)
  }

  /** `POST /chats/thread`: the messages between the caller and the other
      user, oldest first. */
  function Thread(msgs: seq<Message>, me: int, other: int): (r: seq<Message>)
    ensures forall m :: m in r <==> m in msgs && Between(m, me, other)
    ensures |r| <= |msgs|
  {
    if |msgs| == 0 then []
    else
      var rest := Thread(msgs[..|msgs| - 1], me, other);
      var last := msgs[|msgs| - 1];
      assert msgs == msgs[..|msgs| - 1] + [last];
      if Between(last, me, other) then rest + [last] else rest
  }

  /** The thread is the message table filtered to the conversation: every
      message between the two, each as often as stored, in creation order. */
  lemma {:induction false} ThreadInOrder(msgs: seq<Message>, me: int, other: int)
    ensures Thread(msgs, me, other) == Seqs.Filter(msgs, (m: Message) => Between(m, me, other))
    decreases |msgs|
  {
    if |msgs| > 0 {
      var front := msgs[..|msgs| - 1];
      var last := msgs[|msgs| - 1];
      assert msgs == front + [last];
      ThreadSnoc(front, last, me, other);
      ThreadInOrder(front, me, other);
      Seqs.FilterAppend(front, [last], (m: Message) => Between(m, me, other));
      Seqs.FilterSingle(last, (m: Message) => Between(m, me, other));
    }
  }

  lemma ThreadSnoc(front: seq<Message>, last: Message, me: int, other: int)
    ensures Thread(front + [last], me, other) ==
              Thread(front, me, other) + (if Between(last, me, other) then [last] else [])
  {
    assert (front + [last])[..|front|] == front;
  }

  /** The route as written: `toUserId` is read from the body without a
      schema. When it is absent both halves of the `OR` lose their
      `undefined` field, and the query returns every message the caller
      sent or received, oldest first. */
  function ThreadRoute(msgs: seq<Message>, me: int, toUserId: Option<int>): (r: seq<Message>)
    ensures toUserId.Some? ==> r == Thread(msgs, me, toUserId.value)
    ensures toUserId.None? ==> forall m :: m in r <==> m in msgs && Involves(m, me)
  {
    match toUserId
    case Some(other) => Thread(msgs, me, other)
    case None => Seqs.Filter(msgs, (m: Message) => Involves(m, me))
  }

  /** Without a partner the route returns a superset of every thread of
      the caller's. */
  lemma ThreadWithinUnfiltered(msgs: seq<Message>, me: int, other: int)
    ensures forall m :: m in Thread(msgs, me, other) ==> m in ThreadRoute(msgs, me, None)
  {
  }

  /** Both users read the same thread. */
  lemma {:induction false} ThreadSymmetric(msgs: seq<Message>, a: int, b: int)
    ensures Thread(msgs, a, b) == Thread(msgs, b, a)
    decreases |msgs|
  {
    if |msgs| > 0 {
      ThreadSymmetric(msgs[..|msgs| - 1], a, b);
    }
  }

  /** A message sent by the caller joins the end of the caller's thread
      with its recipient, content untouched. */
  lemma SentMessageEndsThread(msgs: seq<Message>, me: int, to: int, content: string)
    requires Send(msgs, me, to, Some(content)).Success?
    ensures var t := Thread(Send(msgs, me, to, Some(content)).value, me, to);
            |t| > 0 && t[|t| - 1] == Message(me, to, content) && t[..|t| - 1] == Thread(msgs, me, to)
  {
    var msgs' := msgs + [Message(me, to, content)];
    assert msgs'[..|msgs'| - 1] == msgs;
  }

  /** The other party of a message: the recipient when the caller sent
      it, the sender otherwise. */
  function Counterpart(m: Message, me: int): (r: int)
    ensures m.senderId == me ==> r == m.recipientId
    ensures m.senderId != me && m.recipientId == me ==> r == m.senderId
  {
    if m.senderId == me then m.recipientId else m.senderId
  }

  /** The message was sent or received by `me`. */
  predicate Involves(m: Message, me: int) {
    m.senderId == me || m.recipientId == me
  }

  /** The counterparts of the caller's messages, in message order. */
  function Counterparts(msgs: seq<Message>, me: int): (r: seq<int>)
    ensures forall x :: x in r <==>
              exists m :: m in msgs && (m.senderId == me || m.recipientId == me) && Counterpart(m, me) == x
  {
    if |msgs| == 0 then []
    else
      var rest := Counterparts(msgs[..|msgs| - 1], me);
      var last := msgs[|msgs| - 1];
      assert msgs == msgs[..|msgs| - 1] + [last];
      if Involves(last, me) then rest + [Counterpart(last, me)] else rest
  }

  /** The counterpart of each message, position for position. */
  function CounterpartEach(ms: seq<Message>, me: int): (r: seq<int>)
    ensures |r| == |ms| && forall i :: 0 <= i < |ms| ==> r[i] == Counterpart(ms[i], me)
  {
    seq(|ms|, i requires 0 <= i < |ms| => Counterpart(ms[i], me))
  }

  /** One counterpart per message of the caller's, in message order. */
  lemma {:induction false} CounterpartsInOrder(msgs: seq<Message>, me: int)
    ensures Counterparts(msgs, me) == CounterpartEach(Seqs.Filter(msgs, (m: Message) => Involves(m, me)), me)
    decreases |msgs|
  {
    if |msgs| > 0 {
      var front := msgs[..|msgs| - 1];
      var last := msgs[|msgs| - 1];
      assert msgs == front + [last];
      CounterpartsSnoc(front, last, me);
      CounterpartsInOrder(front, me);
      Seqs.FilterAppend(front, [last], (m: Message) => Involves(m, me));
      Seqs.FilterSingle(last, (m: Message) => Involves(m, me));
      CounterpartEachAppend(Seqs.Filter(front, (m: Message) => Involves(m, me)), Seqs.Filter([last], (m: Message) => Involves(m, me)), me);
    }
  }

  lemma CounterpartsSnoc(front: seq<Message>, last: Message, me: int)
    ensures Counterparts(front + [last], me) ==
              Counterparts(front, me) + (if Involves(last, me) then [Counterpart(last, me)] else [])
  {
    assert (front + [last])[..|front|] == front;
  }

  lemma CounterpartEachAppend(a: seq<Message>, b: seq<Message>, me: int)
    ensures CounterpartEach(a + b, me) == CounterpartEach(a, me) + CounterpartEach(b, me)
  {
  }

  // --------------------------------------------------------- de-duplication

  /** The reference: each id at its first appearance, in that order. */
  function FirstOccurrences(xs: seq<int>): (r: seq<int>)
    ensures forall x :: x in r <==> x in xs
    decreases |xs|
  {
    if |xs| == 0 then []
    else
      var d := FirstOccurrences(xs[..|xs| - 1]);
      var last := xs[|xs| - 1];
      assert xs == xs[..|xs| - 1] + [last];
      if last in d then d else d + [last]
  }

  predicate Distinct(xs: seq<int>) {
    forall i, j :: 0 <= i < j < |xs| ==> xs[i] != xs[j]
  }

  /** Where an element first appears. */
  function FirstIndex(xs: seq<int>, x: int): (k: nat)
    requires x in xs
    ensures k < |xs| && xs[k] == x && x !in xs[..k]
  {
    if xs[0] == x then 0
    else
      var k := FirstIndex(xs[1..], x);
      assert xs[..k + 1] == [xs[0]] + xs[1..][..k];
      k + 1
  }

  /** A first index in a prefix is the first index in the whole. */
  lemma FirstIndexPrefix(xs: seq<int>, n: nat, x: int)
    requires n <= |xs| && x in xs[..n]
    ensures FirstIndex(xs, x) == FirstIndex(xs[..n], x)
  {
    var k := FirstIndex(xs[..n], x);
    var k' := FirstIndex(xs, x);
    assert xs[..n][..k] == xs[..k];
    assert forall j | 0 <= j < k' :: xs[..k'][j] == xs[j];
    assert forall j | 0 <= j < k :: xs[..k][j] == xs[j];
  }

  /** The reference keeps no id twice and lists them by first appearance. */
  lemma {:induction false} FirstOccurrencesOrdered(xs: seq<int>)
    ensures var r := FirstOccurrences(xs);
            Distinct(r) && forall i, j :: 0 <= i < j < |r| ==> FirstIndex(xs, r[i]) < FirstIndex(xs, r[j])
    decreases |xs|
  {
    if |xs| > 0 {
      var n := |xs| - 1;
      var p := xs[..n];
      var d := FirstOccurrences(p);
      FirstOccurrencesOrdered(p);
      var r := FirstOccurrences(xs);
      forall i | 0 <= i < |d|
        ensures FirstIndex(xs, d[i]) == FirstIndex(p, d[i]) < n
      {
        FirstIndexPrefix(xs, n, d[i]);
      }
      if xs[n] !in d {
        assert xs[n] !in p;
        assert xs[..n] == p;
        assert FirstIndex(xs, xs[n]) == n;
        assert r == d + [xs[n]];
      }
    }
  }

  /** `Array.from(uniqueMap.values())` after the `forEach`: the ids go
      into an insertion-ordered map, each only if its key is not there
      yet. */
  method Dedup(xs: seq<int>) returns (out: seq<int>)
    ensures out == FirstOccurrences(xs)
    ensures Distinct(out)
    ensures forall x :: x in out <==> x in xs
    ensures forall i, j :: 0 <= i < j < |out| ==> FirstIndex(xs, out[i]) < FirstIndex(xs, out[j])
  {
    var unique: OrderedMap.OMap<int, int> := [];
    var i := 0;
    while i < |xs|
      invariant 0 <= i <= |xs|
      invariant |unique| == |FirstOccurrences(xs[..i])|
      invariant forall j :: 0 <= j < |unique| ==>
                  unique[j] == (FirstOccurrences(xs[..i])[j], FirstOccurrences(xs[..i])[j])
    {
      var d := FirstOccurrences(xs[..i]);
      assert xs[..i + 1][..i] == xs[..i];
      assert OrderedMap.Has(unique, xs[i]) <==> xs[i] in d by {
        if xs[i] in d {
          var j :| 0 <= j < |d| && d[j] == xs[i];
          assert unique[j].0 == xs[i];
        }
      }
      if !OrderedMap.Has(unique, xs[i]) {
        unique := OrderedMap.Set(unique, xs[i], xs[i]);
      }
      i := i + 1;
    }
    out := OrderedMap.Values(unique);
    assert xs[..|xs|] == xs;
    FirstOccurrencesOrdered(xs);
  }

  /** `GET /chats/conversations`: everyone the caller has exchanged a
      message with, once each, in order of the first message. */
  method Conversations(msgs: seq<Message>, me: int) returns (users: seq<int>)
    ensures Distinct(users)
    ensures forall x :: x in users <==>
              exists m :: m in msgs && (m.senderId == me || m.recipientId == me) && Counterpart(m, me) == x
    ensures users == FirstOccurrences(Counterparts(msgs, me))
    ensures forall i, j :: 0 <= i < j < |users| ==>
              FirstIndex(Counterparts(msgs, me), users[i]) < FirstIndex(Counterparts(msgs, me), users[j])
  {
    users := Dedup(Counterparts(msgs, me));
  }
}

=== FILE: chat_service.dfy ===
/** The chat service's rules: who may message whom, judged on the
    friendship table and the `userBlock` relation, and what a message's
    content must look like. The tables are parameters. */
module ChatService {
  import opened Wrappers
  import JsText
  import Friends
  import Blocks
  import HtmlEscape

  /** `checkFriendship`: some accepted row links the two, in either
      direction. */
  predicate CheckFriendship(fs: Friends.Friendships, a: int, b: int) {
    exists id | id in fs :: fs[id].status == Friends.Accepted && Friends.Links(fs[id], a, b)
  }

  /** `checkUserBlocked`: the one direction blocker → blocked. */
  predicate CheckUserBlocked(rel: Blocks.UserBlocks, blocker: int, blocked: int) {
    (blocker, blocked) in rel
  }

  /** `checkMutualBlocking`: either has blocked the other. */
  function CheckMutualBlocking(rel: Blocks.UserBlocks, a: int, b: int): (r: bool)
    ensures r <==> (a, b) in rel || (b, a) in rel
  {
    CheckUserBlocked(rel, a, b) || CheckUserBlocked(rel, b, a)
  }

  /** Neither check cares which of the two users is named first. */
  lemma ChecksSymmetric(fs: Friends.Friendships, rel: Blocks.UserBlocks, a: int, b: int)
    ensures CheckMutualBlocking(rel, a, b) == CheckMutualBlocking(rel, b, a)
    ensures CheckFriendship(fs, a, b) == CheckFriendship(fs, b, a)
  {
  }

  /** The friends list of `me` holds exactly the users `me` may count as
      friends (nobody is their own friend). */
  lemma FriendsListIsFriendship(fs: Friends.Friendships, me: int, x: int)
    requires Friends.NoSelf(fs)
    ensures x in Friends.FriendsList(fs, me) <==> CheckFriendship(fs, me, x)
  {
    if CheckFriendship(fs, me, x) {
      var id :| id in fs && fs[id].status == Friends.Accepted && Friends.Links(fs[id], me, x);
      assert fs[id].requesterId != fs[id].recipientId;
    }
  }

  datatype SendCheck = SendCheck(canSend: bool, reason: Option<string>)

  /** `validateMessageSending`: self, then the recipient's existence, then
      blocking either way, then friendship; the first failing check gives
      the reason. */
  function ValidateMessageSending(users: set<int>, rel: Blocks.UserBlocks, fs: Friends.Friendships,
                                  sender: int, recipient: int): (r: SendCheck)
    ensures r.canSend <==> r.reason.None?
    ensures r.canSend <==>
              sender != recipient && recipient in users && (sender, recipient) !in rel &&
              (recipient, sender) !in rel && CheckFriendship(fs, sender, recipient)
    ensures sender == recipient ==> r.reason == Some("Cannot send message to yourself")
    ensures sender != recipient && recipient !in users ==> r.reason == Some("Recipient user not found")
    ensures sender != recipient && recipient in users && CheckMutualBlocking(rel, sender, recipient) ==>
              r.reason == Some("Cannot send message - user is blocked")
    ensures (sender != recipient && recipient in users && !CheckMutualBlocking(rel, sender, recipient) &&
             !CheckFriendship(fs, sender, recipient)) ==>
              r.reason == Some("Can only send messages to friends")
  {
    if sender == recipient then SendCheck(false, Some("Cannot send message to yourself"))
    else if recipient !in users then SendCheck(false, Some("Recipient user not found"))
    else if CheckMutualBlocking(rel, sender, recipient) then SendCheck(false, Some("Cannot send message - user is blocked"))
    else if !CheckFriendship(fs, sender, recipient) then SendCheck(false, Some("Can only send messages to friends"))
    else SendCheck(true, None)
  }

  /** Between two existing users the permission is mutual: if one may
      write to the other, the other may write back. */
  lemma SendingIsMutual(users: set<int>, rel: Blocks.UserBlocks, fs: Friends.Friendships, a: int, b: int)
    requires a in users && b in users
    ensures ValidateMessageSending(users, rel, fs, a, b).canSend == ValidateMessageSending(users, rel, fs, b, a).canSend
  {
    ChecksSymmetric(fs, rel, a, b);
  }

  /** A block, whichever way, silences both users towards each other. */
  lemma BlockSilencesBoth(users: set<int>, rel: Blocks.UserBlocks, fs: Friends.Friendships, a: int, b: int)
    requires (a, b) in rel
    ensures !ValidateMessageSending(users, rel, fs, a, b).canSend
    ensures !ValidateMessageSending(users, rel, fs, b, a).canSend
  {
  }

  const MaxMessageLength := 1000

  datatype ContentCheck = ContentCheck(isValid: bool, reason: Option<string>)

  /** `validateMessageContent`; `None` is missing content. Lengths are
      JavaScript's, in UTF-16 code units. The check for a trimmed length
      below 1 comes after the empty check and never fires. */
  function ValidateMessageContent(content: Option<string>): (r: ContentCheck)
    ensures r.isValid <==> r.reason.None?
    ensures r.isValid <==>
              content.Some? && 0 < |JsText.Trim(content.value)| && JsText.Utf16Length(JsText.Trim(content.value)) <= MaxMessageLength
    ensures content.None? || content == Some("") ==> r.reason == Some("Message content is required")
    ensures content.Some? && |content.value| > 0 && |JsText.Trim(content.value)| == 0 ==>
              r.reason == Some("Message cannot be empty")
    ensures content.Some? && JsText.Utf16Length(JsText.Trim(content.value)) > MaxMessageLength ==>
              r.reason == Some("Message too long (max 1000 characters)")
    ensures r.reason != Some("Message too short (min 1 character)")
  {
    if content.None? || content.value == "" then ContentCheck(false, Some("Message content is required"))
    else
      var trimmed := JsText.Trim(content.value);
      var length := JsText.Utf16Length(trimmed);
      if length == 0 then ContentCheck(false, Some("Message cannot be empty"))
      else if length > MaxMessageLength then ContentCheck(false, Some("Message too long (max 1000 characters)"))
      else if length < 1 then ContentCheck(false, Some("Message too short (min 1 character)"))
      else ContentCheck(true, None)
  }

  /** Characters above U+FFFF count twice: 501 of them, emoji say, are
      already too long, while 1000 characters of the Basic Multilingual
      Plane are not. */
  lemma AstralCharactersCountTwice(c: string)
    requires |JsText.Trim(c)| > MaxMessageLength / 2
    requires forall i :: 0 <= i < |JsText.Trim(c)| ==> JsText.Trim(c)[i] as int > 0xFFFF
    ensures ValidateMessageContent(Some(c)).reason == Some("Message too long (max 1000 characters)")
  {
  }

  lemma BasicPlaneLimit(c: string)
    requires 0 < |JsText.Trim(c)| <= MaxMessageLength
    requires forall i :: 0 <= i < |JsText.Trim(c)| ==> JsText.Trim(c)[i] as int <= 0xFFFF
    ensures ValidateMessageContent(Some(c)).isValid
  {
  }

  /** Content that passes validation never sanitises to nothing, and its
      sanitised form decodes back to the trimmed text that was checked. */
  lemma ValidContentSurvivesSanitising(c: string)
    requires ValidateMessageContent(Some(c)).isValid
    ensures |HtmlEscape.Sanitize(c)| >= |JsText.Trim(c)| > 0
    ensures HtmlEscape.Unescape(HtmlEscape.Sanitize(c)) == JsText.Trim(c)
  {
    HtmlEscape.SanitizeIsEscapeOfTrim(c);
    HtmlEscape.SanitizeIsSafe(c);
  }
}

=== FILE: error_handling.dfy ===
/** The global error handler: the application's error classes, the status
    and message chosen for a thrown error, the body sent back (masked in
    production for server errors), and what gets logged. A thrown value is
    described by its class and fields; the request by the few fields the
    handler reads. The timestamp, path and request id of the body are
    outside the model. */
module ErrorHandling {
  import opened Wrappers
  import JsText
  import Validation
  import Logger

  /** The `AppError` hierarchy. `Base` is `AppError` itself with its own
      status and code. */
  datatype AppKind =
    | Base(status: int, code: Option<string>)
    | ValidationKind
    | NotFoundKind
    | UnauthorizedKind
    | ForbiddenKind
    | ConflictKind
    | RateLimitKind(retryAfter: int)
    | DatabaseKind

  function KindStatus(k: AppKind): int {
    match k
    case Base(s, _) => s
    case ValidationKind => 400
    case NotFoundKind => 404
    case UnauthorizedKind => 401
    case ForbiddenKind => 403
    case ConflictKind => 409
    case RateLimitKind(_) => 429
    case DatabaseKind => 500
  }

  function KindCode(k: AppKind): Option<string> {
    match k
    case Base(_, c) => c
    case ValidationKind => Some("VALIDATION_ERROR")
    case NotFoundKind => Some("NOT_FOUND")
    case UnauthorizedKind => Some("UNAUTHORIZED")
    case ForbiddenKind => Some("FORBIDDEN")
    case ConflictKind => Some("CONFLICT")
    case RateLimitKind(_) => Some("RATE_LIMIT_EXCEEDED")
    case DatabaseKind => Some("DATABASE_ERROR")
  }

  /** `error.name`: the subclasses set their own; `AppError` keeps
      `Error`'s. */
  function KindName(k: AppKind): string {
    match k
    case Base(_, _) => "Error"
    case ValidationKind => "ValidationError"
    case NotFoundKind => "NotFoundError"
    case UnauthorizedKind => "UnauthorizedError"
    case ForbiddenKind => "ForbiddenError"
    case ConflictKind => "ConflictError"
    case RateLimitKind(_) => "RateLimitError"
    case DatabaseKind => "DatabaseError"
  }

  /** Every subclass is a client error except `DatabaseError`, and each
      carries a code; their statuses are all distinct. */
  lemma SubclassStatuses(k: AppKind, j: AppKind)
    requires !k.Base? && !j.Base?
    ensures 400 <= KindStatus(k) < 500 <==> k != DatabaseKind
    ensures KindStatus(k) == 500 <==> k == DatabaseKind
    ensures KindCode(k).Some?
    ensures KindStatus(k) == KindStatus(j) ==> KindName(k) == KindName(j) && KindCode(k) == KindCode(j)
  {
  }

  /** A thrown value: an `AppError`, a `ZodError` (its own message is the
      library's text, given here), or anything else with a name, a message
      and perhaps a `statusCode`. */
  datatype Thrown =
    | App(kind: AppKind, message: string)
    | Zod(issues: seq<Validation.Issue>, message: string)
    | Other(name: string, message: string, statusCode: Option<int>)

  /** `new NotFoundError(resource)`. */
  function NotFound(resource: string): (t: Thrown)
    ensures t.App? && KindStatus(t.kind) == 404 && KindCode(t.kind) == Some("NOT_FOUND")
    ensures resource <= t.message
  {
    App(NotFoundKind, resource + " not found")
  }

  /** `new UnauthorizedError(message?)` and `new ForbiddenError(message?)`:
      an absent message takes the class default. */
  function Unauthorized(message: Option<string>): (t: Thrown)
    ensures t.App? && KindStatus(t.kind) == 401
    ensures t.message == if message.Some? then message.value else "Unauthorized access"
  {
    App(UnauthorizedKind, if message.Some? then message.value else "Unauthorized access")
  }

  function Forbidden(message: Option<string>): (t: Thrown)
    ensures t.App? && KindStatus(t.kind) == 403
    ensures t.message == if message.Some? then message.value else "Forbidden"
  {
    App(ForbiddenKind, if message.Some? then message.value else "Forbidden")
  }

  function Name(t: Thrown): string {
    match t
    case App(k, _) => KindName(k)
    case Zod(_, _) => "ZodError"
    case Other(n, _, _) => n
  }

  /** One issue as the handler words it: its message, then ` at a.b` when
      it has a path. */
  function IssueText(i: Validation.Issue): (r: string)
    ensures i.message <= r
    ensures |i.path| == 0 ==> r == i.message
  {
    i.message + (if |i.path| > 0 then " at " + Validation.PathText(i.path) else "")
  }

  /** The handler's own `formatZodError`: every issue, joined by ", ". */
  function ZodSummary(issues: seq<Validation.Issue>): (r: string)
    ensures |issues| == 0 ==> r == ""
    ensures |issues| == 1 ==> r == IssueText(issues[0])
  {
    JsText.Join(seq(|issues|, k requires 0 <= k < |issues| => IssueText(issues[k])), ", ")
  }

  lemma {:induction false} JoinStartsWithFirst(parts: seq<string>, sep: string)
    requires |parts| > 0
    ensures parts[0] <= JsText.Join(parts, sep)
  {
  }

  /** The handler's summary begins with the text the validation middleware
      would have sent for the same issues. */
  lemma ZodSummaryExtendsMiddlewareText(issues: seq<Validation.Issue>)
    requires |issues| > 0
    ensures Validation.FormatZodError(issues) <= ZodSummary(issues)
  {
    var parts := seq(|issues|, k requires 0 <= k < |issues| => IssueText(issues[k]));
    JoinStartsWithFirst(parts, ", ");
  }

  /** `errorHandler`'s choice of status and message, first match wins:
      an `AppError`, a `ZodError`, the names `ValidationError`,
      `CastError` and `MongoError`/`MongoServerError`, a truthy
      `statusCode`, and otherwise 500. */
  function Classify(t: Thrown): (r: (int, string))
    ensures t.App? ==> r == (KindStatus(t.kind), t.message)
    ensures t.Zod? ==> r == (400, ZodSummary(t.issues))
    ensures t.Other? && t.name == "ValidationError" ==> r == (400, t.message)
    ensures t.Other? && t.name == "CastError" ==> r == (400, "Invalid ID format")
    ensures t.Other? && (t.name == "MongoError" || t.name == "MongoServerError") ==>
              r == (500, "Database operation failed")
    ensures t.Other? && t.name !in {"ValidationError", "CastError", "MongoError", "MongoServerError"} ==>
              r == if t.statusCode.Some? && t.statusCode.value != 0 then (t.statusCode.value, t.message)
                   else (500, "Internal Server Error")
  {
    match t
    case App(k, m) => (KindStatus(k), m)
    case Zod(issues, _) => (400, ZodSummary(issues))
    case Other(n, m, sc) =>
      if n == "ValidationError" then (400, m)
      else if n == "CastError" then (400, "Invalid ID format")
      else if n == "MongoError" || n == "MongoServerError" then (500, "Database operation failed")
      else if sc.Some? && sc.value != 0 then (sc.value, m)
      else (500, "Internal Server Error")
  }

  datatype Details = Details(validationErrors: Option<seq<Validation.Detail>>, retryAfter: Option<int>,
                             stack: Option<string>)

  datatype ErrorResponse = ErrorResponse(error: string, message: string, statusCode: int, details: Option<Details>)

  /** The details of a `ZodError` (every issue, with its dotted path) and
      of a `RateLimitError` (the wait); none otherwise. */
  function DetailsOf(t: Thrown): (r: Option<Details>)
    ensures t.Zod? ==> r.Some? && r.value.validationErrors.Some? && |r.value.validationErrors.value| == |t.issues|
    ensures t.Zod? ==> forall k :: 0 <= k < |t.issues| ==>
              r.value.validationErrors.value[k] ==
                Validation.Detail(t.issues[k].message, Validation.PathText(t.issues[k].path), t.issues[k].code)
    ensures t.App? && t.kind.RateLimitKind? ==> r == Some(Details(None, Some(t.kind.retryAfter), None))
    ensures r.Some? <==> t.Zod? || (t.App? && t.kind.RateLimitKind?)
  {
    match t
    case Zod(issues, _) =>
      Some(Details(Some(seq(|issues|, k requires 0 <= k < |issues| =>
                              Validation.Detail(issues[k].message, Validation.PathText(issues[k].path), issues[k].code))),
                   None, None))
    case App(RateLimitKind(wait), _) => Some(Details(None, Some(wait), None))
    case _ => None
  }

  /** `createErrorResponse`: the error's name or "Error", and the first
      non-empty of the given message, the error's message and "Internal
      Server Error". */
  function CreateErrorResponse(t: Thrown, statusCode: int, message: Option<string>): (r: ErrorResponse)
    ensures |r.error| > 0 && |r.message| > 0
    ensures r.statusCode == statusCode && r.details == DetailsOf(t)
    ensures message.Some? && |message.value| > 0 ==> r.message == message.value
    ensures (message.None? || message == Some("")) && |t.message| > 0 ==> r.message == t.message
  {
    var name := Name(t);
    var text := if message.Some? && |message.value| > 0 then message.value
                else if |t.message| > 0 then t.message
                else "Internal Server Error";
    ErrorResponse(if |name| > 0 then name else "Error", text, statusCode, DetailsOf(t))
  }

  /** The body `errorHandler` sends. `dev` is `NODE_ENV === 'development'`
      and `stack` the error's stack. */
  function Respond(t: Thrown, stack: Option<string>, dev: bool): (r: ErrorResponse)
    ensures r.statusCode == Classify(t).0
    ensures !dev && r.statusCode >= 500 ==> r.message == "Internal Server Error" && r.details.None?
    ensures dev && r.statusCode >= 500 ==> r.details.Some? && r.details.value.stack == stack
    ensures r.statusCode < 500 ==> r == CreateErrorResponse(t, r.statusCode, Some(Classify(t).1))
    ensures |r.error| > 0 && |r.message| > 0
  {
    var (status, message) := Classify(t);
    var base := CreateErrorResponse(t, status, Some(message));
    if !dev && status >= 500 then base.(message := "Internal Server Error", details := None)
    else if dev && status >= 500 then
      var d := if base.details.Some? then base.details.value else Details(None, None, None);
      base.(details := Some(d.(stack := stack)))
    else base
  }

  /** Below 500 the environment changes nothing, stack or no stack. */
  lemma DevOnlyChangesServerErrors(t: Thrown, s1: Option<string>, s2: Option<string>)
    requires Classify(t).0 < 500
    ensures Respond(t, s1, true) == Respond(t, s2, false)
  {
  }

  /** In production a database failure never shows its message, while a
      client error of the application shows its own. */
  lemma ProductionMasking(m: string, k: AppKind, stack: Option<string>)
    requires !k.Base? && k != DatabaseKind && |m| > 0
    ensures Respond(App(DatabaseKind, m), stack, false) ==
              ErrorResponse("DatabaseError", "Internal Server Error", 500, None)
    ensures Respond(App(k, m), stack, false).message == m
    ensures Respond(App(k, m), stack, false).statusCode == KindStatus(k)
  {
    SubclassStatuses(k, k);
  }

  /** A schema failure answers 400 and lists every issue; a rate-limit
      error carries its wait. */
  lemma ClientDetails(issues: seq<Validation.Issue>, zm: string, wait: int, m: string, stack: Option<string>,
                      dev: bool)
    requires |issues| > 0
    ensures var r := Respond(Zod(issues, zm), stack, dev);
            && r.statusCode == 400 && r.error == "ZodError"
            && Validation.FormatZodError(issues) <= r.message
            && r.details.Some? && r.details.value.validationErrors.Some?
            && |r.details.value.validationErrors.value| == |issues|
    ensures Respond(App(RateLimitKind(wait), m), stack, dev).details == Some(Details(None, Some(wait), None))
  {
    ZodSummaryExtendsMiddlewareText(issues);
  }

  // --------------------------------------------------------------- logging

  /** The request fields the handler reads. */
  datatype Request = Request(verb: string, url: string, userId: Option<int>, email: Option<string>, ip: Option<string>)

  /** The logger call `logError` makes, with `rateLimitHit`'s arguments in
      its own parameter order (endpoint, limit, window, user, address). */
  datatype LogCall =
    | ServerError(message: string, userId: Option<int>, ip: Option<string>)
    | AuthFailure(userId: Option<int>, email: Option<string>, ip: Option<string>, reason: string)
    | RateLimited(endpoint: string, limit: Option<int>, window: Option<string>, userId: Option<int>, ip: Option<string>)
    | ClientWarning(message: string)
    | NoLog

  /** `logError` as written: at 429 it passes the user and the address
      where `rateLimitHit` expects the limit and the window, and 0 and
      'unknown' where it expects the user and the address. */
  function LogErrorAsWritten(status: int, message: string, req: Request): (r: LogCall)
    ensures r.ServerError? <==> status >= 500
    ensures r.AuthFailure? <==> status == 401 || status == 403
    ensures r.RateLimited? <==> status == 429
    ensures r.ClientWarning? <==> 400 <= status < 500 && status !in {401, 403, 429}
    ensures r.NoLog? <==> status < 400
    ensures r.RateLimited? ==> r.userId == Some(0) && r.ip == Some("unknown")
  {
    if status >= 500 then ServerError(message, req.userId, req.ip)
    else if status >= 400 then
      if status == 401 || status == 403 then AuthFailure(req.userId, req.email, req.ip, message)
      else if status == 429 then RateLimited(req.url, req.userId, req.ip, Some(0), Some("unknown"))
      else ClientWarning(message)
    else NoLog
  }

  /** `logError` with the rate-limit arguments in the order the logger
      declares them; every other status is routed as written. */
  function LogError(status: int, message: string, req: Request): (r: LogCall)
    ensures status != 429 ==> r == LogErrorAsWritten(status, message, req)
    ensures status == 429 ==> r == RateLimited(req.url, Some(0), Some("unknown"), req.userId, req.ip)
  {
    if status == 429 then RateLimited(req.url, Some(0), Some("unknown"), req.userId, req.ip)
    else LogErrorAsWritten(status, message, req)
  }

  /** What a call writes. `stack` is the error's stack and `json` the JSON
      text of the object the call serialises. */
  function Apply(f: Logger.Files, threshold: Logger.Level, ts: string, call: LogCall, stack: Option<string>,
                 json: string): (r: Logger.Files)
    ensures call.NoLog? ==> r == f
    ensures r.audit == f.audit
  {
    match call
    case ServerError(m, userId, ip) =>
      var g := Logger.Log(f, threshold, Logger.Entry(ts, Logger.Error, "Server Error: " + m, None, None, None, None,
                                                     None, None, Some(Logger.Failure(m, stack)), Some(json)));
      Logger.Security(g, threshold, ts, "SERVER_ERROR", Logger.High, userId, ip, json)
    case AuthFailure(userId, email, ip, reason) =>
      Logger.AuthEvent(f, threshold, ts, Logger.UnauthorizedAccess, userId, email, ip, Some(reason), json, json)
    case RateLimited(endpoint, limit, window, userId, ip) =>
      Logger.RateLimitHit(f, threshold, ts, endpoint, limit, window, userId, ip, json)
    case ClientWarning(m) =>
      Logger.Log(f, threshold, Logger.Entry(ts, Logger.Warn, "Client Error: " + m, None, None, None, None,
                                            None, None, None, Some(json)))
    case NoLog => f
  }

  /** A server error puts two lines in the errors file (the error and the
      HIGH security event), a refused authorisation one, anything else
      none; the security file grows for all but plain client errors. */
  lemma ErrorsFileGrowth(f: Logger.Files, threshold: Logger.Level, ts: string, status: int, message: string,
                         req: Request, stack: Option<string>, json: string)
    ensures var r := Apply(f, threshold, ts, LogError(status, message, req), stack, json);
            |r.errors| == |f.errors| + (if status >= 500 then 2 else if status == 401 || status == 403 then 1 else 0)
    ensures var r := Apply(f, threshold, ts, LogError(status, message, req), stack, json);
            |r.security| == |f.security| + (if status >= 500 || status in {401, 403, 429} then 1 else 0)
  {
  }

  /** As written, every 429 is filed under no user and the address
      "unknown", whoever made the request. */
  lemma RateLimitLineLosesCaller(f: Logger.Files, threshold: Logger.Level, ts: string, message: string,
                                 req: Request, stack: Option<string>, json: string)
    ensures Apply(f, threshold, ts, LogErrorAsWritten(429, message, req), stack, json).security ==
              f.security + ["[" + ts + "] [" + "MEDIUM" + "] " + "RATE_LIMIT_EXCEEDED"
                            + " | userId=" + "N/A" + " ip=" + "unknown" + " | " + json]
  {
  }

  /** With the arguments in order, the line names the caller. */
  lemma RateLimitLineNamesCaller(f: Logger.Files, threshold: Logger.Level, ts: string, message: string,
                                 req: Request, stack: Option<string>, json: string, user: int, address: string)
    requires req.userId == Some(user) && user != 0 && req.ip == Some(address) && |address| > 0
    ensures Apply(f, threshold, ts, LogError(429, message, req), stack, json).security ==
              f.security + ["[" + ts + "] [" + "MEDIUM" + "] " + "RATE_LIMIT_EXCEEDED"
                            + " | userId=" + JsText.IntToDecimal(user) + " ip=" + address + " | " + json]
  {
  }

  /** `errorHandler`: log, then answer. */
  function Handle(f: Logger.Files, threshold: Logger.Level, ts: string, t: Thrown, stack: Option<string>, dev: bool,
                  req: Request, json: string): (r: (Logger.Files, ErrorResponse))
    ensures r.1 == Respond(t, stack, dev)
    ensures r.1.statusCode >= 500 ==> |r.0.errors| == |f.errors| + 2
    ensures r.1.statusCode < 400 ==> r.0 == f
  {
    var (status, _) := Classify(t);
    ErrorsFileGrowth(f, threshold, ts, status, t.message, req, stack, json);
    (Apply(f, threshold, ts, LogError(status, t.message, req), stack, json), Respond(t, stack, dev))
  }

  /** `notFoundHandler`: a warning, and a 404 built from
      `NotFoundError('Route')` with no message of its own. */
  function NotFoundHandler(f: Logger.Files, threshold: Logger.Level, ts: string, req: Request, json: string)
    : (r: (Logger.Files, ErrorResponse))
    ensures r.1 == ErrorResponse("NotFoundError", "Route not found", 404, None)
    ensures r.0.errors == f.errors
    ensures |r.0.main| == |f.main| + (if Logger.ShouldLog(Logger.Warn, threshold) then 1 else 0)
  {
    var g := Logger.Log(f, threshold, Logger.Entry(ts, Logger.Warn, "Route not found: " + req.verb + " " + req.url,
                                                   None, None, None, None, None, None, None, Some(json)));
    (g, CreateErrorResponse(NotFound("Route"), 404, None))
  }

  /** The unknown-route answer is what the error handler would send for
      the same `NotFoundError`, in either environment. */
  lemma NotFoundAgreesWithHandler(f: Logger.Files, threshold: Logger.Level, ts: string, req: Request, json: string,
                                  stack: Option<string>, dev: bool)
    ensures NotFoundHandler(f, threshold, ts, req, json).1 == Respond(NotFound("Route"), stack, dev)
  {
  }
}

=== FILE: friends.dfy ===
/** The friendship routes: friend requests (sent, accepted, declined), the
    lists built from them, and the `block` relation these routes consult.
    The friendship table is a map from row id to row; the database's fresh
    ids are parameters and its row order is not modelled, so the lists are
    sets. */
module Friends {
  import opened Wrappers
  import opened Http

  datatype FriendshipStatus = Pending | Accepted | Declined

  datatype Friendship = Friendship(requesterId: int, recipientId: int, status: FriendshipStatus)

  type Friendships = map<int, Friendship>

  /** The `block` table: (blocker, blocked) pairs, unique by the pair. It
      is a different table from the block routes' `userBlock`. */
  type Blocks = set<(int, int)>

  /** The row links `a` and `b`, in either direction. */
  predicate Links(f: Friendship, a: int, b: int) {
    (f.requesterId == a && f.recipientId == b) || (f.requesterId == b && f.recipientId == a)
  }

  /** Some row, of any status, links `a` and `b`. */
  predicate Linked(fs: Friendships, a: int, b: int) {
    exists id | id in fs :: Links(fs[id], a, b)
  }

  /** Either user has blocked the other. */
  predicate BlockedEither(blocks: Blocks, a: int, b: int) {
    (a, b) in blocks || (b, a) in blocks
  }

  /** Nobody has befriended themselves. */
  predicate NoSelf(fs: Friendships) {
    forall id | id in fs :: fs[id].requesterId != fs[id].recipientId
  }

  /** At most one row per pair of users, whatever its direction or status. */
  predicate OnePerPair(fs: Friendships) {
    forall i, j | i in fs && j in fs :: Links(fs[i], fs[j].requesterId, fs[j].recipientId) ==> i == j
  }

  predicate Valid(fs: Friendships) {
    NoSelf(fs) && OnePerPair(fs)
  }

  /** `POST /friends/request`; the route's body schema admits only
      `toUserId >= 1`. The recipient's existence is not checked. */
  function Request(fs: Friendships, blocks: Blocks, me: int, to: int, newId: int): (r: Result<Friendships, Reply>)
    requires to >= 1 && newId !in fs
    ensures me == to ==> r == Failure(Reply(400, "Cannot send request to yourself"))
    ensures me != to && BlockedEither(blocks, me, to) ==> r == Failure(Reply(403, "Blocked users cannot interact"))
    ensures me != to && !BlockedEither(blocks, me, to) && Linked(fs, me, to) ==>
              r == Failure(Reply(409, "Friend request already exists"))
    ensures r.Success? <==> me != to && !BlockedEither(blocks, me, to) && !Linked(fs, me, to)
    ensures r.Success? ==> r.value == fs[newId := Friendship(me, to, Pending)]
  {
    if me == to then Failure(Reply(400, "Cannot send request to yourself"))
    else if BlockedEither(blocks, me, to) then Failure(Reply(403, "Blocked users cannot interact"))
    else if Linked(fs, me, to) then Failure(Reply(409, "Friend request already exists"))
    else Success(fs[newId := Friendship(me, to, Pending)])
  }

  datatype Answer = Accept | Decline

  /** `POST /friends/accept` and `POST /friends/decline`: only the
      recipient of a pending request may answer it. Both routes refuse a
      stranger with the accept route's message. */
  function Respond(fs: Friendships, me: int, id: int, answer: Answer): (r: Result<Friendships, Reply>)
    ensures id !in fs ==> r == Failure(Reply(404, "Friend request not found"))
    ensures id in fs && fs[id].recipientId != me ==>
              r == Failure(Reply(403, "You're not allowed to accept this request"))
    ensures id in fs && fs[id].recipientId == me && fs[id].status != Pending ==>
              r == Failure(Reply(400, "Request already handled"))
    ensures r.Success? <==> id in fs && fs[id].recipientId == me && fs[id].status == Pending
    ensures r.Success? ==>
              r.value == fs[id := fs[id].(status := if answer == Accept then Accepted else Declined)]
  {
    if id !in fs then Failure(Reply(404, "Friend request not found"))
    else if fs[id].recipientId != me then Failure(Reply(403, "You're not allowed to accept this request"))
    else if fs[id].status != Pending then Failure(Reply(400, "Request already handled"))
    else Success(fs[id := fs[id].(status := if answer == Accept then Accepted else Declined)])
  }

  /** The other party of a row that involves `me`. */
  function Other(f: Friendship, me: int): int {
    if f.requesterId == me then f.recipientId else f.requesterId
  }

  /** `GET /friends/list`: the other party of each accepted friendship
      that involves the caller. */
  function FriendsList(fs: Friendships, me: int): (r: set<int>)
    ensures forall x :: x in r <==>
              exists id | id in fs :: fs[id].status == Accepted &&
                ((fs[id].requesterId == me && fs[id].recipientId == x) ||
                 (fs[id].requesterId != me && fs[id].recipientId == me && fs[id].requesterId == x))
  {
    set id | id in fs && fs[id].status == Accepted && (fs[id].requesterId == me || fs[id].recipientId == me)
      :: Other(fs[id], me)
  }

  /** `GET /friends/pending`: who asked the caller, still unanswered. */
  function PendingList(fs: Friendships, me: int): (r: set<int>)
    ensures forall x :: x in r <==>
              exists id | id in fs :: fs[id] == Friendship(x, me, Pending)
  {
    set id | id in fs && fs[id].status == Pending && fs[id].recipientId == me :: fs[id].requesterId
  }

  /** `GET /friends/sent`: whom the caller asked, still unanswered. */
  function SentList(fs: Friendships, me: int): (r: set<int>)
    ensures forall x :: x in r <==>
              exists id | id in fs :: fs[id] == Friendship(me, x, Pending)
  {
    set id | id in fs && fs[id].status == Pending && fs[id].requesterId == me :: fs[id].recipientId
  }

  /** `POST /friends/block`. The target's existence is not checked. */
  function Block(blocks: Blocks, me: int, target: int): (r: Result<Blocks, Reply>)
    ensures me == target ==> r == Failure(Reply(400, "Cannot block yourself"))
    ensures me != target && (me, target) in blocks ==> r == Failure(Reply(409, "User is already blocked"))
    ensures r.Success? <==> me != target && (me, target) !in blocks
    ensures r.Success? ==> r.value - blocks == {(me, target)} && blocks < r.value
  {
    if me == target then Failure(Reply(400, "Cannot block yourself"))
    else if (me, target) in blocks then Failure(Reply(409, "User is already blocked"))
    else Success(blocks + {(me, target)})
  }

  /** `POST /friends/unblock`. */
  function Unblock(blocks: Blocks, me: int, target: int): (r: Result<Blocks, Reply>)
    ensures me == target ==> r == Failure(Reply(400, "You can't unblock yourself"))
    ensures me != target && (me, target) !in blocks ==> r == Failure(Reply(404, "Block not found"))
    ensures r.Success? <==> me != target && (me, target) in blocks
    ensures r.Success? ==> blocks - r.value == {(me, target)} && r.value < blocks
  {
    if me == target then Failure(Reply(400, "You can't unblock yourself"))
    else if (me, target) !in blocks then Failure(Reply(404, "Block not found"))
    else Success(blocks - {(me, target)})
  }

  // ------------------------------------------------------------- properties

  /** Sending a request keeps every pair down to one row and nobody
      befriends themselves. */
  lemma RequestKeepsValid(fs: Friendships, blocks: Blocks, me: int, to: int, newId: int)
    requires Valid(fs) && to >= 1 && newId !in fs
    ensures Request(fs, blocks, me, to, newId).Success? ==> Valid(Request(fs, blocks, me, to, newId).value)
  {
    var r := Request(fs, blocks, me, to, newId);
    if r.Success? {
      assert forall k | k in fs :: !Links(fs[k], me, to);
    }
  }

  /** Answering changes only that row's status, from pending to the
      answer, and keeps the table valid. */
  lemma RespondKeepsValid(fs: Friendships, me: int, id: int, answer: Answer)
    requires Valid(fs)
    ensures var r := Respond(fs, me, id, answer);
            r.Success? ==> (Valid(r.value) && r.value.Keys == fs.Keys &&
                            forall k | k in fs :: Links(r.value[k], fs[k].requesterId, fs[k].recipientId))
  {
  }

  /** An answered request is final: every later answer is refused and
      leaves the row as it is. */
  lemma HandledIsFinal(fs: Friendships, me: int, id: int, answer: Answer)
    requires id in fs && fs[id].status != Pending
    ensures Respond(fs, me, id, answer).Failure?
  {
  }

  /** A request its recipient accepts makes each of the two the other's
      friend. */
  lemma AcceptedRequestMakesFriends(fs: Friendships, blocks: Blocks, me: int, to: int, newId: int)
    requires to >= 1 && newId !in fs
    requires Request(fs, blocks, me, to, newId).Success?
    ensures var fs1 := Request(fs, blocks, me, to, newId).value;
            var r := Respond(fs1, to, newId, Accept);
            r.Success? && to in FriendsList(r.value, me) && me in FriendsList(r.value, to)
  {
    var fs1 := Request(fs, blocks, me, to, newId).value;
    var fs2 := Respond(fs1, to, newId, Accept).value;
    assert fs2[newId] == Friendship(me, to, Accepted);
  }

  /** A block in either direction stops friend requests both ways. */
  lemma BlockStopsRequests(fs: Friendships, blocks: Blocks, me: int, x: int, newId: int)
    requires Block(blocks, me, x).Success? && newId !in fs
    ensures x >= 1 ==> Request(fs, Block(blocks, me, x).value, me, x, newId).error.code == 403
    ensures me >= 1 ==> Request(fs, Block(blocks, me, x).value, x, me, newId).error.code == 403
  {
  }

  /** Unblocking undoes a block exactly, and blocking again undoes the
      unblock. */
  lemma BlockThenUnblockRestores(blocks: Blocks, me: int, x: int)
    requires Block(blocks, me, x).Success?
    ensures Unblock(Block(blocks, me, x).value, me, x) == Success(blocks)
  {
    assert Block(blocks, me, x).value - {(me, x)} == blocks;
  }

  lemma UnblockThenBlockRestores(blocks: Blocks, me: int, x: int)
    requires Unblock(blocks, me, x).Success?
    ensures Block(Unblock(blocks, me, x).value, me, x) == Success(blocks)
  {
    assert Unblock(blocks, me, x).value + {(me, x)} == blocks;
  }
}

=== FILE: game_model.dfy ===
/** The records of one remote Pong match held by the game service: its
    configuration, the two paddles, the ball and the lifecycle status.
    Positions and speeds are reals; timestamps are milliseconds. */
module GameModel {
  import opened Wrappers

  datatype Status = Waiting | Ready | Playing | Finished

  datatype Config = Config(
    maxScore: int,
    paddleSpeed: real,
    ballSpeed: real,
    canvasWidth: real,
    canvasHeight: real,
    paddleWidth: real,
    paddleHeight: real,
    ballSize: real)

  /** The fields a caller may override when creating a game; `None` keeps
      the default. */
  datatype ConfigOverride = ConfigOverride(
    maxScore: Option<int>,
    paddleSpeed: Option<real>,
    ballSpeed: Option<real>,
    canvasWidth: Option<real>,
    canvasHeight: Option<real>,
    paddleWidth: Option<real>,
    paddleHeight: Option<real>,
    ballSize: Option<real>)

  const NoOverride := ConfigOverride(None, None, None, None, None, None, None, None)

  /** The service's built-in configuration. */
  const DefaultConfig := Config(5, 8.0, 5.0, 800.0, 400.0, 10.0, 80.0, 10.0)

  /** Object spread `{...base, ...o}`: every field `o` sets wins. */
  function Merge(base: Config, o: ConfigOverride): (c: Config)
    ensures o.maxScore.Some? ==> c.maxScore == o.maxScore.value
    ensures o.maxScore.None? ==> c.maxScore == base.maxScore
    ensures o.paddleSpeed.Some? ==> c.paddleSpeed == o.paddleSpeed.value
    ensures o.paddleSpeed.None? ==> c.paddleSpeed == base.paddleSpeed
    ensures o.ballSpeed.Some? ==> c.ballSpeed == o.ballSpeed.value
    ensures o.ballSpeed.None? ==> c.ballSpeed == base.ballSpeed
    ensures o.canvasWidth.Some? ==> c.canvasWidth == o.canvasWidth.value
    ensures o.canvasWidth.None? ==> c.canvasWidth == base.canvasWidth
    ensures o.canvasHeight.Some? ==> c.canvasHeight == o.canvasHeight.value
    ensures o.canvasHeight.None? ==> c.canvasHeight == base.canvasHeight
    ensures o.paddleWidth.Some? ==> c.paddleWidth == o.paddleWidth.value
    ensures o.paddleWidth.None? ==> c.paddleWidth == base.paddleWidth
    ensures o.paddleHeight.Some? ==> c.paddleHeight == o.paddleHeight.value
    ensures o.paddleHeight.None? ==> c.paddleHeight == base.paddleHeight
    ensures o.ballSize.Some? ==> c.ballSize == o.ballSize.value
    ensures o.ballSize.None? ==> c.ballSize == base.ballSize
  {
    Config(
      o.maxScore.GetOr(base.maxScore),
      o.paddleSpeed.GetOr(base.paddleSpeed),
      o.ballSpeed.GetOr(base.ballSpeed),
      o.canvasWidth.GetOr(base.canvasWidth),
      o.canvasHeight.GetOr(base.canvasHeight),
      o.paddleWidth.GetOr(base.paddleWidth),
      o.paddleHeight.GetOr(base.paddleHeight),
      o.ballSize.GetOr(base.ballSize))
  }

  lemma MergeNothing(base: Config)
    ensures Merge(base, NoOverride) == base
  {
  }

  datatype Player = Player(id: int, username: string, y: real, score: nat, ready: bool)

  datatype Ball = Ball(x: real, y: real, dx: real, dy: real)

  datatype Game = Game(
    id: string,
    status: Status,
    player1: Player,
    player2: Option<Player>,
    ball: Ball,
    config: Config,
    lastUpdateTime: int,
    winnerId: Option<int>)

  /** The two coin flips (`Math.random() > 0.5`) that choose a serve's
      horizontal and vertical direction. */
  datatype Serve = Serve(rightward: bool, downward: bool)

  function Sign(positive: bool): real {
    if positive then 1.0 else -1.0
  }

  /** The ball at the centre of the canvas, moving diagonally at `speed`
      in the direction the serve chose. */
  function CentreBall(width: real, height: real, speed: real, serve: Serve): (b: Ball)
    ensures b.x == width / 2.0 && b.y == height / 2.0
    ensures b.dx == (if serve.rightward then speed else -speed)
    ensures b.dy == (if serve.downward then speed else -speed)
  {
    Ball(width / 2.0, height / 2.0, speed * Sign(serve.rightward), speed * Sign(serve.downward))
  }

  /** `Math.abs`. */
  function Abs(x: real): (r: real)
    ensures r >= 0.0 && (r == x || r == -x)
  {
    if x < 0.0 then -x else x
  }

  /** `Math.max(lo, Math.min(hi, x))`, the clamp the source writes out. */
  function Clamp(lo: real, hi: real, x: real): (r: real)
    ensures lo <= hi ==> lo <= r <= hi
    ensures lo <= x <= hi ==> r == x
    ensures r == lo || r == hi || r == x
  {
    var m := if x < hi then x else hi;
    if lo < m then m else lo
  }

  /** A configuration in which the physics keeps its promises: positive
      sizes, a canvas at least one ball tall, and wide enough that the ball
      cannot touch both paddles at once. */
  predicate Playable(c: Config) {
    && c.paddleWidth > 0.0 && c.ballSize > 0.0 && c.paddleHeight > 0.0 && c.ballSpeed > 0.0
    && c.canvasHeight >= c.ballSize
    && c.canvasWidth > 2.0 * c.paddleWidth + c.ballSize
  }

  lemma DefaultPlayable()
    ensures Playable(DefaultConfig)
  {
  }
}

=== FILE: game_physics.dfy ===
/** One physics step of a remote Pong match: the ball advances, bounces
    off the top and bottom walls, is deflected by a paddle, and a point is
    scored when it leaves the canvas; the match finishes once a score
    reaches the configured maximum. The wall clock and the random serve
    direction are parameters. */
module GamePhysics {
  import opened Wrappers
  import opened GameModel

  /** Seconds between two millisecond timestamps. */
  function Seconds(fromMs: int, toMs: int): real {
    (toMs - fromMs) as real / 1000.0
  }

  /** Motion at 60 frames per second: each velocity component is in
      pixels per frame, so the ball moves `d * seconds * 60`. */
  function Advance(b: Ball, seconds: real): (r: Ball)
    ensures r.dx == b.dx && r.dy == b.dy
    ensures seconds == 0.0 ==> r == b
  {
    b.(x := b.x + b.dx * seconds * 60.0, y := b.y + b.dy * seconds * 60.0)
  }

  /** Two advances in a row are one advance over the summed time. */
  lemma AdvanceAdditive(b: Ball, s1: real, s2: real)
    ensures Advance(Advance(b, s1), s2) == Advance(b, s1 + s2)
  {
    var a := Advance(b, s1);
    Distribute(b.dx, s1, s2);
    Distribute(b.dy, s1, s2);
    assert Advance(a, s2).x == Advance(b, s1 + s2).x;
    assert Advance(a, s2).y == Advance(b, s1 + s2).y;
  }

  lemma Distribute(d: real, s1: real, s2: real)
    ensures d * s1 * 60.0 + d * s2 * 60.0 == d * (s1 + s2) * 60.0
  {
    assert d * (s1 + s2) == d * s1 + d * s2;
    assert (d * s1 + d * s2) * 60.0 == d * s1 * 60.0 + d * s2 * 60.0;
  }

  /** The band the ball's centre may occupy between the walls. */
  predicate InBand(y: real, c: Config) {
    c.ballSize / 2.0 <= y <= c.canvasHeight - c.ballSize / 2.0
  }

  predicate TouchesWall(b: Ball, c: Config) {
    b.y <= c.ballSize / 2.0 || b.y >= c.canvasHeight - c.ballSize / 2.0
  }

  /** A wall contact reverses the vertical direction and pulls the ball
      back into the band; otherwise the ball is untouched. */
  function WallBounce(b: Ball, c: Config): (r: Ball)
    ensures r.x == b.x && r.dx == b.dx
    ensures TouchesWall(b, c) ==> r.dy == -b.dy
    ensures !TouchesWall(b, c) ==> r == b
    ensures c.canvasHeight >= c.ballSize ==> InBand(r.y, c)
  {
    if TouchesWall(b, c) then
      b.(dy := -b.dy, y := Clamp(c.ballSize / 2.0, c.canvasHeight - c.ballSize / 2.0, b.y))
    else b
  }

  /** The ball's box overlaps player 1's paddle on the left edge. */
  predicate HitsLeftPaddle(b: Ball, c: Config, paddleY: real) {
    && b.x - c.ballSize / 2.0 <= c.paddleWidth
    && b.x + c.ballSize / 2.0 >= 0.0
    && b.y + c.ballSize / 2.0 >= paddleY
    && b.y - c.ballSize / 2.0 <= paddleY + c.paddleHeight
  }

  /** The ball's box overlaps player 2's paddle on the right edge. */
  predicate HitsRightPaddle(b: Ball, c: Config, paddleY: real) {
    && b.x + c.ballSize / 2.0 >= c.canvasWidth - c.paddleWidth
    && b.x - c.ballSize / 2.0 <= c.canvasWidth
    && b.y + c.ballSize / 2.0 >= paddleY
    && b.y - c.ballSize / 2.0 <= paddleY + c.paddleHeight
  }

  /** On a playable canvas the ball cannot touch both paddles at once. */
  lemma NotBothPaddles(b: Ball, c: Config, y1: real, y2: real)
    requires Playable(c)
    ensures !(HitsLeftPaddle(b, c, y1) && HitsRightPaddle(b, c, y2))
  {
  }

  /** Both paddle tests read the ball's box as it was before either
      deflection; a left hit sends the ball right from the paddle face, a
      right hit sends it left. */
  function PaddleCollision(b: Ball, c: Config, y1: real, y2: real): (r: Ball)
    ensures r.y == b.y && r.dy == b.dy
    ensures !HitsLeftPaddle(b, c, y1) && !HitsRightPaddle(b, c, y2) ==> r == b
    ensures HitsRightPaddle(b, c, y2) ==>
              r.dx == -Abs(b.dx) && r.x == c.canvasWidth - c.paddleWidth - c.ballSize / 2.0
    ensures HitsLeftPaddle(b, c, y1) && !HitsRightPaddle(b, c, y2) ==>
              r.dx == Abs(b.dx) && r.x == c.paddleWidth + c.ballSize / 2.0
  {
    var afterLeft :=
      if HitsLeftPaddle(b, c, y1) then b.(dx := Abs(b.dx), x := c.paddleWidth + c.ballSize / 2.0)
      else b;
    if HitsRightPaddle(b, c, y2) then
      afterLeft.(dx := -Abs(afterLeft.dx), x := c.canvasWidth - c.paddleWidth - c.ballSize / 2.0)
    else afterLeft
  }

  /** A match the tick moves: playing, with both seats taken. */
  predicate Live(g: Game) {
    g.status == Playing && g.player2.Some?
  }

  /** Where the ball is after moving, bouncing and paddle deflection,
      before the scoring test. */
  function Moved(g: Game, now: int): (b: Ball)
    requires g.player2.Some?
    ensures Playable(g.config) ==> InBand(b.y, g.config)
  {
    var c := g.config;
    var bounced := WallBounce(Advance(g.ball, Seconds(g.lastUpdateTime, now)), c);
    PaddleCollision(bounced, c, g.player1.y, g.player2.value.y)
  }

  /** The ball back at the centre, served by `serve`. */
  function ResetBall(c: Config, serve: Serve): (b: Ball)
    ensures b.x == c.canvasWidth / 2.0 && b.y == c.canvasHeight / 2.0
    ensures Abs(b.dx) == Abs(c.ballSpeed) && Abs(b.dy) == Abs(c.ballSpeed)
  {
    CentreBall(c.canvasWidth, c.canvasHeight, c.ballSpeed, serve)
  }

  /** The end of a match: finished, won by player 1 only on a strictly
      higher score, so a tie goes to player 2. Without a second player the
      match is left alone. */
  function Finish(g: Game): (r: Game)
    ensures g.player2.None? ==> r == g
    ensures g.player2.Some? ==>
              && r.status == Finished
              && r.winnerId.Some?
              && (r.winnerId.value == g.player1.id <==> g.player1.score > g.player2.value.score
                                                        || g.player1.id == g.player2.value.id)
              && (r.winnerId.value == g.player1.id || r.winnerId.value == g.player2.value.id)
    ensures r.player1 == g.player1 && r.player2 == g.player2 && r.id == g.id && r.ball == g.ball
  {
    match g.player2
    case None => g
    case Some(p2) =>
      g.(status := Finished,
         winnerId := Some(if g.player1.score > p2.score then g.player1.id else p2.id))
  }

  predicate ReachedMax(g: Game)
    requires g.player2.Some?
  {
    g.player1.score >= g.config.maxScore || g.player2.value.score >= g.config.maxScore
  }

  /** The movement and scoring half of a frame at wall-clock time `now`;
      `serve` is the direction drawn if the ball is reset. */
  function Step(g: Game, now: int, serve: Serve): (r: Game)
    requires Live(g)
    ensures Live(r) && r.lastUpdateTime == now
    ensures r.id == g.id && r.config == g.config && r.winnerId == g.winnerId
    ensures r.player1.(score := g.player1.score) == g.player1
    ensures r.player2.value.(score := g.player2.value.score) == g.player2.value
    ensures 0.0 < Moved(g, now).x < g.config.canvasWidth ==>
              r.ball == Moved(g, now) && r.player1 == g.player1 && r.player2 == g.player2
  {
    var c := g.config;
    var p1 := g.player1;
    var p2 := g.player2.value;
    var b := Moved(g, now);
    var scored :=
      if b.x <= 0.0 then
        g.(player2 := Some(p2.(score := p2.score + 1)), ball := ResetBall(c, serve))
      else if b.x >= c.canvasWidth then
        g.(player1 := p1.(score := p1.score + 1), ball := ResetBall(c, serve))
      else
        g.(ball := b);
    scored.(lastUpdateTime := now)
  }

  /** One frame of the 60 Hz loop: a step, then the win test on the
      scores that step left. */
  function Tick(g: Game, now: int, serve: Serve): (r: Game)
    ensures !Live(g) ==> r == g
    ensures Live(g) ==>
              && r.player2.Some?
              && r.id == g.id && r.config == g.config && r.lastUpdateTime == now
              && r.player1.(score := g.player1.score) == g.player1
              && r.player2.value.(score := g.player2.value.score) == g.player2.value
              && (r.status == Finished <==> ReachedMax(r))
              && (r.status != Finished ==> r.status == Playing && r.winnerId == g.winnerId)
    ensures Live(g) && 0.0 < Moved(g, now).x < g.config.canvasWidth ==> r.ball == Moved(g, now)
  {
    if !Live(g) then g
    else
      var stepped := Step(g, now, serve);
      if ReachedMax(stepped) then Finish(stepped) else stepped
  }

  /** Player 2's point: the moved ball reached the left edge. */
  lemma {:induction false} PlayerTwoScoresAtLeftEdge(g: Game, now: int, serve: Serve)
    requires Live(g)
    ensures Tick(g, now, serve).player2.value.score
            == g.player2.value.score + (if Moved(g, now).x <= 0.0 then 1 else 0)
  {
  }

  /** Player 1's point: the moved ball reached the right edge without
      having reached the left one. */
  lemma {:induction false} PlayerOneScoresAtRightEdge(g: Game, now: int, serve: Serve)
    requires Live(g)
    ensures Tick(g, now, serve).player1.score
            == g.player1.score
               + (if Moved(g, now).x > 0.0 && Moved(g, now).x >= g.config.canvasWidth then 1 else 0)
  {
  }

  /** A tick awards at most one point, and scores never go down. */
  lemma OnePointPerTick(g: Game, now: int, serve: Serve)
    requires g.player2.Some?
    ensures Tick(g, now, serve).player2.Some?
    ensures var r := Tick(g, now, serve);
            && r.player1.score >= g.player1.score
            && r.player2.value.score >= g.player2.value.score
            && r.player1.score + r.player2.value.score
               <= g.player1.score + g.player2.value.score + 1
  {
    if Live(g) {
      PlayerTwoScoresAtLeftEdge(g, now, serve);
      PlayerOneScoresAtRightEdge(g, now, serve);
    }
  }

  /** After a tick of a live match on a playable canvas, the ball's centre
      lies between the walls: a wall contact clamps it, paddles do not move
      it vertically, and a reset puts it at mid-height. */
  lemma BallStaysInBand(g: Game, now: int, serve: Serve)
    requires Live(g) && Playable(g.config)
    ensures InBand(Tick(g, now, serve).ball.y, g.config)
  {
    var b := Moved(g, now);
    assert InBand(b.y, g.config);
    assert InBand(g.config.canvasHeight / 2.0, g.config);
  }

  /** A hit on player 1's paddle puts the ball at the paddle face, heading
      right, so that tick cannot give player 2 a point. */
  lemma LeftPaddleHitDeniesPoint(g: Game, now: int, serve: Serve)
    requires Live(g) && Playable(g.config)
    requires HitsLeftPaddle(WallBounce(Advance(g.ball, Seconds(g.lastUpdateTime, now)), g.config),
                            g.config, g.player1.y)
    ensures Tick(g, now, serve).player2.value.score == g.player2.value.score
  {
    var c := g.config;
    var bounced := WallBounce(Advance(g.ball, Seconds(g.lastUpdateTime, now)), c);
    NotBothPaddles(bounced, c, g.player1.y, g.player2.value.y);
    assert Moved(g, now).x == c.paddleWidth + c.ballSize / 2.0;
    PlayerTwoScoresAtLeftEdge(g, now, serve);
  }

  /** Symmetrically, a hit on player 2's paddle denies player 1 a point. */
  lemma RightPaddleHitDeniesPoint(g: Game, now: int, serve: Serve)
    requires Live(g) && Playable(g.config)
    requires HitsRightPaddle(WallBounce(Advance(g.ball, Seconds(g.lastUpdateTime, now)), g.config),
                             g.config, g.player2.value.y)
    ensures Tick(g, now, serve).player1.score == g.player1.score
  {
    var c := g.config;
    assert Moved(g, now).x == c.canvasWidth - c.paddleWidth - c.ballSize / 2.0;
    PlayerOneScoresAtRightEdge(g, now, serve);
  }

  /** A scored point puts the ball back at the centre at serve speed. */
  lemma ScoreResetsBall(g: Game, now: int, serve: Serve)
    requires Live(g)
    requires var b := Moved(g, now); b.x <= 0.0 || b.x >= g.config.canvasWidth
    ensures Tick(g, now, serve).ball == ResetBall(g.config, serve)
  {
  }

  /** The win test sees the point scored in the same tick: a match whose
      leader is one short of the maximum finishes on the tick that scores
      it, and the winner is player 2 on equal scores. */
  lemma WinnerOfTick(g: Game, now: int, serve: Serve)
    requires Live(g)
    requires Tick(g, now, serve).status == Finished
    ensures var r := Tick(g, now, serve);
            && r.winnerId.Some?
            && (r.player1.score > r.player2.value.score ==> r.winnerId.value == g.player1.id)
            && (r.player1.score <= r.player2.value.score ==> r.winnerId.value == g.player2.value.id)
  {
  }
}

=== FILE: game_service.dfy ===
/** The in-memory registry of remote Pong matches: a JavaScript `Map` from
    game id to match state, the set of ids whose 60 Hz loop is running, and
    the set of ids whose five-minute clean-up timer is pending. The user
    table, the database's fresh game id, the wall clock and the random
    serve are parameters; timers are explicit operations. */
module GameService {
  import opened Wrappers
  import opened OrderedMap
  import opened GameModel
  import opened GamePhysics
  import JsText

  /** `userId -> username` for every user in the database. */
  type Users = map<int, string>

  datatype Service = Service(
    games: OMap<string, Game>,
    intervals: set<string>,
    reaps: set<string>)

  const Empty: Service := Service([], {}, {})

  /** The player takes part in the match, in either seat. */
  predicate Involves(g: Game, playerId: int) {
    g.player1.id == playerId || (g.player2.Some? && g.player2.value.id == playerId)
  }

  /** The shape every registered match keeps: a second seat exactly from
      `ready` on, two different players, and a winner exactly when finished,
      who is one of the two. */
  predicate WellFormed(g: Game) {
    && (g.status == Waiting <==> g.player2.None?)
    && (g.player2.Some? ==> g.player2.value.id != g.player1.id)
    && (g.status == Finished <==> g.winnerId.Some?)
    && (g.winnerId.Some? ==> Involves(g, g.winnerId.value))
  }

  /** The registry invariant: distinct ids, each match stored under its own
      id and well formed, a loop running exactly for the matches being
      played, and a pending clean-up only for finished matches. */
  ghost predicate Valid(s: Service) {
    && DistinctKeys(s.games)
    && (forall i :: 0 <= i < |s.games| ==> s.games[i].1.id == s.games[i].0)
    && (forall i :: 0 <= i < |s.games| ==> WellFormed(s.games[i].1))
    && (forall id :: id in s.intervals ==> Has(s.games, id))
    && (forall id :: Has(s.games, id) ==> (id in s.intervals <==> Get(s.games, id).value.status == Playing))
    && (forall id :: id in s.reaps && Has(s.games, id) ==> Get(s.games, id).value.status == Finished)
  }

  lemma EmptyValid()
    ensures Valid(Empty)
  {
  }

  // ---------------------------------------------------------------- create

  /** The state of a freshly created match. Its paddle and ball start from
      the built-in configuration even when `o` overrides the sizes. */
  function NewGame(id: string, host: int, name: string, o: ConfigOverride, now: int, serve: Serve): (g: Game)
    ensures g.id == id && g.status == Waiting && g.player2.None? && g.winnerId.None?
    ensures g.player1 == Player(host, name, 160.0, 0, false)
    ensures g.ball.x == 400.0 && g.ball.y == 200.0
    ensures Abs(g.ball.dx) == 5.0 && Abs(g.ball.dy) == 5.0
    ensures g.config == Merge(DefaultConfig, o) && g.lastUpdateTime == now
  {
    var d := DefaultConfig;
    Game(id, Waiting,
         Player(host, name, d.canvasHeight / 2.0 - d.paddleHeight / 2.0, 0, false),
         None,
         CentreBall(d.canvasWidth, d.canvasHeight, d.ballSpeed, serve),
         Merge(d, o), now, None)
  }

  /** `createGame`: fails only for an unknown host, and otherwise registers
      a waiting match under the database's new id. It does not look at
      whether the host already plays in another match. */
  function CreateGame(s: Service, hostId: int, users: Users, dbId: int, o: ConfigOverride,
                      now: int, serve: Serve): (r: Result<(Service, string), string>)
    ensures r.Failure? <==> hostId !in users
    ensures r.Failure? ==> r.error == "User not found"
    ensures r.Success? ==>
              var (s', id) := r.value;
              && id == JsText.IntToDecimal(dbId)
              && s'.games == Set(s.games, id, NewGame(id, hostId, users[hostId], o, now, serve))
              && s'.intervals == s.intervals && s'.reaps == s.reaps
  {
    if hostId !in users then Failure("User not found")
    else
      var id := JsText.IntToDecimal(dbId);
      Success((s.(games := Set(s.games, id, NewGame(id, hostId, users[hostId], o, now, serve))), id))
  }

  // ---------------------------------------------------------------- join

  /** Why `joinGame` refuses, in the order it checks; `None` when it
      accepts. */
  function JoinRefusal(s: Service, gameId: string, playerId: int, users: Users): Option<string> {
    match Get(s.games, gameId)
    case None => Some("Game not found")
    case Some(g) =>
      if g.status != Waiting then Some("Game is not available for joining")
      else if g.player1.id == playerId then Some("Cannot join your own game")
      else if g.player2.Some? then Some("Game is already full")
      else if playerId !in users then Some("User not found")
      else None
  }

  /** `joinGame`: the joiner takes the second seat, centred with the
      match's own configuration, and the match becomes ready. */
  function JoinGame(s: Service, gameId: string, playerId: int, users: Users): (r: Result<Service, string>)
    ensures r.Failure? <==> JoinRefusal(s, gameId, playerId, users).Some?
    ensures r.Failure? ==> r.error == JoinRefusal(s, gameId, playerId, users).value
    ensures r.Success? ==>
              && Get(s.games, gameId).Some?
              && var g := Get(s.games, gameId).value;
              && r.value == s.(games := Set(s.games, gameId, g.(
                   status := Ready,
                   player2 := Some(Player(playerId, users[playerId],
                                          g.config.canvasHeight / 2.0 - g.config.paddleHeight / 2.0,
                                          0, false)))))
  {
    match Get(s.games, gameId)
    case None => Failure("Game not found")
    case Some(g) =>
      if g.status != Waiting then Failure("Game is not available for joining")
      else if g.player1.id == playerId then Failure("Cannot join your own game")
      else if g.player2.Some? then Failure("Game is already full")
      else if playerId !in users then Failure("User not found")
      else
        var c := g.config;
        var p2 := Player(playerId, users[playerId], c.canvasHeight / 2.0 - c.paddleHeight / 2.0, 0, false);
        Success(s.(games := Set(s.games, gameId, g.(player2 := Some(p2), status := Ready))))
  }

  /** A join is refused exactly for an unknown match, a match that is not
      waiting, the host itself, a full match or an unknown user. */
  lemma JoinRefusedExactly(s: Service, gameId: string, playerId: int, users: Users)
    requires Valid(s)
    ensures JoinGame(s, gameId, playerId, users).Failure? <==>
              || !Has(s.games, gameId)
              || Get(s.games, gameId).value.status != Waiting
              || Get(s.games, gameId).value.player1.id == playerId
              || playerId !in users
  {
  }

  // ---------------------------------------------------------------- ready / start

  /** `startGame`: a match with two players starts playing at `now` and
      its loop is started. */
  function StartGame(s: Service, gameId: string, now: int): (r: Service)
    ensures Get(s.games, gameId).None? || Get(s.games, gameId).value.player2.None? ==> r == s
    ensures Get(s.games, gameId).Some? && Get(s.games, gameId).value.player2.Some? ==>
              && r.intervals == s.intervals + {gameId} && r.reaps == s.reaps
              && r.games == Set(s.games, gameId,
                                Get(s.games, gameId).value.(status := Playing, lastUpdateTime := now))
  {
    match Get(s.games, gameId)
    case None => s
    case Some(g) =>
      if g.player2.None? then s
      else s.(games := Set(s.games, gameId, g.(status := Playing, lastUpdateTime := now)),
              intervals := s.intervals + {gameId})
  }

  /** `setPlayerReady`: sets the caller's own flag, and starts the match
      when it is ready and both flags are now set. */
  function SetPlayerReady(s: Service, gameId: string, playerId: int, ready: bool, now: int): (r: (Service, bool))
    ensures !r.1 <==> Get(s.games, gameId).None? || !Involves(Get(s.games, gameId).value, playerId)
    ensures !r.1 ==> r.0 == s
  {
    match Get(s.games, gameId)
    case None => (s, false)
    case Some(g) =>
      if g.player1.id == playerId || (g.player2.Some? && g.player2.value.id == playerId) then
        var flagged :=
          if g.player1.id == playerId then g.(player1 := g.player1.(ready := ready))
          else g.(player2 := Some(g.player2.value.(ready := ready)));
        var s1 := s.(games := Set(s.games, gameId, flagged));
        if flagged.player1.ready && flagged.player2.Some? && flagged.player2.value.ready
           && flagged.status == Ready
        then (StartGame(s1, gameId, now), true)
        else (s1, true)
      else (s, false)
  }

  /** Only the caller's flag changes, and the match moves to `playing`
      exactly when it was ready and both flags end up set. */
  lemma SetPlayerReadyEffect(s: Service, gameId: string, playerId: int, ready: bool, now: int)
    requires Valid(s)
    requires Get(s.games, gameId).Some? && Involves(Get(s.games, gameId).value, playerId)
    ensures var g := Get(s.games, gameId).value;
            var g' := Get(SetPlayerReady(s, gameId, playerId, ready, now).0.games, gameId).value;
            && Get(SetPlayerReady(s, gameId, playerId, ready, now).0.games, gameId).Some?
            && (g.player1.id == playerId ==> g'.player1 == g.player1.(ready := ready) && g'.player2 == g.player2)
            && (g.player1.id != playerId ==> g'.player1 == g.player1
                                             && g'.player2 == Some(g.player2.value.(ready := ready)))
            && (g'.status == Playing <==>
                  g.status == Playing
                  || (g.status == Ready && g'.player1.ready && g'.player2.value.ready))
            && g'.ball == g.ball && g'.winnerId == g.winnerId
    ensures var g := Get(s.games, gameId).value;
            var r := SetPlayerReady(s, gameId, playerId, ready, now).0;
            var g' := Get(r.games, gameId).value;
            var starts := g.status == Ready && g'.player1.ready && g'.player2.Some? && g'.player2.value.ready;
            && r.reaps == s.reaps
            && (starts ==> g'.lastUpdateTime == now && r.intervals == s.intervals + {gameId})
            && (!starts ==> g'.status == g.status && g'.lastUpdateTime == g.lastUpdateTime
                            && r.intervals == s.intervals)
    ensures forall id :: id != gameId ==>
              Get(SetPlayerReady(s, gameId, playerId, ready, now).0.games, id) == Get(s.games, id)
  {
    var g := Get(s.games, gameId).value;
    var flagged :=
      if g.player1.id == playerId then g.(player1 := g.player1.(ready := ready))
      else g.(player2 := Some(g.player2.value.(ready := ready)));
    var s1 := s.(games := Set(s.games, gameId, flagged));
    var r := SetPlayerReady(s, gameId, playerId, ready, now).0;
    forall id | id != gameId ensures Get(r.games, id) == Get(s.games, id) {
      GetSetOther(s.games, gameId, flagged, id);
      GetSetOther(s1.games, gameId, flagged.(status := Playing, lastUpdateTime := now), id);
    }
  }

  // ---------------------------------------------------------------- tick / end

  /** `endGame`: a match with two players is finished, its loop stopped and
      its clean-up scheduled. */
  function EndGame(s: Service, gameId: string): (r: Service)
    ensures Get(s.games, gameId).None? || Get(s.games, gameId).value.player2.None? ==> r == s
    ensures Get(s.games, gameId).Some? && Get(s.games, gameId).value.player2.Some? ==>
              && r.games == Set(s.games, gameId, Finish(Get(s.games, gameId).value))
              && r.intervals == s.intervals - {gameId}
              && r.reaps == s.reaps + {gameId}
  {
    match Get(s.games, gameId)
    case None => s
    case Some(g) =>
      if g.player2.None? then s
      else s.(games := Set(s.games, gameId, Finish(g)),
              intervals := s.intervals - {gameId},
              reaps := s.reaps + {gameId})
  }

  /** `updateGame`, one firing of a match's loop: a step of the physics,
      then `endGame` when a score has reached the maximum. */
  function UpdateGame(s: Service, gameId: string, now: int, serve: Serve): (r: Service)
    ensures Get(s.games, gameId).None? || !Live(Get(s.games, gameId).value) ==> r == s
  {
    match Get(s.games, gameId)
    case None => s
    case Some(g) =>
      if !Live(g) then s
      else
        var stepped := Step(g, now, serve);
        var s1 := s.(games := Set(s.games, gameId, stepped));
        if ReachedMax(stepped) then EndGame(s1, gameId) else s1
  }

  /** What the loop does to the stored match is exactly one `Tick`; the
      loop stops exactly when the tick finished the match. */
  lemma UpdateGameIsTick(s: Service, gameId: string, now: int, serve: Serve)
    requires Get(s.games, gameId).Some?
    ensures var g := Get(s.games, gameId).value;
            var r := UpdateGame(s, gameId, now, serve);
            && Get(r.games, gameId) == Some(Tick(g, now, serve))
            && (Live(g) && Tick(g, now, serve).status == Finished ==>
                  r.intervals == s.intervals - {gameId} && r.reaps == s.reaps + {gameId})
            && (Live(g) && Tick(g, now, serve).status != Finished ==>
                  r.intervals == s.intervals && r.reaps == s.reaps)
    ensures forall id :: id != gameId ==>
              Get(UpdateGame(s, gameId, now, serve).games, id) == Get(s.games, id)
  {
    var g := Get(s.games, gameId).value;
    if Live(g) {
      var stepped := Step(g, now, serve);
      var s1 := s.(games := Set(s.games, gameId, stepped));
      assert Get(s1.games, gameId) == Some(stepped);
      var r := UpdateGame(s, gameId, now, serve);
      forall id | id != gameId ensures Get(r.games, id) == Get(s.games, id) {
        GetSetOther(s.games, gameId, stepped, id);
        GetSetOther(s1.games, gameId, Finish(stepped), id);
      }
    }
  }

  // ---------------------------------------------------------------- paddles

  /** The match after `playerId`, one of its seats, moves by `direction`
      steps: only that seat's paddle height changes, to the target clamped
      to the canvas; the first seat wins when both seats hold the player. */
  function MoveSeat(g: Game, playerId: int, direction: real): (g': Game)
    requires Involves(g, playerId)
    ensures g'.id == g.id && g'.status == g.status && g'.ball == g.ball && g'.config == g.config
    ensures g'.lastUpdateTime == g.lastUpdateTime && g'.winnerId == g.winnerId
    ensures g.player1.id == playerId ==>
              && g'.player2 == g.player2
              && g'.player1 == g.player1.(y := g'.player1.y)
              && g'.player1.y == Clamp(0.0, g.config.canvasHeight - g.config.paddleHeight,
                                       g.player1.y + direction * g.config.paddleSpeed)
    ensures g.player1.id != playerId ==>
              && g'.player1 == g.player1
              && g'.player2.Some?
              && g'.player2.value == g.player2.value.(y := g'.player2.value.y)
              && g'.player2.value.y == Clamp(0.0, g.config.canvasHeight - g.config.paddleHeight,
                                             g.player2.value.y + direction * g.config.paddleSpeed)
  {
    var c := g.config;
    var top := c.canvasHeight - c.paddleHeight;
    if g.player1.id == playerId then
      g.(player1 := g.player1.(y := Clamp(0.0, top, g.player1.y + direction * c.paddleSpeed)))
    else
      g.(player2 := Some(g.player2.value.(y := Clamp(0.0, top, g.player2.value.y + direction * c.paddleSpeed))))
  }

  /** `movePaddle`: only a participant of a match being played moves, and
      only their own paddle, clamped to the canvas. */
  function MovePaddle(s: Service, gameId: string, playerId: int, direction: real): (r: (Service, bool))
    ensures !r.1 <==> (|| Get(s.games, gameId).None?
                       || Get(s.games, gameId).value.status != Playing
                       || !Involves(Get(s.games, gameId).value, playerId))
    ensures !r.1 ==> r.0 == s
    ensures r.1 ==> r.0.intervals == s.intervals && r.0.reaps == s.reaps
    ensures r.1 ==> r.0.games == Set(s.games, gameId, MoveSeat(Get(s.games, gameId).value, playerId, direction))
  {
    match Get(s.games, gameId)
    case None => (s, false)
    case Some(g) =>
      if g.status != Playing || !Involves(g, playerId) then (s, false)
      else (s.(games := Set(s.games, gameId, MoveSeat(g, playerId, direction))), true)
  }

  // ---------------------------------------------------------------- removal

  /** `forceEndGame`: the match is dropped, whatever its state, and its
      loop stopped. */
  function ForceEndGame(s: Service, gameId: string): (r: Service)
    ensures !Has(s.games, gameId) ==> r == s
    ensures !Has(r.games, gameId)
    ensures forall id :: id != gameId ==> Get(r.games, id) == Get(s.games, id)
    ensures r.intervals == (if Has(s.games, gameId) then s.intervals - {gameId} else s.intervals)
    ensures r.reaps == s.reaps
  {
    if !Has(s.games, gameId) then s
    else
      DeleteHas(s.games, gameId, gameId);
      assert forall id :: id != gameId ==> Get(Delete(s.games, gameId), id) == Get(s.games, id) by {
        forall id | id != gameId ensures Get(Delete(s.games, gameId), id) == Get(s.games, id) {
          GetDeleteOther(s.games, gameId, id);
        }
      }
      s.(games := Delete(s.games, gameId), intervals := s.intervals - {gameId})
  }

  /** Ending a match by force twice is ending it once. */
  lemma ForceEndIdempotent(s: Service, gameId: string)
    ensures ForceEndGame(ForceEndGame(s, gameId), gameId) == ForceEndGame(s, gameId)
  {
  }

  /** The clean-up timer of a finished match firing: the entry under that
      id is dropped. */
  function Reap(s: Service, gameId: string): (r: Service)
    ensures gameId !in s.reaps ==> r == s
    ensures gameId in s.reaps ==> !Has(r.games, gameId) && r.reaps == s.reaps - {gameId}
    ensures forall id :: id != gameId ==> Get(r.games, id) == Get(s.games, id)
    ensures r.intervals == s.intervals
  {
    if gameId !in s.reaps then s
    else
      DeleteHas(s.games, gameId, gameId);
      assert forall id :: id != gameId ==> Get(Delete(s.games, gameId), id) == Get(s.games, id) by {
        forall id | id != gameId ensures Get(Delete(s.games, gameId), id) == Get(s.games, id) {
          GetDeleteOther(s.games, gameId, id);
        }
      }
      s.(games := Delete(s.games, gameId), reaps := s.reaps - {gameId})
  }

  /** The first match, in registration order, that involves the player. */
  function GameOf(games: OMap<string, Game>, playerId: int): (r: Option<string>)
    ensures r.None? <==> forall i :: 0 <= i < |games| ==> !Involves(games[i].1, playerId)
    ensures r.Some? ==> exists i :: 0 <= i < |games| && games[i].0 == r.value
                                  && Involves(games[i].1, playerId)
                                  && forall j :: 0 <= j < i ==> !Involves(games[j].1, playerId)
  {
    if |games| == 0 then None
    else if Involves(games[0].1, playerId) then Some(games[0].0)
    else
      var r := GameOf(games[1..], playerId);
      GameOfShift(games, playerId, r);
      r
  }

  /** A match found in the tail of the registry is found, one position
      later, in the whole registry when its head does not involve the
      player. */
  lemma GameOfShift(games: OMap<string, Game>, playerId: int, r: Option<string>)
    requires |games| > 0 && !Involves(games[0].1, playerId)
    requires r.None? <==> forall i :: 0 <= i < |games[1..]| ==> !Involves(games[1..][i].1, playerId)
    requires r.Some? ==> exists i :: 0 <= i < |games[1..]| && games[1..][i].0 == r.value
                                    && Involves(games[1..][i].1, playerId)
                                    && forall j :: 0 <= j < i ==> !Involves(games[1..][j].1, playerId)
    ensures r.None? <==> forall i :: 0 <= i < |games| ==> !Involves(games[i].1, playerId)
    ensures r.Some? ==> exists i :: 0 <= i < |games| && games[i].0 == r.value
                                  && Involves(games[i].1, playerId)
                                  && forall j :: 0 <= j < i ==> !Involves(games[j].1, playerId)
  {
    assert forall i :: 1 <= i < |games| ==> games[i] == games[1..][i - 1];
    if r.Some? {
      var i :| 0 <= i < |games[1..]| && games[1..][i].0 == r.value
               && Involves(games[1..][i].1, playerId)
               && forall j :: 0 <= j < i ==> !Involves(games[1..][j].1, playerId);
      assert games[i + 1].0 == r.value && Involves(games[i + 1].1, playerId);
      assert forall j :: 0 <= j < i + 1 ==> !Involves(games[j].1, playerId) by {
        forall j | 0 <= j < i + 1 ensures !Involves(games[j].1, playerId) {
          if j > 0 {
            assert games[j] == games[1..][j - 1];
          }
        }
      }
    }
  }

  /** `isPlayerInGame`: walks the registry in order and answers the first
      match the player takes part in, finished ones included. */
  method IsPlayerInGame(s: Service, playerId: int) returns (r: Option<string>)
    ensures r == GameOf(s.games, playerId)
    ensures r.None? <==> forall i :: 0 <= i < |s.games| ==> !Involves(s.games[i].1, playerId)
  {
    var k := 0;
    while k < |s.games|
      invariant 0 <= k <= |s.games|
      invariant GameOf(s.games, playerId) == GameOf(s.games[k..], playerId)
    {
      assert s.games[k..][1..] == s.games[k + 1..];
      if Involves(s.games[k].1, playerId) {
        return Some(s.games[k].0);
      }
      k := k + 1;
    }
    return None;
  }

  /** `removePlayerFromGame`: force-ends the player's first match, if any. */
  function RemovePlayerFromGame(s: Service, playerId: int): (r: Service)
    ensures GameOf(s.games, playerId).None? || GameOf(s.games, playerId) == Some("") ==> r == s
    ensures GameOf(s.games, playerId).Some? && GameOf(s.games, playerId).value != "" ==>
              r == ForceEndGame(s, GameOf(s.games, playerId).value)
  {
    match GameOf(s.games, playerId)
    case None => s
    case Some(id) => if id != "" then ForceEndGame(s, id) else s
  }

  // ---------------------------------------------------------------- invariant

  /** Storing a well-formed match under its own id keeps the registry
      valid, provided the loop and clean-up sets agree with its status. */
  lemma SetValid(s: Service, id: string, g: Game, intervals: set<string>, reaps: set<string>)
    requires Valid(s)
    requires g.id == id && WellFormed(g)
    requires forall k :: k in intervals && k != id ==> k in s.intervals
    requires forall k :: k in s.intervals && k != id ==> k in intervals
    requires id in intervals <==> g.status == Playing
    requires forall k :: k in reaps && k != id ==> k in s.reaps
    requires id in reaps ==> g.status == Finished
    ensures Valid(Service(Set(s.games, id, g), intervals, reaps))
  {
    var m := s.games;
    var r := Set(m, id, g);
    SetKeepsDistinct(m, id, g);
    forall i | 0 <= i < |r| ensures r[i].1.id == r[i].0 && WellFormed(r[i].1) {
      if r[i].0 == id {
        GetAt(r, i);
      } else {
        assert i < |m| && r[i] == m[i];
      }
    }
    forall k | Has(r, k) && k != id
      ensures Get(r, k) == Get(m, k) && Has(m, k)
    {
      GetSetOther(m, id, g, k);
    }
  }

  /** Dropping a match keeps the registry valid once its loop is gone. */
  lemma DeleteValid(s: Service, id: string, intervals: set<string>, reaps: set<string>)
    requires Valid(s)
    requires intervals == s.intervals - {id}
    requires reaps <= s.reaps
    ensures Valid(Service(Delete(s.games, id), intervals, reaps))
  {
    var m := s.games;
    var r := Delete(m, id);
    DeleteKeepsDistinct(m, id);
    forall k ensures Has(r, k) <==> Has(m, k) && k != id {
      DeleteHas(m, id, k);
    }
    forall k | k != id ensures Get(r, k) == Get(m, k) {
      GetDeleteOther(m, id, k);
    }
    forall i | 0 <= i < |r| ensures r[i].1.id == r[i].0 && WellFormed(r[i].1) {
      assert r[i] in m;
    }
  }

  lemma CreatePreservesValid(s: Service, hostId: int, users: Users, dbId: int, o: ConfigOverride,
                             now: int, serve: Serve)
    requires Valid(s)
    requires CreateGame(s, hostId, users, dbId, o, now, serve).Success?
    requires JsText.IntToDecimal(dbId) !in s.reaps && !Has(s.games, JsText.IntToDecimal(dbId))
    ensures Valid(CreateGame(s, hostId, users, dbId, o, now, serve).value.0)
  {
    var id := JsText.IntToDecimal(dbId);
    SetValid(s, id, NewGame(id, hostId, users[hostId], o, now, serve), s.intervals, s.reaps);
  }

  lemma JoinPreservesValid(s: Service, gameId: string, playerId: int, users: Users)
    requires Valid(s)
    requires JoinGame(s, gameId, playerId, users).Success?
    ensures Valid(JoinGame(s, gameId, playerId, users).value)
  {
    var g := Get(s.games, gameId).value;
    var i := IndexOf(s.games, gameId).value;
    assert g == s.games[i].1;
    assert g.status == Waiting && g.player1.id != playerId && g.winnerId.None?;
    var c := g.config;
    var p2 := Player(playerId, users[playerId], c.canvasHeight / 2.0 - c.paddleHeight / 2.0, 0, false);
    var joined := g.(player2 := Some(p2), status := Ready);
    assert WellFormed(joined);
    assert gameId !in s.intervals && gameId !in s.reaps;
    SetValid(s, gameId, joined, s.intervals, s.reaps);
    assert JoinGame(s, gameId, playerId, users).value == Service(Set(s.games, gameId, joined), s.intervals, s.reaps);
  }

  lemma ReadyPreservesValid(s: Service, gameId: string, playerId: int, ready: bool, now: int)
    requires Valid(s)
    ensures Valid(SetPlayerReady(s, gameId, playerId, ready, now).0)
  {
    match Get(s.games, gameId)
    case None =>
    case Some(g) =>
      var i := IndexOf(s.games, gameId).value;
      assert g == s.games[i].1;
      if Involves(g, playerId) {
        var flagged :=
          if g.player1.id == playerId then g.(player1 := g.player1.(ready := ready))
          else g.(player2 := Some(g.player2.value.(ready := ready)));
        var s1 := s.(games := Set(s.games, gameId, flagged));
        SetValid(s, gameId, flagged, s.intervals, s.reaps);
        if flagged.player1.ready && flagged.player2.Some? && flagged.player2.value.ready
           && flagged.status == Ready {
          assert Get(s1.games, gameId) == Some(flagged);
          assert gameId !in s.reaps;
          SetValid(s1, gameId, flagged.(status := Playing, lastUpdateTime := now),
                   s1.intervals + {gameId}, s1.reaps);
        }
      }
  }

  lemma EndPreservesValid(s: Service, gameId: string)
    requires Valid(s)
    ensures Valid(EndGame(s, gameId))
  {
    match Get(s.games, gameId)
    case None =>
    case Some(g) =>
      var i := IndexOf(s.games, gameId).value;
      assert g == s.games[i].1;
      if g.player2.Some? {
        SetValid(s, gameId, Finish(g), s.intervals - {gameId}, s.reaps + {gameId});
      }
  }

  lemma UpdatePreservesValid(s: Service, gameId: string, now: int, serve: Serve)
    requires Valid(s)
    ensures Valid(UpdateGame(s, gameId, now, serve))
  {
    match Get(s.games, gameId)
    case None =>
    case Some(g) =>
      var i := IndexOf(s.games, gameId).value;
      assert g == s.games[i].1;
      if Live(g) {
        var stepped := Step(g, now, serve);
        SetValid(s, gameId, stepped, s.intervals, s.reaps);
        var s1 := s.(games := Set(s.games, gameId, stepped));
        if ReachedMax(stepped) {
          EndPreservesValid(s1, gameId);
        }
      }
  }

  lemma MovePreservesValid(s: Service, gameId: string, playerId: int, direction: real)
    requires Valid(s)
    ensures Valid(MovePaddle(s, gameId, playerId, direction).0)
  {
    if MovePaddle(s, gameId, playerId, direction).1 {
      var g := Get(s.games, gameId).value;
      var i := IndexOf(s.games, gameId).value;
      assert g == s.games[i].1;
      var g' := MoveSeat(g, playerId, direction);
      SetValid(s, gameId, g', s.intervals, s.reaps);
    }
  }

  lemma ForceEndPreservesValid(s: Service, gameId: string)
    requires Valid(s)
    ensures Valid(ForceEndGame(s, gameId))
  {
    if Has(s.games, gameId) {
      DeleteValid(s, gameId, s.intervals - {gameId}, s.reaps);
    }
  }

  lemma ReapPreservesValid(s: Service, gameId: string)
    requires Valid(s)
    ensures Valid(Reap(s, gameId))
  {
    if gameId in s.reaps {
      assert gameId !in s.intervals;
      DeleteValid(s, gameId, s.intervals, s.reaps - {gameId});
    }
  }

  /** A host who already plays in one match can still open another: the
      one-match-per-player rule is not enforced here. */
  lemma HostMayHostTwice(users: Users, host: int, o: ConfigOverride, now: int, serve: Serve)
    requires host in users
    ensures var first := CreateGame(Empty, host, users, 1, o, now, serve).value.0;
            var second := CreateGame(first, host, users, 2, o, now, serve);
            && GameOf(first.games, host) == Some("1")
            && second.Success?
            && Has(second.value.0.games, "1") && Has(second.value.0.games, "2")
  {
    var first := CreateGame(Empty, host, users, 1, o, now, serve).value.0;
    assert JsText.IntToDecimal(1) == "1";
    assert JsText.IntToDecimal(2) == "2";
    assert first.games == [("1", NewGame("1", host, users[host], o, now, serve))];
    var second := CreateGame(first, host, users, 2, o, now, serve).value.0;
    assert !Has(first.games, "2");
    assert second.games[1].0 == "2";
  }
}

=== FILE: game_socket.dfy ===
/** The socket layer's room bookkeeping for remote matches: which players
    are in each game's room (a JavaScript `Map` of `Set`s, both in insertion
    order) and which game each player is in, kept in step, plus the guards
    of the socket event handlers in front of the game service. Emits and
    Socket.IO room membership are not modelled. */
module GameSocket {
  import opened Wrappers
  import opened OrderedMap
  import GameModel
  import GameService

  predicate Distinct(s: seq<int>) {
    forall i, j :: 0 <= i < j < |s| ==> s[i] != s[j]
  }

  /** `Set.prototype.delete` on a set kept as a duplicate-free sequence. */
  function Without(s: seq<int>, x: int): (r: seq<int>)
    ensures forall y :: y in r <==> y in s && y != x
    ensures x !in s ==> r == s
    ensures Distinct(s) ==> Distinct(r)
    ensures |r| <= |s|
    ensures x in s && Distinct(s) ==> |r| == |s| - 1
  {
    if |s| == 0 then []
    else
      var rest := Without(s[1..], x);
      assert forall y :: y in s[1..] ==> y in s;
      assert Distinct(s) ==> s[0] !in s[1..] && Distinct(s[1..]) by {
        if Distinct(s) {
          forall k | 0 <= k < |s[1..]| ensures s[1..][k] != s[0] {
            assert s[1..][k] == s[k + 1];
          }
        }
      }
      assert s == [s[0]] + s[1..];
      if s[0] == x then rest else [s[0]] + rest
  }

  datatype Rooms = Rooms(rooms: OMap<string, seq<int>>, playerGames: map<int, string>)

  const NoRooms := Rooms([], map[])

  /** Each room is a non-empty set of players. */
  ghost predicate RoomsShaped(rooms: OMap<string, seq<int>>) {
    && DistinctKeys(rooms)
    && (forall i :: 0 <= i < |rooms| ==> |rooms[i].1| > 0 && Distinct(rooms[i].1))
  }

  /** Every player in a room is recorded as being in that game. */
  ghost predicate MembersRecorded(st: Rooms) {
    forall i, p :: 0 <= i < |st.rooms| && p in st.rooms[i].1 ==>
      p in st.playerGames && st.playerGames[p] == st.rooms[i].0
  }

  /** Every recorded player is in the room of their game. */
  ghost predicate RecordsPresent(st: Rooms) {
    forall p :: p in st.playerGames ==>
      Get(st.rooms, st.playerGames[p]).Some? && p in Get(st.rooms, st.playerGames[p]).value
  }

  /** The two maps agree. */
  ghost predicate InStep(st: Rooms) {
    RoomsShaped(st.rooms) && MembersRecorded(st) && RecordsPresent(st)
  }

  /** `addPlayerToRoom`: creates the room if missing, adds the player to
      it and records the player's game. */
  function AddPlayerToRoom(st: Rooms, playerId: int, gameId: string): (r: Rooms)
    ensures r.playerGames == st.playerGames[playerId := gameId]
    ensures Get(r.rooms, gameId).Some? && playerId in Get(r.rooms, gameId).value
    ensures forall p :: p in Get(r.rooms, gameId).value <==>
              p == playerId || (Get(st.rooms, gameId).Some? && p in Get(st.rooms, gameId).value)
    ensures forall g :: g != gameId ==> Get(r.rooms, g) == Get(st.rooms, g)
  {
    var room := match Get(st.rooms, gameId) case None => [] case Some(ps) => ps;
    var room' := if playerId in room then room else room + [playerId];
    forall g | g != gameId ensures Get(Set(st.rooms, gameId, room'), g) == Get(st.rooms, g) {
      GetSetOther(st.rooms, gameId, room', g);
    }
    Rooms(Set(st.rooms, gameId, room'), st.playerGames[playerId := gameId])
  }

  /** `removePlayerFromRoom`: takes the player out of the room, drops the
      room once empty, and always forgets the player's game. */
  function RemovePlayerFromRoom(st: Rooms, playerId: int, gameId: string): (r: Rooms)
    ensures r.playerGames == st.playerGames - {playerId}
    ensures Get(st.rooms, gameId).None? ==> r.rooms == st.rooms
    ensures Get(r.rooms, gameId).Some? ==>
              && Get(st.rooms, gameId).Some?
              && (forall p :: p in Get(r.rooms, gameId).value <==>
                    p in Get(st.rooms, gameId).value && p != playerId)
              && |Get(r.rooms, gameId).value| > 0
    ensures Get(st.rooms, gameId).Some? && Get(r.rooms, gameId).None? ==>
              forall p :: p in Get(st.rooms, gameId).value ==> p == playerId
    ensures forall g :: g != gameId ==> Get(r.rooms, g) == Get(st.rooms, g)
  {
    match Get(st.rooms, gameId)
    case None => st.(playerGames := st.playerGames - {playerId})
    case Some(room) =>
      var room' := Without(room, playerId);
      if |room'| == 0 then
        forall g | g != gameId ensures Get(Delete(st.rooms, gameId), g) == Get(st.rooms, g) {
          GetDeleteOther(st.rooms, gameId, g);
        }
        DeleteHas(st.rooms, gameId, gameId);
        assert room' == [];
        Rooms(Delete(st.rooms, gameId), st.playerGames - {playerId})
      else
        forall g | g != gameId ensures Get(Set(st.rooms, gameId, room'), g) == Get(st.rooms, g) {
          GetSetOther(st.rooms, gameId, room', g);
        }
        Rooms(Set(st.rooms, gameId, room'), st.playerGames - {playerId})
  }

  /** `getActiveRooms`: each room in order with its player count. */
  function GetActiveRooms(st: Rooms): (r: seq<(string, nat)>)
    ensures |r| == |st.rooms|
    ensures forall i :: 0 <= i < |r| ==> r[i].0 == st.rooms[i].0 && r[i].1 == |st.rooms[i].1|
  {
    seq(|st.rooms|, i requires 0 <= i < |st.rooms| => (st.rooms[i].0, |st.rooms[i].1|))
  }

  /** `getPlayersInRoom`: the room's players, or none for an unknown room. */
  function GetPlayersInRoom(st: Rooms, gameId: string): (r: seq<int>)
    ensures Get(st.rooms, gameId).None? ==> r == []
    ensures Get(st.rooms, gameId).Some? ==> r == Get(st.rooms, gameId).value
  {
    match Get(st.rooms, gameId)
    case None => []
    case Some(ps) => ps
  }

  /** Every active room reports at least one player. */
  lemma ActiveRoomsNonEmpty(st: Rooms)
    requires InStep(st)
    ensures forall i :: 0 <= i < |GetActiveRooms(st)| ==> GetActiveRooms(st)[i].1 > 0
  {
  }

  // ---------------------------------------------------------------- invariant

  /** The room map after storing `room` under `gameId`: that entry holds
      `room`, the others are as before. */
  lemma SetEntries(rooms: OMap<string, seq<int>>, gameId: string, room: seq<int>, i: int)
    requires DistinctKeys(rooms) && 0 <= i < |Set(rooms, gameId, room)|
    ensures var r := Set(rooms, gameId, room);
            && (r[i].0 == gameId ==> r[i].1 == room)
            && (r[i].0 != gameId ==> i < |rooms| && r[i] == rooms[i])
  {
    var r := Set(rooms, gameId, room);
    SetKeepsDistinct(rooms, gameId, room);
    if r[i].0 == gameId {
      GetAt(r, i);
    }
  }

  /** Storing a non-empty duplicate-free room keeps the rooms shaped. */
  lemma SetShaped(rooms: OMap<string, seq<int>>, gameId: string, room: seq<int>)
    requires RoomsShaped(rooms) && |room| > 0 && Distinct(room)
    ensures RoomsShaped(Set(rooms, gameId, room))
  {
    var r := Set(rooms, gameId, room);
    SetKeepsDistinct(rooms, gameId, room);
    forall i | 0 <= i < |r| ensures |r[i].1| > 0 && Distinct(r[i].1) {
      SetEntries(rooms, gameId, room, i);
    }
  }

  /** Storing `room` under `gameId` keeps every member recorded when the
      members of `room` are recorded under `gameId`. */
  lemma SetMembersRecorded(st: Rooms, gameId: string, room: seq<int>, playerGames: map<int, string>)
    requires DistinctKeys(st.rooms) && MembersRecorded(st)
    requires forall p :: p in room ==> p in playerGames && playerGames[p] == gameId
    requires forall p :: p in st.playerGames && st.playerGames[p] != gameId ==>
               p in playerGames && playerGames[p] == st.playerGames[p]
    ensures MembersRecorded(Rooms(Set(st.rooms, gameId, room), playerGames))
  {
    var r := Set(st.rooms, gameId, room);
    forall i, p | 0 <= i < |r| && p in r[i].1
      ensures p in playerGames && playerGames[p] == r[i].0
    {
      SetEntries(st.rooms, gameId, room, i);
    }
  }

  /** The members of a stored room are recorded under its id. */
  lemma RoomMembersRecorded(st: Rooms, gameId: string)
    requires MembersRecorded(st)
    requires Get(st.rooms, gameId).Some?
    ensures forall p :: p in Get(st.rooms, gameId).value ==>
              p in st.playerGames && st.playerGames[p] == gameId
  {
    var k := IndexOf(st.rooms, gameId).value;
    assert Get(st.rooms, gameId).value == st.rooms[k].1;
  }

  /** Adding a player with no recorded game keeps the maps in step. */
  lemma AddKeepsInStep(st: Rooms, playerId: int, gameId: string)
    requires InStep(st) && playerId !in st.playerGames
    ensures InStep(AddPlayerToRoom(st, playerId, gameId))
  {
    var r := AddPlayerToRoom(st, playerId, gameId);
    var room := match Get(st.rooms, gameId) case None => [] case Some(ps) => ps;
    var room' := if playerId in room then room else room + [playerId];
    assert r.rooms == Set(st.rooms, gameId, room');
    if Get(st.rooms, gameId).Some? {
      var k := IndexOf(st.rooms, gameId).value;
      assert room == st.rooms[k].1;
      assert Distinct(room);
      RoomMembersRecorded(st, gameId);
    }
    assert Distinct(room');
    SetShaped(st.rooms, gameId, room');
    SetMembersRecorded(st, gameId, room', r.playerGames);
    AddRecordsPresent(st, playerId, gameId);
  }

  lemma AddRecordsPresent(st: Rooms, playerId: int, gameId: string)
    requires RecordsPresent(st)
    ensures RecordsPresent(AddPlayerToRoom(st, playerId, gameId))
  {
    var r := AddPlayerToRoom(st, playerId, gameId);
    forall p | p in r.playerGames
      ensures Get(r.rooms, r.playerGames[p]).Some? && p in Get(r.rooms, r.playerGames[p]).value
    {
      if p != playerId {
        var h := st.playerGames[p];
        assert r.playerGames[p] == h;
        assert Get(st.rooms, h).Some? && p in Get(st.rooms, h).value;
      }
    }
  }

  /** Removing a player from the room of their recorded game keeps the maps
      in step. */
  lemma RemoveKeepsInStep(st: Rooms, playerId: int)
    requires InStep(st) && playerId in st.playerGames
    ensures InStep(RemovePlayerFromRoom(st, playerId, st.playerGames[playerId]))
  {
    var gameId := st.playerGames[playerId];
    var r := RemovePlayerFromRoom(st, playerId, gameId);
    var room := Get(st.rooms, gameId).value;
    var k := IndexOf(st.rooms, gameId).value;
    assert room == st.rooms[k].1;
    var room' := Without(room, playerId);
    if |room'| == 0 {
      assert r.rooms == Delete(st.rooms, gameId);
      DeleteShaped(st.rooms, gameId);
      DeleteMembersRecorded(st, gameId, r.playerGames);
    } else {
      assert r.rooms == Set(st.rooms, gameId, room');
      SetShaped(st.rooms, gameId, room');
      assert forall p :: p in room' ==> p in room && p != playerId;
      SetMembersRecorded(st, gameId, room', r.playerGames);
    }
    forall p | p in r.playerGames
      ensures Get(r.rooms, r.playerGames[p]).Some? && p in Get(r.rooms, r.playerGames[p]).value
    {
      assert p != playerId && p in st.playerGames;
    }
  }

  /** Dropping a room keeps the others shaped. */
  lemma DeleteShaped(rooms: OMap<string, seq<int>>, gameId: string)
    requires RoomsShaped(rooms)
    ensures RoomsShaped(Delete(rooms, gameId))
  {
    var r := Delete(rooms, gameId);
    DeleteKeepsDistinct(rooms, gameId);
    forall i | 0 <= i < |r| ensures |r[i].1| > 0 && Distinct(r[i].1) {
      var e := r[i];
      assert e in rooms;
      var j :| 0 <= j < |rooms| && rooms[j] == e;
      assert |rooms[j].1| > 0 && Distinct(rooms[j].1);
    }
  }

  /** `after` keeps every record `before` holds for a game other than
      `gameId`. */
  ghost predicate KeptOutside(before: map<int, string>, after: map<int, string>, gameId: string) {
    forall p :: p in before && before[p] != gameId ==> p in after && after[p] == before[p]
  }

  /** Dropping a room keeps the other rooms' members recorded, as long as
      only that room's players lose their records. */
  lemma DeleteMembersRecorded(st: Rooms, gameId: string, playerGames: map<int, string>)
    requires MembersRecorded(st) && KeptOutside(st.playerGames, playerGames, gameId)
    ensures MembersRecorded(Rooms(Delete(st.rooms, gameId), playerGames))
  {
    KeptRoomsMembersRecorded(st, Delete(st.rooms, gameId), gameId, playerGames);
  }

  /** Rooms drawn from `st` other than `gameId`'s keep their members
      recorded. */
  lemma KeptRoomsMembersRecorded(st: Rooms, kept: OMap<string, seq<int>>, gameId: string,
                                 playerGames: map<int, string>)
    requires MembersRecorded(st) && KeptOutside(st.playerGames, playerGames, gameId)
    requires forall i :: 0 <= i < |kept| ==> kept[i] in st.rooms && kept[i].0 != gameId
    ensures MembersRecorded(Rooms(kept, playerGames))
  {
    forall i, p | 0 <= i < |kept| && p in kept[i].1
      ensures p in playerGames && playerGames[p] == kept[i].0
    {
      EntryMembersRecorded(st, kept[i], p);
    }
  }

  /** A member of any stored room is recorded in that room's game. */
  lemma EntryMembersRecorded(st: Rooms, e: (string, seq<int>), p: int)
    requires MembersRecorded(st) && e in st.rooms && p in e.1
    ensures p in st.playerGames && st.playerGames[p] == e.0
  {
    var j :| 0 <= j < |st.rooms| && st.rooms[j] == e;
    assert p in st.rooms[j].1;
  }

  // ---------------------------------------------------------------- handlers

  /** The socket's user id as the handlers see it: missing, or a number
      (zero counts as missing, being falsy). */
  predicate Authenticated(userId: Option<int>) {
    userId.Some? && userId.value != 0
  }

  /** The game a player is recorded in, if that record is truthy. */
  predicate InSomeGame(st: Rooms, userId: int) {
    userId in st.playerGames && st.playerGames[userId] != ""
  }

  /** `game:join`: refuses missing data and players already in a game, then
      asks the game service; only a successful join enters the room. The
      error is the message the socket would be sent. */
  function HandleJoinGame(st: Rooms, svc: GameService.Service, userId: Option<int>, gameId: string,
                          users: GameService.Users): (r: (Rooms, GameService.Service, Option<string>))
    ensures !Authenticated(userId) || gameId == "" ==> r == (st, svc, Some("Invalid game data"))
    ensures Authenticated(userId) && gameId != "" && InSomeGame(st, userId.value) ==>
              r == (st, svc, Some("Already in another game"))
    ensures r.2.None? ==>
              && Authenticated(userId) && !InSomeGame(st, userId.value)
              && GameService.JoinGame(svc, gameId, userId.value, users).Success?
              && r.1 == GameService.JoinGame(svc, gameId, userId.value, users).value
              && r.0 == AddPlayerToRoom(st, userId.value, gameId)
    ensures r.2.Some? ==> r.0 == st && r.1 == svc
  {
    if !Authenticated(userId) || gameId == "" then (st, svc, Some("Invalid game data"))
    else if InSomeGame(st, userId.value) then (st, svc, Some("Already in another game"))
    else match GameService.JoinGame(svc, gameId, userId.value, users)
      case Failure(message) => (st, svc, Some(message))
      case Success(svc') => (AddPlayerToRoom(st, userId.value, gameId), svc', None)
  }

  /** A join through the socket keeps the room maps in step, given that no
      player is recorded under an empty game id (every recorded id came
      through this handler, which refuses the empty one). */
  lemma JoinKeepsInStep(st: Rooms, svc: GameService.Service, userId: Option<int>, gameId: string,
                        users: GameService.Users)
    requires InStep(st)
    requires forall p :: p in st.playerGames ==> st.playerGames[p] != ""
    ensures InStep(HandleJoinGame(st, svc, userId, gameId, users).0)
    ensures var r := HandleJoinGame(st, svc, userId, gameId, users).0;
            forall p :: p in r.playerGames ==> r.playerGames[p] != ""
  {
    var r := HandleJoinGame(st, svc, userId, gameId, users);
    if r.2.None? {
      AddKeepsInStep(st, userId.value, gameId);
    }
  }

  /** `game:ready`: refuses missing data, then reports a refused ready
      flag. */
  function HandlePlayerReady(svc: GameService.Service, userId: Option<int>, gameId: string, ready: bool,
                             now: int): (r: (GameService.Service, Option<string>))
    ensures !Authenticated(userId) || gameId == "" ==> r == (svc, Some("Invalid ready data"))
    ensures r.1.None? <==> Authenticated(userId) && gameId != ""
                           && GameService.SetPlayerReady(svc, gameId, userId.value, ready, now).1
    ensures r.1.Some? ==> r.0 == svc
  {
    if !Authenticated(userId) || gameId == "" then (svc, Some("Invalid ready data"))
    else
      var (svc', ok) := GameService.SetPlayerReady(svc, gameId, userId.value, ready, now);
      if ok then (svc', None) else (svc, Some("Failed to set ready status"))
  }

  /** `game:paddle_move`: only directions -1 and 1 reach the game service;
      anything else is ignored. */
  function HandlePaddleMove(svc: GameService.Service, userId: Option<int>, gameId: string,
                            direction: real): (r: GameService.Service)
    ensures direction != -1.0 && direction != 1.0 ==> r == svc
    ensures !Authenticated(userId) || gameId == "" ==> r == svc
    ensures Authenticated(userId) && gameId != "" && (direction == -1.0 || direction == 1.0) ==>
              r == GameService.MovePaddle(svc, gameId, userId.value, direction).0
  {
    if !Authenticated(userId) || gameId == "" then svc
    else if direction != -1.0 && direction != 1.0 then svc
    else GameService.MovePaddle(svc, gameId, userId.value, direction).0
  }

  /** `game:spectate`: the error a spectator is sent, if any; spectating
      changes no state. */
  function HandleSpectateGame(svc: GameService.Service, userId: Option<int>, gameId: string): (r: Option<string>)
    ensures r.None? <==> Authenticated(userId) && gameId != "" && Has(svc.games, gameId)
    ensures r.Some? ==> r.value == "Invalid spectate data" || r.value == "Game not found"
  {
    if !Authenticated(userId) || gameId == "" then Some("Invalid spectate data")
    else if !Has(svc.games, gameId) then Some("Game not found")
    else None
  }

  /** `game:leave` and `disconnect`, which change state alike: a player
      with a recorded game leaves its room and that game is force-ended;
      anyone else changes nothing. */
  function Depart(st: Rooms, svc: GameService.Service, userId: Option<int>): (r: (Rooms, GameService.Service))
    ensures !Authenticated(userId) || !InSomeGame(st, userId.value) ==> r == (st, svc)
    ensures Authenticated(userId) && InSomeGame(st, userId.value) ==>
              var gameId := st.playerGames[userId.value];
              && r.0 == RemovePlayerFromRoom(st, userId.value, gameId)
              && r.1 == GameService.ForceEndGame(svc, gameId)
              && userId.value !in r.0.playerGames
              && !Has(r.1.games, gameId)
  {
    if !Authenticated(userId) || !InSomeGame(st, userId.value) then (st, svc)
    else
      var gameId := st.playerGames[userId.value];
      (RemovePlayerFromRoom(st, userId.value, gameId), GameService.ForceEndGame(svc, gameId))
  }

  /** Leaving keeps the room maps in step. */
  lemma DepartKeepsInStep(st: Rooms, svc: GameService.Service, userId: Option<int>)
    requires InStep(st)
    ensures InStep(Depart(st, svc, userId).0)
  {
    if Authenticated(userId) && InSomeGame(st, userId.value) {
      RemoveKeepsInStep(st, userId.value);
    }
  }

  /** A player who joined through the socket and then leaves is out of the
      room, and the room's other players are still there. */
  lemma JoinThenDepart(st: Rooms, svc: GameService.Service, userId: Option<int>, gameId: string,
                       users: GameService.Users)
    requires InStep(st)
    requires HandleJoinGame(st, svc, userId, gameId, users).2.None?
    ensures var j := HandleJoinGame(st, svc, userId, gameId, users);
            var d := Depart(j.0, j.1, userId);
            && userId.value !in d.0.playerGames
            && !Has(d.1.games, gameId)
            && (Get(d.0.rooms, gameId).Some? ==>
                  forall p :: p in Get(d.0.rooms, gameId).value <==>
                    Get(st.rooms, gameId).Some? && p in Get(st.rooms, gameId).value && p != userId.value)
  {
    var j := HandleJoinGame(st, svc, userId, gameId, users);
    assert j.0.playerGames[userId.value] == gameId;
  }
}

=== FILE: game_stats.dfy ===
/** The aggregation behind a player's remote-game statistics: games
    played, won and lost, win rate, total and average score. The rows are
    the stored game records; rounding to two decimals is not modelled. */
module GameStats {
  import opened Wrappers
  import Seqs

  datatype GameRecord = GameRecord(
    player1Id: int,
    player2Id: Option<int>,
    score1: int,
    score2: int,
    winnerId: Option<int>,
    remote: bool)

  datatype Stats = Stats(
    totalGames: nat,
    wonGames: nat,
    lostGames: int,
    winRate: real,
    totalScore: int,
    averageScore: real)

  /** The query's filter: remote games in which the player held a seat. */
  predicate Counted(g: GameRecord, playerId: int) {
    g.remote && (g.player1Id == playerId || g.player2Id == Some(playerId))
  }

  /** The player's games: the stored rows the query's filter admits, in
      row order. */
  function PlayerGames(rows: seq<GameRecord>, playerId: int): (r: seq<GameRecord>)
    ensures |r| <= |rows|
    ensures forall i :: 0 <= i < |r| ==> r[i] in rows && Counted(r[i], playerId)
    ensures forall i :: 0 <= i < |rows| && Counted(rows[i], playerId) ==> rows[i] in r
    ensures forall g :: multiset(r)[g] == if Counted(g, playerId) then multiset(rows)[g] else 0
  {
    Seqs.FilterMultiset(rows, g => Counted(g, playerId));
    Seqs.Filter(rows, g => Counted(g, playerId))
  }

  predicate WonBy(g: GameRecord, playerId: int) {
    g.winnerId == Some(playerId)
  }

  /** The games the player is recorded as winning. */
  function Wins(games: seq<GameRecord>, playerId: int): (n: nat)
    ensures n <= |games|
    ensures n == |Seqs.Filter(games, g => WonBy(g, playerId))|
  {
    if |games| == 0 then 0
    else (if WonBy(games[0], playerId) then 1 else 0) + Wins(games[1..], playerId)
  }

  /** The player's own score in a game: the first seat's score when they
      held it, the second seat's otherwise. */
  function ScoreOf(g: GameRecord, playerId: int): int {
    if g.player1Id == playerId then g.score1 else g.score2
  }

  function TotalScore(games: seq<GameRecord>, playerId: int): int {
    if |games| == 0 then 0 else ScoreOf(games[0], playerId) + TotalScore(games[1..], playerId)
  }

  /** `getPlayerStats`, before rounding: the games counted are the
      player's remote games, the wins and the total score are taken over
      exactly those games, and the rate and average are their ratios. */
  function PlayerStats(rows: seq<GameRecord>, playerId: int): (st: Stats)
    ensures st.totalGames == |PlayerGames(rows, playerId)| <= |rows|
    ensures st.wonGames == Wins(PlayerGames(rows, playerId), playerId)
    ensures st.totalScore == TotalScore(PlayerGames(rows, playerId), playerId)
    ensures st.wonGames <= st.totalGames && st.wonGames + st.lostGames == st.totalGames
    ensures 0.0 <= st.winRate <= 100.0
    ensures st.totalGames == 0 ==> st.winRate == 0.0 && st.averageScore == 0.0 && st.totalScore == 0
    ensures Ratios(st)
  {
    var games := PlayerGames(rows, playerId);
    Aggregate(|games|, Wins(games, playerId), TotalScore(games, playerId))
  }

  /** With at least one game, the rate is the percentage of games won
      and the average is the total score per game. */
  predicate Ratios(st: Stats) {
    st.totalGames > 0 ==>
      && st.winRate * st.totalGames as real == st.wonGames as real * 100.0
      && st.averageScore * st.totalGames as real == st.totalScore as real
  }

  /** The record built from the counts: losses are the games not won, and
      the rate and average are 0 when there are no games. */
  function Aggregate(total: nat, won: nat, score: int): (st: Stats)
    requires won <= total
    requires total == 0 ==> score == 0
    ensures st.totalGames == total && st.wonGames == won && st.totalScore == score
    ensures st.lostGames == total - won
    ensures 0.0 <= st.winRate <= 100.0
    ensures total == 0 ==> st.winRate == 0.0 && st.averageScore == 0.0
    ensures Ratios(st)
  {
    var rate := if total > 0 then (won as real / total as real) * 100.0 else 0.0;
    var average := if total > 0 then score as real / total as real else 0.0;
    if total > 0 then
      RateScales(won as real, total as real);
      QuotientScales(score as real, total as real);
      Stats(total, won, total - won, rate, score, average)
    else Stats(total, won, total - won, rate, score, average)
  }

  lemma QuotientScales(a: real, n: real)
    requires n > 0.0
    ensures (a / n) * n == a
  {
  }

  lemma RateScales(w: real, n: real)
    requires 0.0 <= w <= n && n > 0.0
    ensures 0.0 <= (w / n) * 100.0 <= 100.0
    ensures ((w / n) * 100.0) * n == w * 100.0
  {
    QuotientScales(w, n);
    assert w / n <= 1.0;
  }

  /** Wins over two batches of games add up. */
  lemma {:induction false} WinsAppend(a: seq<GameRecord>, b: seq<GameRecord>, playerId: int)
    ensures Wins(a + b, playerId) == Wins(a, playerId) + Wins(b, playerId)
    decreases |a|
  {
    if |a| > 0 {
      assert (a + b)[1..] == a[1..] + b;
      WinsAppend(a[1..], b, playerId);
    } else {
      assert a + b == b;
    }
  }

  /** Total scores over two batches of games add up. */
  lemma {:induction false} TotalScoreAppend(a: seq<GameRecord>, b: seq<GameRecord>, playerId: int)
    ensures TotalScore(a + b, playerId) == TotalScore(a, playerId) + TotalScore(b, playerId)
    decreases |a|
  {
    if |a| > 0 {
      assert (a + b)[1..] == a[1..] + b;
      TotalScoreAppend(a[1..], b, playerId);
    } else {
      assert a + b == b;
    }
  }

  /** With scores in `[0, max]`, the total lies in `[0, max * games]`. */
  lemma {:induction false} TotalScoreBounds(games: seq<GameRecord>, playerId: int, max: nat)
    requires forall i :: 0 <= i < |games| ==> 0 <= games[i].score1 <= max && 0 <= games[i].score2 <= max
    ensures 0 <= TotalScore(games, playerId) <= max * |games|
    decreases |games|
  {
    if |games| > 0 {
      var rest := games[1..];
      assert forall i :: 0 <= i < |rest| ==> rest[i] == games[i + 1];
      TotalScoreBounds(rest, playerId, max);
      assert 0 <= ScoreOf(games[0], playerId) <= max;
      assert max * |games| == max + max * |rest|;
    }
  }

  /** Statistics over two batches of rows combine: the games, the wins
      and the total score of the union are the sums over the batches. */
  lemma StatsAppend(a: seq<GameRecord>, b: seq<GameRecord>, playerId: int)
    ensures var s, sa, sb := PlayerStats(a + b, playerId), PlayerStats(a, playerId), PlayerStats(b, playerId);
            && s.totalGames == sa.totalGames + sb.totalGames
            && s.wonGames == sa.wonGames + sb.wonGames
            && s.totalScore == sa.totalScore + sb.totalScore
  {
    Seqs.FilterAppend(a, b, g => Counted(g, playerId));
    var ga, gb := PlayerGames(a, playerId), PlayerGames(b, playerId);
    assert PlayerGames(a + b, playerId) == ga + gb;
    WinsAppend(ga, gb, playerId);
    TotalScoreAppend(ga, gb, playerId);
  }

  /** With every stored score in `[0, max]`, the average score lies in
      `[0, max]` too. */
  lemma AverageWithinScores(rows: seq<GameRecord>, playerId: int, max: nat)
    requires forall i :: 0 <= i < |rows| ==> 0 <= rows[i].score1 <= max && 0 <= rows[i].score2 <= max
    ensures 0.0 <= PlayerStats(rows, playerId).averageScore <= max as real
  {
    var games := PlayerGames(rows, playerId);
    assert forall i :: 0 <= i < |games| ==> 0 <= games[i].score1 <= max && 0 <= games[i].score2 <= max by {
      forall i | 0 <= i < |games| ensures 0 <= games[i].score1 <= max && 0 <= games[i].score2 <= max {
        var j :| 0 <= j < |rows| && rows[j] == games[i];
      }
    }
    TotalScoreBounds(games, playerId, max);
    AverageOfStats(PlayerStats(rows, playerId), max);
  }

  lemma AverageOfStats(st: Stats, max: nat)
    requires Ratios(st)
    requires st.totalGames == 0 ==> st.averageScore == 0.0
    requires 0 <= st.totalScore <= max * st.totalGames
    ensures 0.0 <= st.averageScore <= max as real
  {
    if st.totalGames > 0 {
      MeanWithin(st.averageScore, st.totalGames, st.totalScore, max);
    }
  }

  lemma MeanWithin(avg: real, n: nat, total: int, max: nat)
    requires n > 0 && avg * n as real == total as real && 0 <= total <= max * n
    ensures 0.0 <= avg <= max as real
  {
    assert (max * n) as real == max as real * n as real;
    assert (max as real - avg) * n as real == (max * n) as real - total as real;
  }
}

=== FILE: html_escape.dfy ===
/** The HTML-escaping sanitiser shared by the chat service and the
    validation helpers: five global replacements, `&` first, then `trim`. */
module HtmlEscape {
  import JsText

  /** `s.replace(/c/g, rep)`. */
  function ReplaceAll(s: string, c: char, rep: string): (r: string)
    ensures c !in s ==> r == s
  {
    if |s| == 0 then []
    else (if s[0] == c then rep else [s[0]]) + ReplaceAll(s[1..], c, rep)
  }

  /** Replacing distributes over concatenation. */
  lemma {:induction false} ReplaceAllAppend(a: string, b: string, c: char, rep: string)
    ensures ReplaceAll(a + b, c, rep) == ReplaceAll(a, c, rep) + ReplaceAll(b, c, rep)
    decreases |a|
  {
    if |a| == 0 {
      assert a + b == b;
    } else {
      assert (a + b)[1..] == a[1..] + b;
      ReplaceAllAppend(a[1..], b, c, rep);
    }
  }

  /** The five replacements in the order the source applies them. */
  function Escape(s: string): string {
    var a := ReplaceAll(s, '&', "&amp;");
    var b := ReplaceAll(a, '<', "&lt;");
    var c := ReplaceAll(b, '>', "&gt;");
    var d := ReplaceAll(c, '"', "&quot;");
    ReplaceAll(d, '\'', "&#x27;")
  }

  /** The characters the sanitiser rewrites. */
  predicate Special(x: char) {
    x == '&' || x == '<' || x == '>' || x == '"' || x == '\''
  }

  /** The entity for one character; other characters stand for themselves. */
  function EscapeChar(x: char): (r: string)
    ensures |r| > 0
    ensures Special(x) ==> r[0] == '&' && r[|r| - 1] == ';'
    ensures !Special(x) ==> r == [x]
  {
    if x == '&' then "&amp;"
    else if x == '<' then "&lt;"
    else if x == '>' then "&gt;"
    else if x == '"' then "&quot;"
    else if x == '\'' then "&#x27;"
    else [x]
  }

  /** The reference escape: every character replaced by its entity. */
  function EscapeEach(s: string): (r: string)
    ensures '<' !in r && '>' !in r && '"' !in r && '\'' !in r
    ensures |r| >= |s|
  {
    if |s| == 0 then []
    else
      var head, rest := EscapeChar(s[0]), EscapeEach(s[1..]);
      EscapeCharSafe(s[0]);
      ConcatAvoids(head, rest);
      head + rest
  }

  /** No entity holds a markup character of its own. */
  lemma EscapeCharSafe(x: char)
    ensures var e := EscapeChar(x); '<' !in e && '>' !in e && '"' !in e && '\'' !in e && |e| >= 1
  {
  }

  lemma ConcatAvoids(a: string, b: string)
    requires '<' !in a && '>' !in a && '"' !in a && '\'' !in a
    requires '<' !in b && '>' !in b && '"' !in b && '\'' !in b
    ensures '<' !in a + b && '>' !in a + b && '"' !in a + b && '\'' !in a + b
  {
  }

  lemma EscapeEachAppend(a: string, b: string)
    ensures EscapeEach(a + b) == EscapeEach(a) + EscapeEach(b)
    decreases |a|
  {
    if |a| == 0 {
      assert a + b == b;
    } else {
      assert (a + b)[1..] == a[1..] + b;
      EscapeEachAppend(a[1..], b);
    }
  }

  lemma ReplaceOne(x: char, c: char, rep: string)
    ensures ReplaceAll([x], c, rep) == if x == c then rep else [x]
  {
    assert [x][1..] == [];
  }

  /** The chain on one character is that character's entity: the later
      replacements find nothing to rewrite in what the earlier ones wrote. */
  lemma EscapeOneChar(x: char)
    ensures Escape([x]) == EscapeChar(x)
  {
    ReplaceOne(x, '&', "&amp;");
    if x == '&' {
      assert '<' !in "&amp;" && '>' !in "&amp;" && '"' !in "&amp;" && '\'' !in "&amp;";
    } else {
      ReplaceOne(x, '<', "&lt;");
      if x == '<' {
        assert '>' !in "&lt;" && '"' !in "&lt;" && '\'' !in "&lt;";
      } else {
        ReplaceOne(x, '>', "&gt;");
        if x == '>' {
          assert '"' !in "&gt;" && '\'' !in "&gt;";
        } else {
          ReplaceOne(x, '"', "&quot;");
          if x == '"' {
            assert '\'' !in "&quot;";
          } else {
            ReplaceOne(x, '\'', "&#x27;");
          }
        }
      }
    }
  }

  /** The escape chain distributes over concatenation. */
  lemma EscapeAppend(a: string, b: string)
    ensures Escape(a + b) == Escape(a) + Escape(b)
  {
    var a1, b1 := ReplaceAll(a, '&', "&amp;"), ReplaceAll(b, '&', "&amp;");
    ReplaceAllAppend(a, b, '&', "&amp;");
    var a2, b2 := ReplaceAll(a1, '<', "&lt;"), ReplaceAll(b1, '<', "&lt;");
    ReplaceAllAppend(a1, b1, '<', "&lt;");
    var a3, b3 := ReplaceAll(a2, '>', "&gt;"), ReplaceAll(b2, '>', "&gt;");
    ReplaceAllAppend(a2, b2, '>', "&gt;");
    var a4, b4 := ReplaceAll(a3, '"', "&quot;"), ReplaceAll(b3, '"', "&quot;");
    ReplaceAllAppend(a3, b3, '"', "&quot;");
    ReplaceAllAppend(a4, b4, '\'', "&#x27;");
  }

  /** Because `&` goes first, the chain of replacements is the
      character-by-character escape: every `&` of the input becomes `&amp;`
      exactly once and no entity is escaped twice. */
  lemma {:induction false} EscapeIsPerChar(s: string)
    ensures Escape(s) == EscapeEach(s)
    decreases |s|
  {
    if |s| == 0 {
    } else {
      assert s == [s[0]] + s[1..];
      EscapeAppend([s[0]], s[1..]);
      EscapeOneChar(s[0]);
      EscapeIsPerChar(s[1..]);
    }
  }

  /** The entity at the head of `t`, decoded, and its length. */
  function EntityAt(t: string): (r: (char, nat))
    requires |t| > 0
    ensures 1 <= r.1 <= |t|
  {
    if |t| >= 5 && t[..5] == "&amp;" then ('&', 5)
    else if |t| >= 4 && t[..4] == "&lt;" then ('<', 4)
    else if |t| >= 4 && t[..4] == "&gt;" then ('>', 4)
    else if |t| >= 6 && t[..6] == "&quot;" then ('"', 6)
    else if |t| >= 6 && t[..6] == "&#x27;" then ('\'', 6)
    else (t[0], 1)
  }

  /** Decodes the five entities. */
  function Unescape(t: string): string
    decreases |t|
  {
    if |t| == 0 then []
    else
      var (x, n) := EntityAt(t);
      [x] + Unescape(t[n..])
  }

  /** The head of an escaped character followed by anything decodes back
      to that character. */
  lemma EntityAtEscaped(x: char, rest: string)
    ensures EntityAt(EscapeChar(x) + rest) == (x, |EscapeChar(x)|)
  {
    var e := EscapeChar(x);
    var t := e + rest;
    assert t[..|e|] == e;
    assert t[0] == e[0];
    if !Special(x) {
      assert t[0] == x && x != '&';
    } else if x == '<' || x == '>' {
      assert t[1] == e[1];
    } else if x == '"' || x == '\'' {
      assert t[1] == e[1];
    }
  }

  /** Decoding undoes the escape: no information is lost. */
  lemma {:induction false} UnescapeEscape(s: string)
    ensures Unescape(EscapeEach(s)) == s
    decreases |s|
  {
    if |s| > 0 {
      var e := EscapeChar(s[0]);
      var t := EscapeEach(s);
      assert t == e + EscapeEach(s[1..]);
      EntityAtEscaped(s[0], EscapeEach(s[1..]));
      assert t[|e|..] == EscapeEach(s[1..]);
      UnescapeEscape(s[1..]);
    }
  }

  /** `sanitizeString` / `sanitizeMessageContent`: "" for empty input,
      otherwise the escape followed by `trim`. */
  function Sanitize(s: string): (r: string)
    ensures JsText.Trimmed(r)
    ensures |s| == 0 ==> r == ""
  {
    if |s| == 0 then "" else JsText.Trim(Escape(s))
  }

  /** Escaping leaves white space alone. */
  lemma EscapeWhiteSpace(w: string)
    requires JsText.AllWhiteSpace(w)
    ensures EscapeEach(w) == w
    decreases |w|
  {
    if |w| > 0 {
      assert JsText.IsWhiteSpace(w[0]);
      EscapeWhiteSpace(w[1..]);
    }
  }

  /** An escaped trimmed string is still trimmed. */
  lemma EscapeKeepsTrimmed(c: string)
    requires JsText.Trimmed(c)
    ensures JsText.Trimmed(EscapeEach(c))
  {
    if |c| > 0 {
      var last := c[|c| - 1];
      assert c == c[..|c| - 1] + [last];
      EscapeEachAppend(c[..|c| - 1], [last]);
      assert [last][1..] == [];
      assert EscapeEach([last]) == EscapeChar(last);
      assert !JsText.IsWhiteSpace(c[0]) && !JsText.IsWhiteSpace(last);
    }
  }

  /** White space around a core passes through the escape untouched. */
  lemma EscapeAround(w1: string, c: string, w2: string)
    requires JsText.AllWhiteSpace(w1) && JsText.AllWhiteSpace(w2)
    ensures EscapeEach(w1 + c + w2) == w1 + EscapeEach(c) + w2
  {
    EscapeEachAppend(w1 + c, w2);
    EscapeEachAppend(w1, c);
    EscapeWhiteSpace(w1);
    EscapeWhiteSpace(w2);
  }

  /** Escaping neither adds nor removes white space at the ends, so
      sanitising is escaping the trimmed input. */
  lemma SanitizeIsEscapeOfTrim(s: string)
    ensures Sanitize(s) == EscapeEach(JsText.Trim(s))
  {
    if |s| > 0 {
      var c := JsText.Trim(s);
      var w1, w2 := JsText.TrimParts(s);
      EscapeIsPerChar(s);
      EscapeAround(w1, c, w2);
      EscapeKeepsTrimmed(c);
      JsText.TrimAround(w1, EscapeEach(c), w2);
    }
  }

  /** The sanitised text holds no raw `<`, `>`, `"` or `'`, and decodes
      back to the trimmed input. */
  lemma SanitizeIsSafe(s: string)
    ensures var r := Sanitize(s);
            '<' !in r && '>' !in r && '"' !in r && '\'' !in r
    ensures |s| > 0 ==> Unescape(Sanitize(s)) == JsText.Trim(s)
  {
    SanitizeIsEscapeOfTrim(s);
    UnescapeEscape(JsText.Trim(s));
  }
}

=== FILE: http.dfy ===
/** What a route answers when it refuses or completes a request. */
module Http {
  /** An HTTP answer: its status code and its message. */
  datatype Reply = Reply(code: int, message: string)
}

=== FILE: js_text.dfy ===
/** The JavaScript string built-ins the source relies on, over `string`
    (a Dafny `char` is one Unicode scalar value): `length` in UTF-16 code
    units, `trim`, number to decimal string, `parseInt(_, 10)`,
    `Array.prototype.join`, and the ASCII part of `toLowerCase`. */
module JsText {
  import opened Wrappers

  /** The UTF-16 code units of one scalar value: a surrogate pair above
      U+FFFF, one unit otherwise. */
  function CodeUnits(c: char): (n: nat)
    ensures n == 1 || n == 2
  {
    if c as int > 0xFFFF then 2 else 1
  }

  /** `String.prototype.length`: the number of UTF-16 code units
      (section 6.1.4 of ECMA-262). */
  function Utf16Length(s: string): (n: nat)
    ensures |s| <= n <= 2 * |s|
    ensures n == |s| <==> forall i :: 0 <= i < |s| ==> s[i] as int <= 0xFFFF
    ensures n == 2 * |s| <==> forall i :: 0 <= i < |s| ==> s[i] as int > 0xFFFF
  {
    if |s| == 0 then 0
    else
      var rest := Utf16Length(s[1..]);
      assert forall i :: 1 <= i < |s| ==> s[i] == s[1..][i - 1];
      CodeUnits(s[0]) + rest
  }

  /** Lengths add up over concatenation. */
  lemma {:induction false} Utf16LengthAppend(a: string, b: string)
    ensures Utf16Length(a + b) == Utf16Length(a) + Utf16Length(b)
    decreases |a|
  {
    if |a| == 0 {
      assert a + b == b;
    } else {
      assert (a + b)[1..] == a[1..] + b;
      Utf16LengthAppend(a[1..], b);
    }
  }

  /** WhiteSpace (section 12.2 of ECMA-262) and LineTerminator (section 12.3),
      the code points `String.prototype.trim` and `parseInt` skip. */
  predicate IsWhiteSpace(c: char) {
    var n := c as int;
    // TAB, VT, FF, SP, NBSP, ZWNBSP and the other Zs code points
    || n == 0x09 || n == 0x0B || n == 0x0C || n == 0x20 || n == 0xA0 || n == 0xFEFF
    || n == 0x1680 || (0x2000 <= n <= 0x200A) || n == 0x202F || n == 0x205F || n == 0x3000
    // LF, CR, LINE SEPARATOR, PARAGRAPH SEPARATOR
    || n == 0x0A || n == 0x0D || n == 0x2028 || n == 0x2029
  }

  predicate AllWhiteSpace(s: string) {
    forall i :: 0 <= i < |s| ==> IsWhiteSpace(s[i])
  }

  /** No white space at either end. */
  predicate Trimmed(s: string) {
    |s| > 0 ==> !IsWhiteSpace(s[0]) && !IsWhiteSpace(s[|s| - 1])
  }

  /** Every character of `s` in `[lo, hi)` is white space. */
  predicate WhiteSpaceBetween(s: string, lo: int, hi: int) {
    forall k :: lo <= k < hi && 0 <= k < |s| ==> IsWhiteSpace(s[k])
  }

  function TrimStart(s: string): (r: string)
    ensures |r| <= |s| && r == s[|s| - |r|..]
    ensures WhiteSpaceBetween(s, 0, |s| - |r|)
    ensures |r| > 0 ==> !IsWhiteSpace(r[0])
  {
    if |s| > 0 && IsWhiteSpace(s[0]) then
      var r := TrimStart(s[1..]);
      assert forall k :: 1 <= k < |s| ==> s[k] == s[1..][k - 1];
      r
    else s
  }

  function TrimEnd(s: string): (r: string)
    ensures |r| <= |s| && r == s[..|r|]
    ensures WhiteSpaceBetween(s, |r|, |s|)
    ensures |r| > 0 ==> !IsWhiteSpace(r[|r| - 1])
  {
    if |s| > 0 && IsWhiteSpace(s[|s| - 1]) then
      var r := TrimEnd(s[..|s| - 1]);
      assert forall k :: 0 <= k < |s| - 1 ==> s[k] == s[..|s| - 1][k];
      r
    else s
  }

  /** `String.prototype.trim`: the slice of `s` left after dropping white
      space at both ends. */
  function Trim(s: string): (r: string)
    ensures Trimmed(r)
    ensures exists i, j :: 0 <= i <= j <= |s| && r == s[i..j]
                           && WhiteSpaceBetween(s, 0, i) && WhiteSpaceBetween(s, j, |s|)
  {
    var a := TrimStart(s);
    var r := TrimEnd(a);
    var i := |s| - |a|;
    ShiftWhite(s, i, |r|, |a|);
    assert r == s[i..i + |r|];
    r
  }

  /** White space found in a suffix of `s` is white space of `s`. */
  lemma ShiftWhite(s: string, i: int, lo: int, hi: int)
    requires 0 <= i <= |s| && 0 <= lo <= hi <= |s| - i && WhiteSpaceBetween(s[i..], lo, hi)
    ensures WhiteSpaceBetween(s, i + lo, i + hi)
  {
    forall k | i + lo <= k < i + hi ensures IsWhiteSpace(s[k]) {
      assert s[k] == s[i..][k - i];
    }
  }

  /** White space around a trimmed core is exactly what `Trim` removes. */
  lemma TrimAround(w1: string, c: string, w2: string)
    requires AllWhiteSpace(w1) && AllWhiteSpace(w2) && Trimmed(c)
    ensures Trim(w1 + c + w2) == c
  {
    var s := w1 + c + w2;
    var r := Trim(s);
    var i, j :| 0 <= i <= j <= |s| && r == s[i..j]
                && WhiteSpaceBetween(s, 0, i) && WhiteSpaceBetween(s, j, |s|);
    var lo, hi := |w1|, |w1| + |c|;
    Around(w1, c, w2);
    if |c| == 0 {
      assert WhiteSpaceBetween(s, 0, |s|);
      assert |r| == 0;
    } else {
      SliceBounds(s, i, j, lo, hi);
    }
  }

  /** The white space on either side of `c` in `w1 + c + w2`. */
  lemma Around(w1: string, c: string, w2: string)
    requires AllWhiteSpace(w1) && AllWhiteSpace(w2)
    ensures var s := w1 + c + w2;
            && WhiteSpaceBetween(s, 0, |w1|) && WhiteSpaceBetween(s, |w1| + |c|, |s|)
            && s[|w1|..|w1| + |c|] == c
  {
    var s := w1 + c + w2;
    forall k | 0 <= k < |w1| ensures IsWhiteSpace(s[k]) {
      assert s[k] == w1[k];
    }
    forall k | |w1| + |c| <= k < |s| ensures IsWhiteSpace(s[k]) {
      assert s[k] == w2[k - |w1| - |c|];
    }
  }

  /** A trimmed slice whose complement is white space, around a core with
      non-white-space ends, is that core. */
  lemma SliceBounds(s: string, i: int, j: int, lo: int, hi: int)
    requires 0 <= i <= j <= |s| && 0 <= lo < hi <= |s|
    requires Trimmed(s[i..j]) && Trimmed(s[lo..hi])
    requires WhiteSpaceBetween(s, 0, i) && WhiteSpaceBetween(s, j, |s|)
    requires WhiteSpaceBetween(s, 0, lo) && WhiteSpaceBetween(s, hi, |s|)
    ensures i == lo && j == hi
  {
    assert s[lo..hi][0] == s[lo] && s[lo..hi][hi - lo - 1] == s[hi - 1];
    assert !IsWhiteSpace(s[lo]) && !IsWhiteSpace(s[hi - 1]);
    assert i <= lo && hi <= j;
    assert s[i..j][0] == s[i] && s[i..j][j - i - 1] == s[j - 1];
  }

  /** The white space `Trim` removes at each end. */
  lemma TrimParts(s: string) returns (w1: string, w2: string)
    ensures AllWhiteSpace(w1) && AllWhiteSpace(w2)
    ensures s == w1 + Trim(s) + w2
  {
    var r := Trim(s);
    var i, j :| 0 <= i <= j <= |s| && r == s[i..j]
                && WhiteSpaceBetween(s, 0, i) && WhiteSpaceBetween(s, j, |s|);
    w1, w2 := s[0..i], s[j..|s|];
    WhiteSlice(s, 0, i);
    WhiteSlice(s, j, |s|);
    SplitThree(s, i, j);
  }

  lemma SplitThree(s: string, i: int, j: int)
    requires 0 <= i <= j <= |s|
    ensures s == s[0..i] + s[i..j] + s[j..|s|]
  {
    assert s[0..j] == s[0..i] + s[i..j];
    assert s == s[0..j] + s[j..|s|];
  }

  /** A stretch of white space, cut out, is all white space. */
  lemma WhiteSlice(s: string, lo: int, hi: int)
    requires 0 <= lo <= hi <= |s| && WhiteSpaceBetween(s, lo, hi)
    ensures AllWhiteSpace(s[lo..hi])
  {
    forall k | 0 <= k < hi - lo ensures IsWhiteSpace(s[lo..hi][k]) {
      assert s[lo..hi][k] == s[lo + k];
    }
  }

  lemma TrimIdempotent(s: string)
    ensures Trim(Trim(s)) == Trim(s)
  {
    TrimAround([], Trim(s), []);
    assert [] + Trim(s) + [] == Trim(s);
  }

  // ---------------------------------------------------------------- numbers

  function DigitChar(d: nat): (c: char)
    requires d < 10
    ensures '0' <= c <= '9'
  {
    "0123456789"[d]
  }

  predicate IsDigit(c: char) {
    '0' <= c <= '9'
  }

  function DigitValue(c: char): (d: nat)
    requires IsDigit(c)
    ensures d < 10 && DigitChar(d) == c
  {
    (c as int - '0' as int) as nat
  }

  /** The decimal text of a natural number, as `String(n)` writes it
      (no leading zeros). */
  function NatToDecimal(n: nat): (s: string)
    ensures |s| > 0 && forall i :: 0 <= i < |s| ==> IsDigit(s[i])
    ensures |s| > 1 ==> s[0] != '0'
  {
    if n < 10 then [DigitChar(n)] else NatToDecimal(n / 10) + [DigitChar(n % 10)]
  }

  /** `String(i)` for an integer-valued number. */
  function IntToDecimal(i: int): (s: string)
    ensures |s| > 0
    ensures i >= 0 <==> s[0] != '-'
  {
    if i >= 0 then NatToDecimal(i) else "-" + NatToDecimal(-i)
  }

  /** The value of a string of decimal digits. */
  function DigitsValue(s: string): nat
    requires forall i :: 0 <= i < |s| ==> IsDigit(s[i])
  {
    if |s| == 0 then 0 else DigitsValue(s[..|s| - 1]) * 10 + DigitValue(s[|s| - 1])
  }

  lemma {:induction false} DecimalRoundTrip(n: nat)
    ensures DigitsValue(NatToDecimal(n)) == n
  {
    if n >= 10 {
      DecimalRoundTrip(n / 10);
      var s := NatToDecimal(n);
      assert s[..|s| - 1] == NatToDecimal(n / 10);
    }
  }

  /** Length of the longest prefix of decimal digits. */
  function DigitPrefixLength(s: string): (n: nat)
    ensures n <= |s|
    ensures forall i :: 0 <= i < n ==> IsDigit(s[i])
    ensures n < |s| ==> !IsDigit(s[n])
  {
    if |s| == 0 || !IsDigit(s[0]) then 0 else 1 + DigitPrefixLength(s[1..])
  }

  /** The value of the longest run of decimal digits `u` starts with;
      `None` when it starts with no digit. */
  function ParseDigits(u: string): (r: Option<nat>)
    ensures r.None? <==> (|u| == 0 || !IsDigit(u[0]))
  {
    var n := DigitPrefixLength(u);
    if n == 0 then None else Some(DigitsValue(u[..n]))
  }

  /** `parseInt(s, 10)` (section 19.2.5 of ECMA-262): skip leading white
      space, take an optional sign, then the longest run of decimal digits;
      `None` stands for `NaN` (no digit found). The sign of zero is dropped. */
  function ParseInt(s: string): (r: Option<int>)
  {
    var t := TrimStart(s);
    if |t| > 0 && t[0] == '-' then
      match ParseDigits(t[1..])
      case None => None
      case Some(v) => Some(-(v as int))
    else if |t| > 0 && t[0] == '+' then
      match ParseDigits(t[1..])
      case None => None
      case Some(v) => Some(v as int)
    else
      match ParseDigits(t)
      case None => None
      case Some(v) => Some(v as int)
  }

  /** `parseInt` reads back every decimal text `String` writes. */
  lemma ParseIntOfDecimal(i: int)
    ensures ParseInt(IntToDecimal(i)) == Some(i)
  {
    if i >= 0 {
      var d := NatToDecimal(i);
      DecimalRoundTrip(i);
      ParseDigitsOfRun(d);
      TrimStartKeeps(d);
    } else {
      var d := NatToDecimal(-i);
      DecimalRoundTrip(-i);
      ParseDigitsOfRun(d);
      var m := "-" + d;
      TrimStartKeeps(m);
      assert m[1..] == d;
    }
  }

  /** A whole digit run is read back to its value. */
  lemma ParseDigitsOfRun(d: string)
    requires |d| > 0 && forall i :: 0 <= i < |d| ==> IsDigit(d[i])
    ensures ParseDigits(d) == Some(DigitsValue(d))
  {
    DigitRunLength(d);
    assert d[..|d|] == d;
  }

  lemma TrimStartKeeps(s: string)
    requires |s| > 0 && (s[0] == '-' || IsDigit(s[0]))
    ensures TrimStart(s) == s
  {
    assert !IsWhiteSpace(s[0]);
  }

  lemma {:induction false} DigitRunLength(s: string)
    requires forall i :: 0 <= i < |s| ==> IsDigit(s[i])
    ensures DigitPrefixLength(s) == |s|
    decreases |s|
  {
    if |s| > 0 {
      DigitRunLength(s[1..]);
    }
  }

  // ---------------------------------------------------------------- joining

  /** `parts.join(sep)`. */
  function Join(parts: seq<string>, sep: string): (r: string)
    ensures |parts| == 0 ==> r == ""
    ensures |parts| == 1 ==> r == parts[0]
  {
    if |parts| == 0 then ""
    else if |parts| == 1 then parts[0]
    else parts[0] + sep + Join(parts[1..], sep)
  }

  /** The ASCII part of `String.prototype.toLowerCase`. */
  function AsciiLower(s: string): (r: string)
    ensures |r| == |s|
    ensures forall i :: 0 <= i < |s| ==> !('A' <= r[i] <= 'Z')
    ensures forall i :: 0 <= i < |s| && !('A' <= s[i] <= 'Z') ==> r[i] == s[i]
  {
    seq(|s|, i requires 0 <= i < |s| =>
      if 'A' <= s[i] <= 'Z' then (s[i] as int + 32) as char else s[i])
  }
}

=== FILE: logger.dfy ===
/** The application logger: five levels, a threshold, the text of a log
    line, the level each helper picks, and which files a line lands in.
    Files are sequences of lines; timestamps, the JSON text of metadata and
    the console copy are outside the model (a timestamp is a parameter). */
module Logger {
  import opened Wrappers
  import JsText

  datatype Level = Error | Warn | Info | Debug | Audit

  /** The numeric values of the enum. */
  function Rank(l: Level): (r: nat)
    ensures r <= 4
  {
    match l
    case Error => 0
    case Warn => 1
    case Info => 2
    case Debug => 3
    case Audit => 4
  }

  function LevelName(l: Level): string {
    match l
    case Error => "ERROR"
    case Warn => "WARN"
    case Info => "INFO"
    case Debug => "DEBUG"
    case Audit => "AUDIT"
  }

  /** `shouldLog`: a line passes when its level is at most the threshold. */
  predicate ShouldLog(level: Level, threshold: Level) {
    Rank(level) <= Rank(threshold)
  }

  /** The ranks order the levels strictly, so the threshold is a cut: an
      ERROR line always passes, and an AUDIT line passes only at AUDIT. */
  lemma ThresholdIsACut(level: Level, threshold: Level)
    ensures ShouldLog(Error, threshold)
    ensures ShouldLog(Audit, threshold) <==> threshold == Audit
    ensures ShouldLog(level, threshold) && level != threshold ==> !ShouldLog(threshold, level)
    ensures Rank(level) == Rank(threshold) ==> level == threshold
  {
  }

  /** What a failure adds to a line: its message and stack. */
  datatype Failure = Failure(message: string, stack: Option<string>)

  /** A log entry. `metadata` is the JSON text of a non-empty metadata
      object, `None` when there is none. */
  datatype Entry = Entry(
    timestamp: string,
    level: Level,
    message: string,
    userId: Option<int>,
    ip: Option<string>,
    endpoint: Option<string>,
    verb: Option<string>,
    statusCode: Option<int>,
    duration: Option<int>,
    error: Option<Failure>,
    metadata: Option<string>)

  /** A plain entry with no optional field set. */
  function Plain(timestamp: string, level: Level, message: string): Entry {
    Entry(timestamp, level, message, None, None, None, None, None, None, None, None)
  }

  /** JavaScript truthiness of an optional number and an optional string. */
  predicate TruthyNumber(x: Option<int>) { x.Some? && x.value != 0 }
  predicate TruthyText(x: Option<string>) { x.Some? && |x.value| > 0 }

  /** A string as a template literal prints it. */
  function TextOr(x: Option<string>): string {
    if x.Some? then x.value else "undefined"
  }

  /** The ` | k=v, ...` part: one item per truthy field, in a fixed order. */
  function Fields(e: Entry): (r: seq<string>)
    ensures |r| == 0 <==>
              !TruthyNumber(e.userId) && !TruthyText(e.ip) && !TruthyText(e.endpoint) &&
              !TruthyNumber(e.statusCode) && !TruthyNumber(e.duration)
  {
    (if TruthyNumber(e.userId) then ["userId=" + JsText.IntToDecimal(e.userId.value)] else [])
    + (if TruthyText(e.ip) then ["ip=" + e.ip.value] else [])
    + (if TruthyText(e.endpoint) then ["endpoint=" + TextOr(e.verb) + " " + e.endpoint.value] else [])
    + (if TruthyNumber(e.statusCode) then ["status=" + JsText.IntToDecimal(e.statusCode.value)] else [])
    + (if TruthyNumber(e.duration) then ["duration=" + JsText.IntToDecimal(e.duration.value) + "ms"] else [])
  }

  function Header(e: Entry): string {
    "[" + e.timestamp + "] " + LevelName(e.level) + ": " + e.message
  }

  /** What follows the header: the field list, the failure, the metadata. */
  function Tail(e: Entry): string {
    var fields := Fields(e);
    (if |fields| > 0 then " | " + JsText.Join(fields, ", ") else "")
      + (if e.error.Some? then "\nError: " + e.error.value.message + "\nStack: " + TextOr(e.error.value.stack) else "")
      + (if e.metadata.Some? then "\nMetadata: " + e.metadata.value else "")
  }

  /** `formatLogEntry`. */
  function Format(e: Entry): (r: string)
    ensures Header(e) <= r
  {
    Header(e) + Tail(e)
  }

  /** A user id, status or duration of 0 and an empty address or endpoint
      print exactly as if they were absent. */
  lemma FalsyFieldsVanish(e: Entry)
    ensures Format(e.(userId := Some(0))) == Format(e.(userId := None))
    ensures Format(e.(duration := Some(0))) == Format(e.(duration := None))
    ensures Format(e.(statusCode := Some(0))) == Format(e.(statusCode := None))
    ensures Format(e.(ip := Some(""))) == Format(e.(ip := None))
    ensures Format(e.(endpoint := Some(""))) == Format(e.(endpoint := None))
  {
    ZeroUserIdVanishes(e);
    ZeroDurationVanishes(e);
    ZeroStatusVanishes(e);
    EmptyIpVanishes(e);
    EmptyEndpointVanishes(e);
  }

  lemma ZeroUserIdVanishes(e: Entry)
    ensures Format(e.(userId := Some(0))) == Format(e.(userId := None))
  {
    assert Fields(e.(userId := Some(0))) == Fields(e.(userId := None));
    SameFieldsSameLine(e.(userId := Some(0)), e.(userId := None));
  }

  lemma ZeroDurationVanishes(e: Entry)
    ensures Format(e.(duration := Some(0))) == Format(e.(duration := None))
  {
    assert Fields(e.(duration := Some(0))) == Fields(e.(duration := None));
    SameFieldsSameLine(e.(duration := Some(0)), e.(duration := None));
  }

  lemma ZeroStatusVanishes(e: Entry)
    ensures Format(e.(statusCode := Some(0))) == Format(e.(statusCode := None))
  {
    assert Fields(e.(statusCode := Some(0))) == Fields(e.(statusCode := None));
    SameFieldsSameLine(e.(statusCode := Some(0)), e.(statusCode := None));
  }

  lemma EmptyIpVanishes(e: Entry)
    ensures Format(e.(ip := Some(""))) == Format(e.(ip := None))
  {
    assert Fields(e.(ip := Some(""))) == Fields(e.(ip := None));
    SameFieldsSameLine(e.(ip := Some("")), e.(ip := None));
  }

  lemma EmptyEndpointVanishes(e: Entry)
    ensures Format(e.(endpoint := Some(""))) == Format(e.(endpoint := None))
  {
    assert Fields(e.(endpoint := Some(""))) == Fields(e.(endpoint := None));
    SameFieldsSameLine(e.(endpoint := Some("")), e.(endpoint := None));
  }

  lemma SameFieldsSameLine(a: Entry, b: Entry)
    requires Fields(a) == Fields(b)
    requires a.timestamp == b.timestamp && a.level == b.level && a.message == b.message
    requires a.error == b.error && a.metadata == b.metadata
    ensures Format(a) == Format(b)
  {
  }

  /** An entry with nothing truthy to add is its header alone. */
  lemma BareEntryIsHeader(timestamp: string, level: Level, message: string)
    ensures Format(Plain(timestamp, level, message)) == "[" + timestamp + "] " + LevelName(level) + ": " + message
  {
  }

  /** The files the logger appends to. */
  datatype Files = Files(main: seq<string>, errors: seq<string>, audit: seq<string>, security: seq<string>)

  /** `log`: below the threshold nothing happens; otherwise the line goes
      to the main log, and an ERROR line to the errors file as well. */
  function Log(f: Files, threshold: Level, e: Entry): (r: Files)
    ensures !ShouldLog(e.level, threshold) ==> r == f
    ensures ShouldLog(e.level, threshold) ==> r.main == f.main + [Format(e)]
    ensures r.errors == if ShouldLog(e.level, threshold) && e.level == Error then f.errors + [Format(e)] else f.errors
    ensures r.audit == f.audit && r.security == f.security
  {
    if !ShouldLog(e.level, threshold) then f
    else
      var line := Format(e);
      f.(main := f.main + [line], errors := if e.level == Error then f.errors + [line] else f.errors)
  }

  /** Every line of the errors file is an ERROR line of the main log,
      written at the same moment. */
  lemma ErrorsFileMirrorsErrors(f: Files, threshold: Level, e: Entry)
    requires |Log(f, threshold, e).errors| > |f.errors|
    ensures e.level == Error
    ensures var r := Log(f, threshold, e); r.errors[|r.errors| - 1] == r.main[|r.main| - 1]
  {
  }

  /** `logRequest`'s level. */
  function RequestLevel(statusCode: int): (l: Level)
    ensures l == Error <==> statusCode >= 500
    ensures l == Warn <==> 400 <= statusCode < 500
    ensures l == Info <==> statusCode < 400
  {
    if statusCode >= 500 then Error else if statusCode >= 400 then Warn else Info
  }

  /** `logRequest`: "METHOD endpoint - status" with the request fields. */
  function LogRequest(f: Files, threshold: Level, ts: string, verb: string, endpoint: string, statusCode: int,
                      duration: int, userId: Option<int>, ip: Option<string>): (r: Files)
    ensures r == Log(f, threshold, Entry(ts, RequestLevel(statusCode),
                                         verb + " " + endpoint + " - " + JsText.IntToDecimal(statusCode),
                                         userId, ip, Some(endpoint), Some(verb), Some(statusCode), Some(duration),
                                         None, None))
    ensures statusCode >= 500 ==> |r.errors| == |f.errors| + 1
  {
    Log(f, threshold, Entry(ts, RequestLevel(statusCode),
                            verb + " " + endpoint + " - " + JsText.IntToDecimal(statusCode),
                            userId, ip, Some(endpoint), Some(verb), Some(statusCode), Some(duration), None, None))
  }

  datatype Severity = Low | Medium | High | Critical

  function SeverityName(s: Severity): string {
    match s
    case Low => "LOW"
    case Medium => "MEDIUM"
    case High => "HIGH"
    case Critical => "CRITICAL"
  }

  /** `security`'s level: ERROR for the two gravest severities. */
  function SecurityLevel(s: Severity): (l: Level)
    ensures l == Error <==> s == High || s == Critical
    ensures l != Error ==> l == Warn
  {
    if s == Critical || s == High then Error else Warn
  }

  /** The security file's line: user and address, or "N/A" for a falsy one. */
  function SecurityLine(ts: string, event: string, s: Severity, userId: Option<int>, ip: Option<string>,
                        details: string): string {
    "[" + ts + "] [" + SeverityName(s) + "] " + event
      + " | userId=" + (if TruthyNumber(userId) then JsText.IntToDecimal(userId.value) else "N/A")
      + " ip=" + (if TruthyText(ip) then ip.value else "N/A")
      + " | " + details
  }

  /** `security`: a main-log line at the severity's level (subject to the
      threshold) and, always, a line in the security file. `details` is
      the JSON text of the details object. The main-log entry's metadata
      is really `{securityEvent: true, severity, event, ...details}`; the
      entry carries `details` in its place, and no contract here reads
      the main log's metadata. */
  function Security(f: Files, threshold: Level, ts: string, event: string, s: Severity, userId: Option<int>,
                    ip: Option<string>, details: string): (r: Files)
    ensures r.security == f.security + [SecurityLine(ts, event, s, userId, ip, details)]
    ensures r.audit == f.audit
    ensures (s == High || s == Critical) ==> |r.errors| == |f.errors| + 1
    ensures (s == Low || s == Medium) ==> r.errors == f.errors
  {
    var e := Entry(ts, SecurityLevel(s), "SECURITY [" + SeverityName(s) + "]: " + event, userId, ip,
                   None, None, None, None, None, Some(details));
    var g := Log(f, threshold, e);
    g.(security := g.security + [SecurityLine(ts, event, s, userId, ip, details)])
  }

  /** `performance`'s level: a failure or a slow operation is a warning. */
  function PerformanceLevel(success: bool, duration: int): (l: Level)
    ensures l == Warn <==> !success || duration > 5000
    ensures l != Warn ==> l == Debug
  {
    if !success then Warn else if duration > 5000 then Warn else Debug
  }

  /** `database`'s level: a failure is an error, a slow query a warning. */
  function DatabaseLevel(success: bool, duration: int): (l: Level)
    ensures l == Error <==> !success
    ensures l == Warn <==> success && duration > 1000
    ensures l == Debug <==> success && duration <= 1000
  {
    if !success then Error else if duration > 1000 then Warn else Debug
  }

  /** With the production threshold, successful fast work is not logged. */
  lemma QuietWhenFast(duration: int, threshold: Level)
    requires threshold == Info && 0 <= duration <= 1000
    ensures !ShouldLog(PerformanceLevel(true, duration), threshold)
    ensures !ShouldLog(DatabaseLevel(true, duration), threshold)
  {
  }

  datatype AuthKind = LoginSuccess | LoginFailed | Logout | TokenRefresh | UnauthorizedAccess

  function AuthName(k: AuthKind): string {
    match k
    case LoginSuccess => "LOGIN_SUCCESS"
    case LoginFailed => "LOGIN_FAILED"
    case Logout => "LOGOUT"
    case TokenRefresh => "TOKEN_REFRESH"
    case UnauthorizedAccess => "UNAUTHORIZED_ACCESS"
  }

  /** Where `authEvent` sends an event: the two failures to `security`
      with their severity, the rest to an INFO line. */
  function AuthSeverity(k: AuthKind): (r: Option<Severity>)
    ensures r == Some(Medium) <==> k == LoginFailed
    ensures r == Some(High) <==> k == UnauthorizedAccess
    ensures r.None? <==> k != LoginFailed && k != UnauthorizedAccess
  {
    if k == UnauthorizedAccess then Some(High) else if k == LoginFailed then Some(Medium) else None
  }

  /** The INFO line's text. */
  function AuthMessage(k: AuthKind, userId: Option<int>, email: Option<string>, reason: Option<string>): string {
    "AUTH: " + AuthName(k)
      + (if TruthyNumber(userId) then " for user " + JsText.IntToDecimal(userId.value) else "")
      + (if TruthyText(email) then " (" + email.value + ")" else "")
      + (if TruthyText(reason) then " - " + reason.value else "")
  }

  /** `authEvent`. `details` is the JSON text `security` would record. */
  function AuthEvent(f: Files, threshold: Level, ts: string, k: AuthKind, userId: Option<int>, email: Option<string>,
                     ip: Option<string>, reason: Option<string>, details: string, metadata: string): (r: Files)
    ensures AuthSeverity(k).Some? ==> |r.security| == |f.security| + 1
    ensures AuthSeverity(k).Some? ==>
              r.security == f.security + [SecurityLine(ts, AuthName(k), AuthSeverity(k).value, userId, ip, details)]
    ensures r.audit == f.audit
    ensures AuthSeverity(k).None? ==> r.security == f.security && r.errors == f.errors
    ensures k == UnauthorizedAccess ==> |r.errors| == |f.errors| + 1
  {
    match AuthSeverity(k)
    case Some(s) => Security(f, threshold, ts, AuthName(k), s, userId, ip, details)
    case None =>
      Log(f, threshold, Entry(ts, Info, AuthMessage(k, userId, email, reason), userId, ip,
                              None, None, None, None, None, Some(metadata)))
  }

  /** `rateLimitHit(endpoint, limit, window, userId, ip)`: a MEDIUM
      security event under the given user and address. */
  function RateLimitHit(f: Files, threshold: Level, ts: string, endpoint: string, limit: Option<int>,
                        window: Option<string>, userId: Option<int>, ip: Option<string>, details: string): (r: Files)
    ensures r.security == f.security + [SecurityLine(ts, "RATE_LIMIT_EXCEEDED", Medium, userId, ip, details)]
    ensures r.errors == f.errors
  {
    Security(f, threshold, ts, "RATE_LIMIT_EXCEEDED", Medium, userId, ip, details)
  }

  /** The audit message. */
  function AuditMessage(action: string, resource: string, resourceId: Option<string>, userId: int,
                        success: bool): string {
    "AUDIT: " + action + " on " + resource
      + (if TruthyText(resourceId) then " (ID: " + resourceId.value + ")" else "")
      + " by user " + JsText.IntToDecimal(userId) + " - " + (if success then "SUCCESS" else "FAILED")
  }

  /** `audit`: the audit file always gets the record (its JSON text is
      `json`); the main log gets an AUDIT line only at the AUDIT threshold. */
  function AuditLog(f: Files, threshold: Level, ts: string, action: string, resource: string,
                    resourceId: Option<string>, userId: int, success: bool, ip: Option<string>,
                    json: string, metadata: string): (r: Files)
    ensures r.audit == f.audit + ["[" + ts + "] " + json]
    ensures |r.main| == |f.main| + 1 <==> threshold == Audit
    ensures threshold != Audit ==> r.main == f.main
    ensures r.errors == f.errors && r.security == f.security
  {
    var e := Entry(ts, Audit, AuditMessage(action, resource, resourceId, userId, success), Some(userId), ip,
                   None, None, None, None, None, Some(metadata));
    var g := Log(f, threshold, e);
    g.(audit := g.audit + ["[" + ts + "] " + json])
  }

  /** The threshold the module sets from the environment: DEBUG in
      development, INFO in production and by default. */
  function ThresholdFor(nodeEnv: Option<string>): (l: Level)
    ensures l == Debug <==> nodeEnv == Some("development")
    ensures l != Debug ==> l == Info
  {
    if nodeEnv == Some("development") then Debug else Info
  }

  /** Under either threshold the environment can set, audit records never
      reach the main log. */
  lemma AuditNeverInMainLog(f: Files, nodeEnv: Option<string>, ts: string, action: string, resource: string,
                            resourceId: Option<string>, userId: int, success: bool, ip: Option<string>,
                            json: string, metadata: string)
    ensures AuditLog(f, ThresholdFor(nodeEnv), ts, action, resource, resourceId, userId, success, ip, json,
                     metadata).main == f.main
  {
  }
}

=== FILE: match_requests.dfy ===
/** The table of remote match requests, shared by two sets of routes: the
    invitation routes, which pair the players in the in-memory match
    registry, and the one-to-one request routes, which record a game row
    directly. A request starts `pending` and moves once, to `accepted`,
    `declined`, `cancelled` or `expired`. The table is a map from request
    id to row; the database's fresh ids and its row order are parameters. */
module MatchRequests {
  import opened Wrappers
  import opened Http
  import GameModel
  import GameService
  import OrderedMap
  import GameStats
  import JsText
  import Seqs

  datatype RequestStatus = Pending | Accepted | Declined | Cancelled | Expired

  /** The status as stored and as quoted in error messages. */
  function StatusName(st: RequestStatus): (r: string)
    ensures |r| > 0
  {
    match st
    case Pending => "pending"
    case Accepted => "accepted"
    case Declined => "declined"
    case Cancelled => "cancelled"
    case Expired => "expired"
  }

  datatype MatchRequest = MatchRequest(
    requesterId: int,
    recipientId: int,
    status: RequestStatus,
    gameId: Option<string>)

  type Requests = map<int, MatchRequest>

  datatype Action = Accept | Decline

  /** The two rows concern the same two users, in either direction. */
  predicate SamePair(m: MatchRequest, n: MatchRequest) {
    || (m.requesterId == n.requesterId && m.recipientId == n.recipientId)
    || (m.requesterId == n.recipientId && m.recipientId == n.requesterId)
  }

  /** Some pending row links `a` and `b`, in either direction. */
  predicate PendingBetween(reqs: Requests, a: int, b: int) {
    exists id | id in reqs :: reqs[id].status == Pending &&
      ((reqs[id].requesterId == a && reqs[id].recipientId == b) ||
       (reqs[id].requesterId == b && reqs[id].recipientId == a))
  }

  /** Some pending row goes from `a` to `b`. */
  predicate PendingFrom(reqs: Requests, a: int, b: int) {
    exists id | id in reqs :: reqs[id].status == Pending && reqs[id].requesterId == a && reqs[id].recipientId == b
  }

  /** Nobody has a request addressed to themselves. */
  predicate NoSelfRequests(reqs: Requests) {
    forall id :: id in reqs ==> reqs[id].requesterId != reqs[id].recipientId
  }

  /** At most one pending row per pair of users. */
  predicate OnePendingPerPair(reqs: Requests) {
    forall i, j ::
      (i in reqs && j in reqs && reqs[i].status == Pending && reqs[j].status == Pending
       && SamePair(reqs[i], reqs[j])) ==> i == j
  }

  /** `gameService.isPlayerInGame(p)` found a match. */
  predicate InGame(svc: GameService.Service, p: int) {
    GameService.GameOf(svc.games, p).Some?
  }

  /** How the table may change in one step: rows are only added, and an
      existing row changes only from `pending`, to another status, between
      the same two users. */
  predicate Moves(before: Requests, after: Requests) {
    && before.Keys <= after.Keys
    && forall id :: id in before ==>
         || after[id] == before[id]
         || (&& before[id].status == Pending && after[id].status != Pending
             && after[id].requesterId == before[id].requesterId
             && after[id].recipientId == before[id].recipientId)
  }

  // ---------------------------------------------------------------- invitations

  /** `POST /invite`: refused for a self-invite, an unknown recipient, a
      pending invitation between the two in either direction, or either of
      them already playing; otherwise one pending row is added. */
  function SendInvite(reqs: Requests, svc: GameService.Service, users: GameService.Users,
                      userId: int, recipientId: int, newId: int): (r: Result<Requests, Reply>)
    requires newId !in reqs
    ensures r.Success? <==>
              && userId != recipientId && recipientId in users
              && !PendingBetween(reqs, userId, recipientId)
              && !InGame(svc, userId) && !InGame(svc, recipientId)
    ensures r.Success? ==> r.value == reqs[newId := MatchRequest(userId, recipientId, Pending, None)]
    ensures r.Failure? ==> r.error.code in {400, 404, 409}
    ensures userId == recipientId ==> r == Failure(Reply(400, "Cannot invite yourself to a game"))
  {
    if userId == recipientId then Failure(Reply(400, "Cannot invite yourself to a game"))
    else if recipientId !in users then Failure(Reply(404, "Recipient not found"))
    else if PendingBetween(reqs, userId, recipientId) then
      Failure(Reply(409, "There is already a pending invitation between you and this user"))
    else if InGame(svc, userId) then Failure(Reply(400, "You are already in a game"))
    else if InGame(svc, recipientId) then Failure(Reply(400, "The recipient is already in a game"))
    else Success(reqs[newId := MatchRequest(userId, recipientId, Pending, None)])
  }

  /** `POST /invite/:id/respond`. Only the recipient of a pending
      invitation gets past the checks. A decline records `declined`. An
      accept expires the invitation when the requester is already playing,
      leaves it pending when the recipient is, and otherwise opens a match
      hosted by the requester, seats the recipient and records `accepted`
      with the match id. A failure inside the registry answers 500 and
      leaves whatever the registry had already done. */
  function RespondInvite(reqs: Requests, svc: GameService.Service, users: GameService.Users,
                         userId: int, inviteId: int, action: Action,
                         dbId: int, now: int, serve: GameModel.Serve): (r: (Requests, GameService.Service, Reply))
    ensures inviteId !in reqs ==> r == (reqs, svc, Reply(404, "Invitation not found"))
    ensures inviteId in reqs && reqs[inviteId].recipientId != userId ==>
              r.0 == reqs && r.1 == svc && r.2.code == 403
    ensures inviteId in reqs && reqs[inviteId].recipientId == userId && reqs[inviteId].status != Pending ==>
              r == (reqs, svc, Reply(400, "Invitation has already been " + StatusName(reqs[inviteId].status)))
    ensures r.0.Keys == reqs.Keys && forall id :: id in reqs && id != inviteId ==> r.0[id] == reqs[id]
    ensures inviteId in reqs && r.0[inviteId] != reqs[inviteId] ==>
              && reqs[inviteId].status == Pending && reqs[inviteId].recipientId == userId
              && r.0[inviteId].status != Pending
              && r.0[inviteId].requesterId == reqs[inviteId].requesterId
              && r.0[inviteId].recipientId == reqs[inviteId].recipientId
    ensures inviteId in reqs && reqs[inviteId].recipientId == userId && reqs[inviteId].status == Pending ==>
              && (action == Decline ==>
                    r == (reqs[inviteId := reqs[inviteId].(status := Declined)], svc, Reply(200, "Game invitation declined")))
              && (action == Accept && InGame(svc, reqs[inviteId].requesterId) ==>
                    r.0 == reqs[inviteId := reqs[inviteId].(status := Expired)] && r.1 == svc && r.2.code == 400)
              && (action == Accept && !InGame(svc, reqs[inviteId].requesterId) && InGame(svc, userId) ==>
                    r == (reqs, svc, Reply(400, "You are already in a game")))
    ensures r.2.code == 200 ==> r.0[inviteId].status in {Declined, Accepted}
  {
    if inviteId !in reqs then (reqs, svc, Reply(404, "Invitation not found"))
    else
      var inv := reqs[inviteId];
      if inv.recipientId != userId then
        (reqs, svc, Reply(403, "You are not authorized to respond to this invitation"))
      else if inv.status != Pending then
        (reqs, svc, Reply(400, "Invitation has already been " + StatusName(inv.status)))
      else if action == Decline then
        (reqs[inviteId := inv.(status := Declined)], svc, Reply(200, "Game invitation declined"))
      else if InGame(svc, inv.requesterId) then
        (reqs[inviteId := inv.(status := Expired)], svc,
         Reply(400, "The requester is already in a game. Invitation expired."))
      else if InGame(svc, userId) then
        (reqs, svc, Reply(400, "You are already in a game"))
      else OpenAccepted(reqs, svc, users, userId, inviteId, dbId, now, serve)
  }

  /** The accepting branch of `respondToInvite`: a match hosted by the
      requester, the recipient seated in it, and the invitation marked
      accepted with the match id; a registry failure answers 500 and marks
      nothing. */
  function OpenAccepted(reqs: Requests, svc: GameService.Service, users: GameService.Users,
                        userId: int, inviteId: int,
                        dbId: int, now: int, serve: GameModel.Serve): (r: (Requests, GameService.Service, Reply))
    requires inviteId in reqs
    ensures r.0.Keys == reqs.Keys
    ensures r.2.code == 200 ==>
              r.0 == reqs[inviteId := reqs[inviteId].(status := Accepted, gameId := r.0[inviteId].gameId)]
    ensures r.2.code == 200 ==>
              var id := JsText.IntToDecimal(dbId);
              && r.0[inviteId].gameId == Some(id)
              && OrderedMap.Get(r.1.games, id).Some?
              && OrderedMap.Get(r.1.games, id).value.status == GameModel.Ready
              && OrderedMap.Get(r.1.games, id).value.player1.id == reqs[inviteId].requesterId
              && OrderedMap.Get(r.1.games, id).value.player2.Some?
              && OrderedMap.Get(r.1.games, id).value.player2.value.id == userId
    ensures r.2.code != 200 ==> r.0 == reqs && r.2.code == 500
  {
    var inv := reqs[inviteId];
    match GameService.CreateGame(svc, inv.requesterId, users, dbId, GameModel.NoOverride, now, serve)
    case Failure(_) => (reqs, svc, Reply(500, "Failed to respond to game invitation"))
    case Success((created, gameId)) =>
      match GameService.JoinGame(created, gameId, userId, users)
      case Failure(_) => (reqs, created, Reply(500, "Failed to respond to game invitation"))
      case Success(joined) =>
        (reqs[inviteId := inv.(status := Accepted, gameId := Some(gameId))], joined,
         Reply(200, "Game invitation accepted"))
  }

  /** `DELETE /invite/:id`: only the requester of a pending invitation may
      cancel it, and cancelling changes nothing but its status. */
  function CancelInvite(reqs: Requests, userId: int, inviteId: int): (r: Result<Requests, Reply>)
    ensures r.Success? <==> inviteId in reqs && reqs[inviteId].requesterId == userId && reqs[inviteId].status == Pending
    ensures r.Success? ==> r.value == reqs[inviteId := reqs[inviteId].(status := Cancelled)]
    ensures inviteId !in reqs ==> r == Failure(Reply(404, "Invitation not found"))
    ensures inviteId in reqs && reqs[inviteId].requesterId != userId ==>
              r == Failure(Reply(403, "You can only cancel invitations you sent"))
    ensures inviteId in reqs && reqs[inviteId].requesterId == userId && reqs[inviteId].status != Pending ==>
              r == Failure(Reply(400, "Cannot cancel invitation that has been " + StatusName(reqs[inviteId].status)))
  {
    if inviteId !in reqs then Failure(Reply(404, "Invitation not found"))
    else
      var inv := reqs[inviteId];
      if inv.requesterId != userId then Failure(Reply(403, "You can only cancel invitations you sent"))
      else if inv.status != Pending then
        Failure(Reply(400, "Cannot cancel invitation that has been " + StatusName(inv.status)))
      else Success(reqs[inviteId := inv.(status := Cancelled)])
  }

  /** Sending keeps both table invariants: no self-addressed rows and at
      most one pending row per pair. */
  lemma SendKeepsInvariants(reqs: Requests, svc: GameService.Service, users: GameService.Users,
                            userId: int, recipientId: int, newId: int)
    requires newId !in reqs
    requires NoSelfRequests(reqs) && OnePendingPerPair(reqs)
    ensures var r := SendInvite(reqs, svc, users, userId, recipientId, newId);
            r.Success? ==> NoSelfRequests(r.value) && OnePendingPerPair(r.value) && Moves(reqs, r.value)
  {
    var r := SendInvite(reqs, svc, users, userId, recipientId, newId);
    if r.Success? {
      var t := r.value;
      var m := MatchRequest(userId, recipientId, Pending, None);
      assert t == reqs[newId := m];
      assert forall j :: j in reqs && reqs[j].status == Pending ==> !SamePair(m, reqs[j]) && !SamePair(reqs[j], m);
    }
  }

  /** Responding keeps both table invariants and only moves the answered
      row out of `pending`. */
  lemma RespondKeepsInvariants(reqs: Requests, svc: GameService.Service, users: GameService.Users,
                               userId: int, inviteId: int, action: Action,
                               dbId: int, now: int, serve: GameModel.Serve)
    requires NoSelfRequests(reqs) && OnePendingPerPair(reqs)
    ensures var r := RespondInvite(reqs, svc, users, userId, inviteId, action, dbId, now, serve);
            NoSelfRequests(r.0) && OnePendingPerPair(r.0) && Moves(reqs, r.0)
  {
    var r := RespondInvite(reqs, svc, users, userId, inviteId, action, dbId, now, serve);
    MoveOneKeepsInvariants(reqs, r.0, inviteId);
  }

  /** Changing one row, and only out of `pending` between the same users,
      keeps both table invariants. */
  lemma MoveOneKeepsInvariants(before: Requests, after: Requests, id: int)
    requires NoSelfRequests(before) && OnePendingPerPair(before)
    requires after.Keys == before.Keys && forall k :: k in before && k != id ==> after[k] == before[k]
    requires id in before && after[id] != before[id] ==>
               && before[id].status == Pending && after[id].status != Pending
               && after[id].requesterId == before[id].requesterId
               && after[id].recipientId == before[id].recipientId
    ensures NoSelfRequests(after) && OnePendingPerPair(after) && Moves(before, after)
  {
  }

  /** Cancelling keeps both table invariants. */
  lemma CancelKeepsInvariants(reqs: Requests, userId: int, inviteId: int)
    requires NoSelfRequests(reqs) && OnePendingPerPair(reqs)
    ensures var r := CancelInvite(reqs, userId, inviteId);
            r.Success? ==> NoSelfRequests(r.value) && OnePendingPerPair(r.value) && Moves(reqs, r.value)
  {
  }

  /** A row that has left `pending` is final: neither responding nor
      cancelling touches it, nor the match registry. */
  lemma SettledIsFinal(reqs: Requests, svc: GameService.Service, users: GameService.Users,
                       userId: int, inviteId: int, action: Action,
                       dbId: int, now: int, serve: GameModel.Serve)
    requires inviteId in reqs && reqs[inviteId].status != Pending
    ensures var r := RespondInvite(reqs, svc, users, userId, inviteId, action, dbId, now, serve);
            r.0 == reqs && r.1 == svc && r.2.code in {400, 403}
    ensures CancelInvite(reqs, userId, inviteId).Failure?
  {
  }

  /** Accepting a pending invitation when neither user plays and both are
      known opens a match hosted by the requester, with the recipient in
      the second seat and the match ready, and records it on the row. */
  lemma AcceptOpensMatch(reqs: Requests, svc: GameService.Service, users: GameService.Users,
                         userId: int, inviteId: int, dbId: int, now: int, serve: GameModel.Serve)
    requires NoSelfRequests(reqs)
    requires inviteId in reqs && reqs[inviteId].recipientId == userId && reqs[inviteId].status == Pending
    requires !InGame(svc, reqs[inviteId].requesterId) && !InGame(svc, userId)
    requires reqs[inviteId].requesterId in users && userId in users
    ensures var r := RespondInvite(reqs, svc, users, userId, inviteId, Accept, dbId, now, serve);
            var id := JsText.IntToDecimal(dbId);
            && r.2 == Reply(200, "Game invitation accepted")
            && r.0[inviteId] == reqs[inviteId].(status := Accepted, gameId := Some(id))
            && OrderedMap.Get(r.1.games, id).Some?
            && var g := OrderedMap.Get(r.1.games, id).value;
            && g.status == GameModel.Ready
            && g.player1.id == reqs[inviteId].requesterId
            && g.player2.Some? && g.player2.value.id == userId
  {
    var inv := reqs[inviteId];
    var id := JsText.IntToDecimal(dbId);
    var created := GameService.CreateGame(svc, inv.requesterId, users, dbId, GameModel.NoOverride, now, serve);
    assert created.Success?;
    var (s1, gid) := created.value;
    assert gid == id;
    var host := GameService.NewGame(id, inv.requesterId, users[inv.requesterId], GameModel.NoOverride, now, serve);
    assert OrderedMap.Get(s1.games, id) == Some(host);
    assert GameService.JoinRefusal(s1, id, userId, users).None?;
    var joined := GameService.JoinGame(s1, id, userId, users);
    assert joined.Success?;
  }

  // ---------------------------------------------------------------- one-to-one requests

  /** `POST /remote/request`: refused for a zero or self opponent, an
      unknown opponent, or a pending request already going the same way; a
      pending request in the other direction does not stop it. */
  function RequestMatch(reqs: Requests, users: GameService.Users, userId: int, opponentId: int, newId: int)
    : (r: Result<Requests, Reply>)
    requires newId !in reqs
    ensures r.Success? <==>
              opponentId != 0 && opponentId != userId && opponentId in users && !PendingFrom(reqs, userId, opponentId)
    ensures r.Success? ==> r.value == reqs[newId := MatchRequest(userId, opponentId, Pending, None)]
    ensures opponentId == 0 || opponentId == userId ==> r == Failure(Reply(400, "Invalid opponent Id"))
  {
    if opponentId == 0 || opponentId == userId then Failure(Reply(400, "Invalid opponent Id"))
    else if opponentId !in users then Failure(Reply(404, "opponentId not found"))
    else if PendingFrom(reqs, userId, opponentId) then Failure(Reply(400, "Match request already sent"))
    else Success(reqs[newId := MatchRequest(userId, opponentId, Pending, None)])
  }

  /** Requests keep rows self-free, but two users can hold a pending
      request each way at once: the duplicate check looks in one
      direction only. */
  lemma RequestMatchAllowsCrossedPair(users: GameService.Users)
    requires 1 in users && 2 in users
    ensures var before := map[1 := MatchRequest(1, 2, Pending, None)];
            var r := RequestMatch(before, users, 2, 1, 7);
            && OnePendingPerPair(before)
            && r.Success? && !OnePendingPerPair(r.value)
  {
    var before := map[1 := MatchRequest(1, 2, Pending, None)];
    var r := RequestMatch(before, users, 2, 1, 7);
    assert !PendingFrom(before, 2, 1);
    assert r.value[1].status == Pending && r.value[7].status == Pending;
    assert SamePair(r.value[1], r.value[7]);
  }

  /** `POST /remote/respond`: a zero id is refused as missing; only the
      recipient of a pending request may answer; the row records the
      answer, and an accept adds a 0-0 remote game row with the requester
      in the first seat and the recipient in the second. */
  function RespondMatch(reqs: Requests, games: map<int, GameStats.GameRecord>, userId: int,
                        requestId: int, action: Action, newGameId: int)
    : (r: Result<(Requests, map<int, GameStats.GameRecord>), Reply>)
    requires newGameId !in games
    ensures r.Success? <==>
              requestId != 0 && requestId in reqs && reqs[requestId].recipientId == userId
              && reqs[requestId].status == Pending
    ensures r.Success? ==>
              var m := reqs[requestId];
              && r.value.0 == reqs[requestId := m.(status := if action == Accept then Accepted else Declined)]
              && (action == Decline ==> r.value.1 == games)
              && (action == Accept ==>
                    r.value.1 == games[newGameId := GameStats.GameRecord(m.requesterId, Some(m.recipientId), 0, 0, None, true)])
    ensures r.Failure? ==> r.error.code in {400, 403}
  {
    if requestId == 0 then Failure(Reply(400, "Missing requestId or action"))
    else if requestId !in reqs then Failure(Reply(403, "Match request not found"))
    else
      var m := reqs[requestId];
      if m.recipientId != userId then Failure(Reply(403, "You can only respond to requests sent to you"))
      else if m.status != Pending then Failure(Reply(400, "Request already responded to"))
      else if action == Accept then
        Success((reqs[requestId := m.(status := Accepted)],
                 games[newGameId := GameStats.GameRecord(m.requesterId, Some(m.recipientId), 0, 0, None, true)]))
      else Success((reqs[requestId := m.(status := Declined)], games))
  }

  /** Both one-to-one operations change the table only as the lifecycle
      allows. */
  lemma OneToOneMoves(reqs: Requests, games: map<int, GameStats.GameRecord>, users: GameService.Users,
                      userId: int, otherId: int, newId: int, action: Action, newGameId: int)
    requires newId !in reqs && newGameId !in games
    ensures var r := RequestMatch(reqs, users, userId, otherId, newId);
            r.Success? ==> Moves(reqs, r.value) && (NoSelfRequests(reqs) ==> NoSelfRequests(r.value))
    ensures var r := RespondMatch(reqs, games, userId, otherId, action, newGameId);
            r.Success? ==> Moves(reqs, r.value.0) && (NoSelfRequests(reqs) ==> NoSelfRequests(r.value.0))
  {
  }

  // ---------------------------------------------------------------- scores

  /** The winner a submission records: the first seat on a higher first
      score, the second seat on a higher second score, nobody on a tie. */
  function SubmittedWinner(g: GameStats.GameRecord, score1: int, score2: int): (w: Option<int>)
    ensures score1 == score2 ==> w.None?
    ensures score1 > score2 ==> w == Some(g.player1Id)
    ensures score2 > score1 ==> w == g.player2Id
  {
    if score1 > score2 then Some(g.player1Id)
    else if score2 > score1 then g.player2Id
    else None
  }

  /** `POST /remote/:id/submit`: the id is read with `parseInt`; only a
      participant may submit, and only while both stored scores are 0. */
  function SubmitScore(games: map<int, GameStats.GameRecord>, userId: int, id: string, score1: nat, score2: nat)
    : (r: Result<map<int, GameStats.GameRecord>, Reply>)
    ensures r.Success? ==>
              && JsText.ParseInt(id).Some? && JsText.ParseInt(id).value in games
              && var gid := JsText.ParseInt(id).value;
              && var g := games[gid];
              && (g.player1Id == userId || g.player2Id == Some(userId))
              && g.score1 == 0 && g.score2 == 0
              && r.value == games[gid := g.(score1 := score1, score2 := score2,
                                            winnerId := SubmittedWinner(g, score1, score2))]
    ensures JsText.ParseInt(id).None? ==> r == Failure(Reply(400, "Invalid game ID"))
    ensures JsText.ParseInt(id).Some? && JsText.ParseInt(id).value !in games ==>
              r == Failure(Reply(404, "Game not found"))
    ensures JsText.ParseInt(id).Some? && JsText.ParseInt(id).value in games ==>
              var g := games[JsText.ParseInt(id).value];
              && (g.player1Id != userId && g.player2Id != Some(userId) ==>
                    r == Failure(Reply(403, "You are not a participant in this game")))
              && ((g.player1Id == userId || g.player2Id == Some(userId)) && (g.score1 != 0 || g.score2 != 0) ==>
                    r == Failure(Reply(400, "Game scores already submitted")))
              && ((g.player1Id == userId || g.player2Id == Some(userId)) && g.score1 == 0 && g.score2 == 0 ==>
                    r.Success?)
    ensures r.Failure? ==> r.error.code in {400, 403, 404}
  {
    match JsText.ParseInt(id)
    case None => Failure(Reply(400, "Invalid game ID"))
    case Some(gid) =>
      if gid !in games then Failure(Reply(404, "Game not found"))
      else
        var g := games[gid];
        if g.player1Id != userId && g.player2Id != Some(userId) then
          Failure(Reply(403, "You are not a participant in this game"))
        else if g.score1 != 0 || g.score2 != 0 then Failure(Reply(400, "Game scores already submitted"))
        else Success(games[gid := g.(score1 := score1, score2 := score2, winnerId := SubmittedWinner(g, score1, score2))])
  }

  /** A submitted result with a point on the board is final: any later
      submission for that game is refused. */
  lemma SubmitOnce(games: map<int, GameStats.GameRecord>, userId: int, otherId: int, id: string,
                   score1: nat, score2: nat, again1: nat, again2: nat)
    requires SubmitScore(games, userId, id, score1, score2).Success?
    requires score1 != 0 || score2 != 0
    ensures var after := SubmitScore(games, userId, id, score1, score2).value;
            SubmitScore(after, otherId, id, again1, again2).Failure?
  {
  }

  /** A 0-0 submission leaves the game looking unsubmitted, so the same
      participant can submit again and overwrite it. */
  lemma ZeroZeroCanBeResubmitted(games: map<int, GameStats.GameRecord>, userId: int, id: string,
                                 again1: nat, again2: nat)
    requires SubmitScore(games, userId, id, 0, 0).Success?
    ensures var after := SubmitScore(games, userId, id, 0, 0).value;
            SubmitScore(after, userId, id, again1, again2).Success?
  {
  }

  // ---------------------------------------------------------------- listings

  /** The listing filter: the user's requests, in either role, with the
      requested status when one is given. */
  predicate Listed(m: MatchRequest, userId: int, status: Option<RequestStatus>) {
    (m.requesterId == userId || m.recipientId == userId) && (status.None? || m.status == status.value)
  }

  function Min(a: int, b: int): int {
    if a < b then a else b
  }

  /** `GET /remote`: the page of at most `limit` matching rows after the
      first `offset`, the number of matching rows, and whether more rows
      follow (`offset + limit < total`). */
  function ListRequests(rows: seq<MatchRequest>, userId: int, status: Option<RequestStatus>,
                        limit: int, offset: int): (r: (seq<MatchRequest>, nat, bool))
    requires 1 <= limit <= 100 && 0 <= offset
    requires status.None? || status.value in {Pending, Accepted, Declined}
    ensures |r.0| <= limit && r.1 <= |rows|
    ensures r.1 == |Seqs.Filter(rows, m => Listed(m, userId, status))|
    ensures |r.0| == if offset >= r.1 then 0 else Min(limit, r.1 - offset)
    ensures forall i :: 0 <= i < |r.0| ==> r.0[i] == Seqs.Filter(rows, m => Listed(m, userId, status))[offset + i]
    ensures forall i :: 0 <= i < |r.0| ==> r.0[i] in rows && Listed(r.0[i], userId, status)
    ensures r.2 <==> offset + limit < r.1
  {
    var matching := Seqs.Filter(rows, m => Listed(m, userId, status));
    var total := |matching|;
    var page := Page(matching, offset, limit);
    (page, total, offset + limit < total)
  }

  /** The `skip`/`take` window: the rows from position `offset` on, at
      most `limit` of them. */
  function Page<T>(xs: seq<T>, offset: nat, limit: nat): (r: seq<T>)
    ensures |r| == if offset >= |xs| then 0 else Min(limit, |xs| - offset)
    ensures forall i :: 0 <= i < |r| ==> r[i] == xs[offset + i]
  {
    if offset >= |xs| then [] else xs[offset..offset + Min(limit, |xs| - offset)]
  }

  /** `hasMore` says exactly that matching rows remain beyond the page. */
  lemma HasMoreIffRowsRemain(rows: seq<MatchRequest>, userId: int, status: Option<RequestStatus>,
                             limit: int, offset: int)
    requires 1 <= limit <= 100 && 0 <= offset
    requires status.None? || status.value in {Pending, Accepted, Declined}
    ensures var r := ListRequests(rows, userId, status, limit, offset);
            r.2 <==> offset + |r.0| < r.1
    ensures var r := ListRequests(rows, userId, status, limit, offset);
            r.2 ==> |r.0| == limit
  {
    var matching := Seqs.Filter(rows, m => Listed(m, userId, status));
    var total := |matching|;
    var lo := Min(offset, total);
    var hi := Min(offset + limit, total);
    assert ListRequests(rows, userId, status, limit, offset).0 == matching[lo..hi];
    assert |matching[lo..hi]| == hi - lo;
  }

  datatype InviteKind = Sent | Received | Both

  /** The `/invites` filter for one kind. */
  predicate OfKind(m: MatchRequest, userId: int, kind: InviteKind) {
    match kind
    case Sent => m.requesterId == userId
    case Received => m.recipientId == userId
    case Both => m.requesterId == userId || m.recipientId == userId
  }

  /** `GET /invites`: at most 50 of the user's invitations of that kind,
      each labelled "sent" when the user sent it and "received"
      otherwise. */
  function ListInvites(rows: seq<MatchRequest>, userId: int, kind: InviteKind): (r: seq<(MatchRequest, string)>)
    ensures |r| <= 50
    ensures |r| == Min(50, |Seqs.Filter(rows, m => OfKind(m, userId, kind))|)
    ensures forall i :: 0 <= i < |r| ==> r[i].0 == Seqs.Filter(rows, m => OfKind(m, userId, kind))[i]
    ensures forall i :: 0 <= i < |r| ==> r[i].0 in rows && OfKind(r[i].0, userId, kind)
    ensures forall i :: 0 <= i < |r| ==> r[i].1 == (if r[i].0.requesterId == userId then "sent" else "received")
  {
    var kept := Seqs.Filter(rows, m => OfKind(m, userId, kind));
    var page := kept[..Min(50, |kept|)];
    seq(|page|, i requires 0 <= i < |page| =>
      (page[i], if page[i].requesterId == userId then "sent" else "received"))
  }

  /** The label agrees with the user's role: "sent" rows were sent by the
      user and "received" rows were addressed to them. */
  lemma InviteLabelsMatchRole(rows: seq<MatchRequest>, userId: int, kind: InviteKind)
    ensures var r := ListInvites(rows, userId, kind);
            forall i :: 0 <= i < |r| ==>
              (r[i].1 == "sent" <==> r[i].0.requesterId == userId)
              && (r[i].1 == "received" ==> r[i].0.recipientId == userId)
  {
    var r := ListInvites(rows, userId, kind);
    forall i | 0 <= i < |r|
      ensures (r[i].1 == "sent" <==> r[i].0.requesterId == userId)
      ensures r[i].1 == "received" ==> r[i].0.recipientId == userId
    {
      assert OfKind(r[i].0, userId, kind);
      assert "sent" != "received";
    }
  }
}

=== FILE: matchmaking.dfy ===
/** The lightweight match service: a first-come first-served queue of
    waiting user ids, and the matches it pairs, each with two paddles
    moved in fixed steps on a 500-pixel-tall canvas. The match id, built
    from the clock and a random suffix, is a parameter. */
module Matchmaking {
  import opened Wrappers

  type Queue = seq<int>

  predicate NoDuplicates(q: Queue) {
    forall i, j :: 0 <= i < j < |q| ==> q[i] != q[j]
  }

  /** `addToMatchmaking`: appends the user unless already queued. */
  function Add(q: Queue, userId: int): (r: Queue)
    ensures userId in r
    ensures userId in q ==> r == q
    ensures userId !in q ==> r == q + [userId]
  {
    if userId in q then q else q + [userId]
  }

  /** The queue never holds a user twice. */
  lemma AddKeepsNoDuplicates(q: Queue, userId: int)
    requires NoDuplicates(q)
    ensures NoDuplicates(Add(q, userId))
  {
  }

  /** Position of the first occurrence, as `indexOf` reports it. */
  function IndexOf(q: Queue, userId: int): (r: Option<nat>)
    ensures r.None? <==> userId !in q
    ensures r.Some? ==> r.value < |q| && q[r.value] == userId && userId !in q[..r.value]
  {
    if |q| == 0 then None
    else if q[0] == userId then Some(0)
    else match IndexOf(q[1..], userId)
      case None => None
      case Some(i) =>
        assert q[..i + 1] == [q[0]] + q[1..][..i];
        Some(i + 1)
  }

  /** `removeFromMatchmaking`: splices out the first occurrence, if any. */
  function Remove(q: Queue, userId: int): (r: Queue)
    ensures userId !in q ==> r == q
    ensures userId in q ==> |r| == |q| - 1
    ensures NoDuplicates(q) ==> userId !in r
    ensures forall x :: x != userId ==> (x in r <==> x in q)
  {
    match IndexOf(q, userId)
    case None => q
    case Some(i) =>
      var r := q[..i] + q[i + 1..];
      assert q == q[..i] + [userId] + q[i + 1..];
      assert forall k :: i + 1 <= k < |q| ==> q[k] == q[i + 1..][k - i - 1];
      r
  }

  /** The ids left keep their relative order: removing a user just added
      restores the queue. */
  lemma RemoveUndoesAdd(q: Queue, userId: int)
    requires userId !in q
    ensures Remove(Add(q, userId), userId) == q
  {
    var a := q + [userId];
    assert forall k :: 0 <= k < |q| ==> a[k] == q[k];
    assert a[..|q|] == q;
  }

  /** Removal keeps the rest of the queue in order: what remains is the
      queue with that one entry cut out. */
  lemma RemoveKeepsOrder(q: Queue, userId: int)
    requires userId in q
    ensures exists i :: 0 <= i < |q| && q[i] == userId && userId !in q[..i]
                        && Remove(q, userId) == q[..i] + q[i + 1..]
  {
    var i := IndexOf(q, userId).value;
    assert q[i] == userId && userId !in q[..i];
  }

  /** `findMatch`: with two or more waiting, the two oldest are paired and
      leave the queue; otherwise nothing happens. */
  function FindMatch(q: Queue): (r: (Option<(int, int)>, Queue))
    ensures |q| >= 2 ==> r.0 == Some((q[0], q[1])) && [q[0], q[1]] + r.1 == q
    ensures |q| < 2 ==> r == (None, q)
  {
    if |q| >= 2 then
      assert [q[0], q[1]] + q[2..] == q;
      (Some((q[0], q[1])), q[2..])
    else (None, q)
  }

  /** A pair drawn from a duplicate-free queue is two different users, and
      the rest of the queue stays duplicate free. */
  lemma FindMatchDistinct(q: Queue)
    requires NoDuplicates(q) && |q| >= 2
    ensures FindMatch(q).0.value.0 != FindMatch(q).0.value.1
    ensures NoDuplicates(FindMatch(q).1)
    ensures FindMatch(q).0.value.0 !in FindMatch(q).1 && FindMatch(q).0.value.1 !in FindMatch(q).1
  {
    var rest := FindMatch(q).1;
    assert rest == q[2..];
    forall k | 0 <= k < |rest| ensures rest[k] != q[0] && rest[k] != q[1] {
      assert rest[k] == q[k + 2];
    }
  }

  // ---------------------------------------------------------------- matches

  datatype MatchStatus = MatchWaiting | MatchPlaying | MatchFinished

  datatype Match = Match(
    id: string,
    player1Id: int,
    player2Id: int,
    ballX: int,
    ballY: int,
    ballSpeedX: int,
    ballSpeedY: int,
    paddle1Y: int,
    paddle2Y: int,
    score1: int,
    score2: int,
    status: MatchStatus)

  const PaddleSpeed := 8
  const CanvasHeight := 500
  const PaddleHeight := 100

  /** The highest paddle position, `CANVAS_HEIGHT - PADDLE_HEIGHT`. */
  const PaddleTop := CanvasHeight - PaddleHeight

  type Matches = map<string, Match>

  /** `createGame`: a new match is playing from the start, 0-0, both
      paddles at 200 and the ball at (400, 250) moving (5, 3). */
  function CreateMatch(ms: Matches, id: string, player1Id: int, player2Id: int): (r: (Matches, Match))
    ensures r.1.status == MatchPlaying && r.1.score1 == 0 && r.1.score2 == 0
    ensures r.1.paddle1Y == 200 && r.1.paddle2Y == 200
    ensures (r.1.ballX, r.1.ballY, r.1.ballSpeedX, r.1.ballSpeedY) == (400, 250, 5, 3)
    ensures r.1.player1Id == player1Id && r.1.player2Id == player2Id && r.1.id == id
    ensures r.0 == ms[id := r.1]
  {
    var m := Match(id, player1Id, player2Id, 400, 250, 5, 3, 200, 200, 0, 0, MatchPlaying);
    (ms[id := m], m)
  }

  /** A move request: up, down, or any other value, which is ignored. */
  datatype Direction = Up | Down | Other

  /** One step of a paddle: up while above the top edge, down while below
      the lowest position, never past either. */
  function StepPaddle(y: int, dir: Direction): (r: int)
    ensures 0 <= y <= PaddleTop ==> 0 <= r <= PaddleTop
    ensures dir == Up && y > 0 ==> r == (if y - PaddleSpeed < 0 then 0 else y - PaddleSpeed)
    ensures dir == Down && y < PaddleTop ==> r == (if y + PaddleSpeed > PaddleTop then PaddleTop else y + PaddleSpeed)
    ensures dir == Other || (dir == Up && y <= 0) || (dir == Down && y >= PaddleTop) ==> r == y
  {
    if dir == Up && y > 0 then
      if 0 > y - PaddleSpeed then 0 else y - PaddleSpeed
    else if dir == Down && y < PaddleTop then
      if PaddleTop < y + PaddleSpeed then PaddleTop else y + PaddleSpeed
    else y
  }

  /** `updatePaddle`: moves the caller's paddle in a playing match; player
      one's seat is checked first. */
  function UpdatePaddle(ms: Matches, id: string, playerId: int, dir: Direction): (r: Matches)
    ensures id !in ms || ms[id].status != MatchPlaying ==> r == ms
    ensures id in ms && ms[id].status == MatchPlaying ==>
              && r.Keys == ms.Keys
              && (forall k :: k in ms && k != id ==> r[k] == ms[k])
              && (ms[id].player1Id == playerId ==>
                    r[id] == ms[id].(paddle1Y := StepPaddle(ms[id].paddle1Y, dir)))
              && (ms[id].player1Id != playerId && ms[id].player2Id == playerId ==>
                    r[id] == ms[id].(paddle2Y := StepPaddle(ms[id].paddle2Y, dir)))
              && (ms[id].player1Id != playerId && ms[id].player2Id != playerId ==> r == ms)
  {
    if id !in ms || ms[id].status != MatchPlaying then ms
    else
      var m := ms[id];
      if m.player1Id == playerId then ms[id := m.(paddle1Y := StepPaddle(m.paddle1Y, dir))]
      else if m.player2Id == playerId then ms[id := m.(paddle2Y := StepPaddle(m.paddle2Y, dir))]
      else ms
  }

  predicate PaddlesOnCanvas(m: Match) {
    0 <= m.paddle1Y <= PaddleTop && 0 <= m.paddle2Y <= PaddleTop
  }

  /** Paddles that start on the canvas stay on it, whoever moves. */
  lemma UpdateKeepsPaddlesOnCanvas(ms: Matches, id: string, playerId: int, dir: Direction)
    requires forall k :: k in ms ==> PaddlesOnCanvas(ms[k])
    ensures var r := UpdatePaddle(ms, id, playerId, dir);
            forall k :: k in r ==> PaddlesOnCanvas(r[k])
  {
  }

  /** `removeGame`. */
  function RemoveMatch(ms: Matches, id: string): (r: Matches)
    ensures id !in r && forall k :: k in ms && k != id ==> k in r && r[k] == ms[k]
    ensures r.Keys <= ms.Keys
  {
    ms - {id}
  }
}

=== FILE: monitoring.dfy ===
/** The monitoring service: request and error counters, the bounded buffer
    of response times and its rounded average, the security counters, the
    snapshots the collector takes, and the health verdict drawn from the
    latest one. Clock readings and the process's heap figures are
    parameters; durations are whole milliseconds. */
module Monitoring {
  import opened Wrappers
  import Logger
  import Seqs

  const MaxResponseTimes := 1000

  /** `addResponseTime`: append, then keep only the last thousand. */
  function AddResponseTime(buf: seq<int>, d: int): (r: seq<int>)
    ensures |r| > 0 && r[|r| - 1] == d
    ensures |buf| < MaxResponseTimes ==> r == buf + [d]
    ensures |buf| >= MaxResponseTimes ==> |r| == MaxResponseTimes
  {
    var all := buf + [d];
    if |all| > MaxResponseTimes then
      assert all[|all| - MaxResponseTimes..][MaxResponseTimes - 1] == d;
      all[|all| - MaxResponseTimes..]
    else
      assert all == all[0..];
      all
  }

  /** Durations added one after another, oldest first. */
  function AddAll(buf: seq<int>, ds: seq<int>): seq<int>
    decreases |ds|
  {
    if |ds| == 0 then buf else AddResponseTime(AddAll(buf, ds[..|ds| - 1]), ds[|ds| - 1])
  }

  function Min(a: int, b: int): int { if a < b then a else b }

  /** One addition keeps the last thousand of what came before plus the
      new duration. */
  lemma AddKeepsSuffix(buf: seq<int>, d: int)
    ensures AddResponseTime(buf, d) == (buf + [d])[|buf| + 1 - Min(|buf| + 1, MaxResponseTimes)..]
  {
  }

  /** Starting empty, the buffer always holds exactly the most recent
      thousand durations (or all of them), in arrival order. */
  lemma {:induction false} BufferHoldsLatest(ds: seq<int>)
    ensures AddAll([], ds) == ds[|ds| - Min(|ds|, MaxResponseTimes)..]
    decreases |ds|
  {
    if |ds| > 0 {
      var n := |ds| - 1;
      var front := ds[..n];
      BufferHoldsLatest(front);
      var a := n - Min(n, MaxResponseTimes);
      var buf := AddAll([], front);
      assert AddAll([], ds) == AddResponseTime(buf, ds[n]);
      assert buf == front[a..];
      assert |buf| == Min(n, MaxResponseTimes);
      assert buf + [ds[n]] == ds[a..];
      AddKeepsSuffix(buf, ds[n]);
      var b := |buf| + 1 - Min(|buf| + 1, MaxResponseTimes);
      assert a + b == |ds| - Min(|ds|, MaxResponseTimes);
      assert ds[a..][b..] == ds[a + b..];
    }
  }

  function Sum(s: seq<int>): int
    decreases |s|
  {
    if |s| == 0 then 0 else s[0] + Sum(s[1..])
  }

  /** `calculateAverageResponseTime`: 0 when empty, otherwise the mean
      rounded as `Math.round` does, halves upward. */
  function Average(buf: seq<int>): (r: int)
    ensures |buf| == 0 ==> r == 0
    ensures |buf| > 0 ==> 2 * Sum(buf) - |buf| < 2 * |buf| * r <= 2 * Sum(buf) + |buf|
  {
    if |buf| == 0 then 0
    else
      var n := |buf|;
      var r := (2 * Sum(buf) + n) / (2 * n);
      DivBounds(2 * Sum(buf) + n, 2 * n);
      r
  }

  lemma DivBounds(a: int, d: int)
    requires d > 0
    ensures d * (a / d) <= a < d * (a / d) + d
  {
  }

  lemma {:induction false} SumBounds(s: seq<int>, lo: int, hi: int)
    requires forall i :: 0 <= i < |s| ==> lo <= s[i] <= hi
    ensures |s| * lo <= Sum(s) <= |s| * hi
    decreases |s|
  {
    if |s| > 0 {
      SumBounds(s[1..], lo, hi);
    }
  }

  lemma MulLe(c: int, a: int, b: int)
    requires c >= 0 && a <= b
    ensures c * a <= c * b
  {
    assert c * b - c * a == c * (b - a);
  }

  /** The arithmetic behind the range: a rounded mean of a sum between
      `n * lo` and `n * hi` stays between `lo` and `hi`. */
  lemma RoundedMeanBounds(s: int, n: int, r: int, lo: int, hi: int)
    requires n > 0 && n * lo <= s <= n * hi
    requires 2 * s - n < 2 * n * r <= 2 * s + n
    ensures lo <= r <= hi
  {
    assert (2 * n) * (lo - 1) == 2 * (n * lo) - 2 * n;
    assert (2 * n) * (hi + 1) == 2 * (n * hi) + 2 * n;
    if r < lo {
      MulLe(2 * n, r, lo - 1);
    }
    if r > hi {
      MulLe(2 * n, hi + 1, r);
    }
  }

  /** The average lies between the smallest and the largest duration. */
  lemma AverageWithinRange(buf: seq<int>, lo: int, hi: int)
    requires |buf| > 0
    requires forall i :: 0 <= i < |buf| ==> lo <= buf[i] <= hi
    ensures lo <= Average(buf) <= hi
  {
    SumBounds(buf, lo, hi);
    RoundedMeanBounds(Sum(buf), |buf|, Average(buf), lo, hi);
  }

  // -------------------------------------------------------------- security

  datatype SecurityMetrics = SecurityMetrics(failedLogins: nat, unauthorizedAccess: nat, rateLimitViolations: nat,
                                             blockedIPs: set<string>, suspiciousActivity: nat)

  const NoEvents := SecurityMetrics(0, 0, 0, {}, 0)

  datatype SecurityEvent = FailedLogin | UnauthorizedAccess | SuspiciousActivity

  function EventName(e: SecurityEvent): string {
    match e
    case FailedLogin => "FAILED_LOGIN"
    case UnauthorizedAccess => "UNAUTHORIZED_ACCESS"
    case SuspiciousActivity => "SUSPICIOUS_ACTIVITY"
  }

  /** The counter an event feeds. */
  function Count(s: SecurityMetrics, e: SecurityEvent): nat {
    match e
    case FailedLogin => s.failedLogins
    case UnauthorizedAccess => s.unauthorizedAccess
    case SuspiciousActivity => s.suspiciousActivity
  }

  /** The counters of `recordSecurityEvent`: its own goes up by one, the
      others stay, and a non-empty address joins `blockedIPs`. */
  function CountEvent(s: SecurityMetrics, e: SecurityEvent, ip: Option<string>): (r: SecurityMetrics)
    ensures forall k :: Count(r, k) == Count(s, k) + (if k == e then 1 else 0)
    ensures r.rateLimitViolations == s.rateLimitViolations
    ensures r.blockedIPs == s.blockedIPs + (if ip.Some? && |ip.value| > 0 then {ip.value} else {})
  {
    var t := match e
      case FailedLogin => s.(failedLogins := s.failedLogins + 1)
      case UnauthorizedAccess => s.(unauthorizedAccess := s.unauthorizedAccess + 1)
      case SuspiciousActivity => s.(suspiciousActivity := s.suspiciousActivity + 1);
    if ip.Some? && |ip.value| > 0 then t.(blockedIPs := t.blockedIPs + {ip.value}) else t
  }

  // -------------------------------------------------------------- snapshots

  /** A snapshot: when it was taken (ms), the heap figures, the counters
      and the average at that moment. */
  datatype Snapshot = Snapshot(time: int, heapUsed: real, heapTotal: real, activeConnections: int,
                               requestCount: nat, errorCount: nat, avgResponseTime: int)

  datatype Monitor = Monitor(requestCount: nat, errorCount: nat, responseTimes: seq<int>, activeConnections: int,
                             rateLimitHits: nat, security: SecurityMetrics, metrics: seq<Snapshot>)

  const Fresh := Monitor(0, 0, [], 0, 0, NoEvents, [])

  /** `recordSecurityEvent`: the counters, and a MEDIUM security line with
      no user. `json` is the text of the totals it records. */
  function RecordSecurityEvent(m: Monitor, f: Logger.Files, threshold: Logger.Level, ts: string, e: SecurityEvent,
                               ip: Option<string>, json: string): (r: (Monitor, Logger.Files))
    ensures r.0 == m.(security := CountEvent(m.security, e, ip))
    ensures r.1.security == f.security + [Logger.SecurityLine(ts, EventName(e), Logger.Medium, None, ip, json)]
    ensures r.1.errors == f.errors
  {
    (m.(security := CountEvent(m.security, e, ip)),
     Logger.Security(f, threshold, ts, EventName(e), Logger.Medium, None, ip, json))
  }

  /** `incrementRateLimitHits`: both rate-limit counters, nothing else. */
  function IncrementRateLimitHits(m: Monitor): (r: Monitor)
    ensures r.rateLimitHits == m.rateLimitHits + 1
    ensures r.security.rateLimitViolations == m.security.rateLimitViolations + 1
    ensures forall k :: Count(r.security, k) == Count(m.security, k)
    ensures r.security.blockedIPs == m.security.blockedIPs
    ensures r.(rateLimitHits := m.rateLimitHits, security := m.security) == m
  {
    m.(rateLimitHits := m.rateLimitHits + 1,
       security := m.security.(rateLimitViolations := m.security.rateLimitViolations + 1))
  }

  function IncrementRequestCount(m: Monitor): (r: Monitor)
    ensures r.requestCount == m.requestCount + 1 && r.(requestCount := m.requestCount) == m
  {
    m.(requestCount := m.requestCount + 1)
  }

  function IncrementErrorCount(m: Monitor): (r: Monitor)
    ensures r.errorCount == m.errorCount + 1 && r.(errorCount := m.errorCount) == m
  {
    m.(errorCount := m.errorCount + 1)
  }

  /** `resetDailyCounters`: every counter and the buffer back to the
      start, the snapshots kept. */
  function ResetDailyCounters(m: Monitor): (r: Monitor)
    ensures r == Fresh.(activeConnections := m.activeConnections, metrics := m.metrics)
    ensures forall k :: Count(r.security, k) == 0
    ensures r.security.blockedIPs == {}
  {
    Monitor(0, 0, [], m.activeConnections, 0, NoEvents, m.metrics)
  }

  /** `collectSystemMetrics`: a snapshot of the current counters and
      average. */
  function Collect(m: Monitor, time: int, heapUsed: real, heapTotal: real): (r: Monitor)
    ensures Latest(r) == Some(Snapshot(time, heapUsed, heapTotal, m.activeConnections, m.requestCount,
                                       m.errorCount, Average(m.responseTimes)))
    ensures |r.metrics| == |m.metrics| + 1 && r.metrics[..|m.metrics|] == m.metrics
  {
    m.(metrics := m.metrics + [Snapshot(time, heapUsed, heapTotal, m.activeConnections, m.requestCount,
                                        m.errorCount, Average(m.responseTimes))])
  }

  /** `getLatestMetrics`. */
  function Latest(m: Monitor): (r: Option<Snapshot>)
    ensures r.None? <==> |m.metrics| == 0
    ensures r.Some? ==> r.value in m.metrics && r.value == m.metrics[|m.metrics| - 1]
  {
    if |m.metrics| > 0 then Some(m.metrics[|m.metrics| - 1]) else None
  }

  /** The snapshots taken after `cutoff`, in order: `cleanupOldMetrics`
      with the retention cut and `getMetricsHistory` with its own. */
  function TakenAfter(ms: seq<Snapshot>, cutoff: int): (r: seq<Snapshot>)
    ensures forall s :: s in r <==> s in ms && s.time > cutoff
    ensures |r| <= |ms|
    decreases |ms|
  {
    if |ms| == 0 then []
    else
      var rest := TakenAfter(ms[..|ms| - 1], cutoff);
      var last := ms[|ms| - 1];
      assert ms == ms[..|ms| - 1] + [last];
      if last.time > cutoff then rest + [last] else rest
  }

  /** Cutting twice keeps what the later cut keeps. */
  lemma {:induction false} CutsCompose(ms: seq<Snapshot>, c1: int, c2: int)
    requires c1 <= c2
    ensures TakenAfter(TakenAfter(ms, c1), c2) == TakenAfter(ms, c2)
    decreases |ms|
  {
    if |ms| > 0 {
      var front := ms[..|ms| - 1];
      var last := ms[|ms| - 1];
      CutsCompose(front, c1, c2);
      var once := TakenAfter(front, c1);
      if last.time > c1 {
        assert (once + [last])[..|once + [last]| - 1] == once;
      }
    }
  }

  const RetentionMs := 24 * 60 * 60 * 1000

  /** The kept snapshots are the history filtered by time: every recent
      one, as often as recorded, in the order taken. */
  lemma {:induction false} TakenAfterInOrder(ms: seq<Snapshot>, cutoff: int)
    ensures TakenAfter(ms, cutoff) == Seqs.Filter(ms, (s: Snapshot) => s.time > cutoff)
    decreases |ms|
  {
    if |ms| > 0 {
      var front := ms[..|ms| - 1];
      var last := ms[|ms| - 1];
      assert ms == front + [last];
      TakenAfterSnoc(front, last, cutoff);
      TakenAfterInOrder(front, cutoff);
      Seqs.FilterAppend(front, [last], (s: Snapshot) => s.time > cutoff);
      Seqs.FilterSingle(last, (s: Snapshot) => s.time > cutoff);
    }
  }

  lemma TakenAfterSnoc(front: seq<Snapshot>, last: Snapshot, cutoff: int)
    ensures TakenAfter(front + [last], cutoff) ==
              TakenAfter(front, cutoff) + (if last.time > cutoff then [last] else [])
  {
    assert (front + [last])[..|front|] == front;
  }

  /** `cleanupOldMetrics`: drop snapshots older than a day and, at the
      stroke of midnight, reset the daily counters. */
  function CleanupOldMetrics(m: Monitor, now: int, hours: int, minutes: int): (r: Monitor)
    ensures forall s :: s in r.metrics <==> s in m.metrics && s.time > now - RetentionMs
    ensures r.metrics == TakenAfter(m.metrics, now - RetentionMs)
    ensures hours == 0 && minutes == 0 ==> r == ResetDailyCounters(m.(metrics := r.metrics))
    ensures !(hours == 0 && minutes == 0) ==> r == m.(metrics := r.metrics)
  {
    var kept := m.(metrics := TakenAfter(m.metrics, now - RetentionMs));
    if hours == 0 && minutes == 0 then ResetDailyCounters(kept) else kept
  }

  // ----------------------------------------------------------------- health

  /** The error rate in percent; 0 before any request. */
  function ErrorRate(requestCount: nat, errorCount: nat): (r: real)
    ensures requestCount == 0 ==> r == 0.0
    ensures requestCount > 0 ==> r * requestCount as real == 100.0 * errorCount as real
  {
    if requestCount > 0 then (errorCount as real / requestCount as real) * 100.0 else 0.0
  }

  predicate MemoryPasses(s: Snapshot)
    requires s.heapTotal > 0.0
  {
    (s.heapUsed / s.heapTotal) * 100.0 < 85.0
  }

  datatype Status = Healthy | Warning | Critical

  datatype CheckResult = CheckResult(name: string, pass: bool)

  datatype Health = Health(status: Status, checks: seq<CheckResult>)

  /** `getHealthStatus`: the three checks on the latest snapshot and the
      service's current counters; critical when any fails. V8 always
      reports a positive heap total. */
  function HealthStatus(m: Monitor): (r: Health)
    requires Latest(m).Some? ==> Latest(m).value.heapTotal > 0.0
    ensures Latest(m).None? ==> r == Health(Healthy, [])
    ensures Latest(m).Some? ==> var s := Latest(m).value;
              r.checks == [CheckResult("memory", MemoryPasses(s)),
                           CheckResult("responseTime", s.avgResponseTime < 5000),
                           CheckResult("errorRate", ErrorRate(m.requestCount, m.errorCount) < 10.0)]
    ensures r.status == Critical <==> exists i :: 0 <= i < |r.checks| && !r.checks[i].pass
    ensures r.status != Warning
  {
    match Latest(m)
    case None => Health(Healthy, [])
    case Some(s) =>
      var checks := [CheckResult("memory", MemoryPasses(s)),
                     CheckResult("responseTime", s.avgResponseTime < 5000),
                     CheckResult("errorRate", ErrorRate(m.requestCount, m.errorCount) < 10.0)];
      var failing := !checks[0].pass || !checks[1].pass || !checks[2].pass;
      assert failing <==> exists i :: 0 <= i < |checks| && !checks[i].pass;
      Health(if failing then Critical else Healthy, checks)
  }

  datatype Alert = HighMemory | SlowResponses | HighErrorRate

  /** `checkAlerts`: strict thresholds, where the health checks fail at the
      threshold itself. */
  function Alerts(s: Snapshot, requestCount: nat, errorCount: nat): (r: set<Alert>)
    requires s.heapTotal > 0.0
    ensures HighMemory in r <==> (s.heapUsed / s.heapTotal) * 100.0 > 85.0
    ensures SlowResponses in r <==> s.avgResponseTime > 5000
    ensures HighErrorRate in r <==> ErrorRate(requestCount, errorCount) > 10.0
  {
    (if (s.heapUsed / s.heapTotal) * 100.0 > 85.0 then {HighMemory} else {})
    + (if s.avgResponseTime > 5000 then {SlowResponses} else {})
    + (if ErrorRate(requestCount, errorCount) > 10.0 then {HighErrorRate} else {})
  }

  /** Any alert on the latest snapshot means the service reports itself
      critical; the converse fails exactly at the thresholds. */
  lemma AlertMeansCritical(m: Monitor)
    requires Latest(m).Some? && Latest(m).value.heapTotal > 0.0
    requires |Alerts(Latest(m).value, m.requestCount, m.errorCount)| > 0
    ensures HealthStatus(m).status == Critical
  {
    var s := Latest(m).value;
    var a := Alerts(s, m.requestCount, m.errorCount);
    var x :| x in a;
    var checks := HealthStatus(m).checks;
    match x
    case HighMemory => assert !checks[0].pass;
    case SlowResponses => assert !checks[1].pass;
    case HighErrorRate => assert !checks[2].pass;
  }

  /** A snapshot at exactly 5000 ms average fails its check without raising
      an alert. */
  lemma ThresholdCriticalWithoutAlert(m: Monitor, s: Snapshot)
    requires s.heapTotal > 0.0 && s.avgResponseTime == 5000
    ensures var m' := m.(metrics := m.metrics + [s]);
            HealthStatus(m').status == Critical && SlowResponses !in Alerts(s, m.requestCount, m.errorCount)
  {
    var m' := m.(metrics := m.metrics + [s]);
    assert !HealthStatus(m').checks[1].pass;
  }

  /** After the daily reset the error-rate check passes and the average is
      0, whatever came before. */
  lemma ResetClearsRates(m: Monitor)
    ensures var r := ResetDailyCounters(m);
            ErrorRate(r.requestCount, r.errorCount) == 0.0 && Average(r.responseTimes) == 0
  {
  }
}

=== FILE: ordered_map.dfy ===
/** JavaScript `Map` semantics: a finite map that remembers insertion order.
    `set` on a present key replaces the value in place, `set` on an absent key
    appends, `delete` removes the entry, and iteration follows the order of
    the entries. */
module OrderedMap {
  import opened Wrappers
  import Seqs

  type OMap<K, V> = seq<(K, V)>

  /** Keys occur at most once (every map built with `Set` keeps this). */
  ghost predicate DistinctKeys<K, V>(m: OMap<K, V>) {
    forall i, j :: 0 <= i < j < |m| ==> m[i].0 != m[j].0
  }

  predicate Has<K(==), V>(m: OMap<K, V>, k: K) {
    exists i :: 0 <= i < |m| && m[i].0 == k
  }

  /** Position of the first entry whose key is `k`. */
  function IndexOf<K(==), V>(m: OMap<K, V>, k: K): (r: Option<nat>)
    ensures r.Some? ==> r.value < |m| && m[r.value].0 == k
    ensures r.Some? ==> forall j :: 0 <= j < r.value ==> m[j].0 != k
    ensures r.None? <==> !Has(m, k)
  {
    if |m| == 0 then None
    else if m[0].0 == k then Some(0)
    else match IndexOf(m[1..], k)
      case None => None
      case Some(i) => Some(i + 1)
  }

  /** The first occurrence of a key is where `IndexOf` finds it. */
  lemma IndexOfFirst<K, V>(m: OMap<K, V>, k: K, i: nat)
    requires i < |m| && m[i].0 == k
    requires forall j :: 0 <= j < i ==> m[j].0 != k
    ensures IndexOf(m, k) == Some(i)
  {
    assert Has(m, k);
  }

  /** `map.get(k)`, with `None` for `undefined`. */
  function Get<K(==), V>(m: OMap<K, V>, k: K): (r: Option<V>)
    ensures r.Some? <==> Has(m, k)
  {
    match IndexOf(m, k)
    case None => None
    case Some(i) => Some(m[i].1)
  }

  /** `map.set(k, v)`: in place when the key is present, appended otherwise. */
  function Set<K(==), V>(m: OMap<K, V>, k: K, v: V): (r: OMap<K, V>)
    ensures Has(m, k) ==> |r| == |m|
    ensures !Has(m, k) ==> |r| == |m| + 1 && r[|m|] == (k, v) && r[..|m|] == m
    ensures forall i :: 0 <= i < |m| ==> r[i].0 == m[i].0
    ensures forall i :: 0 <= i < |m| && m[i].0 != k ==> r[i] == m[i]
    ensures Get(r, k) == Some(v)
  {
    match IndexOf(m, k)
    case Some(i) =>
      var r := m[i := (k, v)];
      IndexOfFirst(r, k, i);
      r
    case None =>
      var r := m + [(k, v)];
      IndexOfFirst(r, k, |m|);
      r
  }

  /** `map.delete(k)`: the entries with other keys, in their order. */
  function Delete<K(==), V>(m: OMap<K, V>, k: K): (r: OMap<K, V>)
    ensures forall i :: 0 <= i < |r| ==> r[i] in m && r[i].0 != k
    ensures forall i :: 0 <= i < |m| && m[i].0 != k ==> m[i] in r
    ensures |r| <= |m|
  {
    if |m| == 0 then []
    else if m[0].0 == k then
      var r := Delete(m[1..], k);
      assert forall i :: 1 <= i < |m| ==> m[i] == m[1..][i - 1];
      r
    else
      var rest := Delete(m[1..], k);
      assert forall i :: 1 <= i < |m| ==> m[i] == m[1..][i - 1];
      [m[0]] + rest
  }

  /** `Delete` keeps the other entries in their insertion order: it is the
      order-preserving filter that drops the entries under `k`. */
  lemma {:induction false} DeleteIsFilter<K(!new), V(!new)>(m: OMap<K, V>, k: K)
    ensures Delete(m, k) == Seqs.Filter(m, (e: (K, V)) => e.0 != k)
    decreases |m|
  {
    if |m| != 0 {
      DeleteIsFilter(m[1..], k);
    }
  }

  /** After `Delete`, exactly the other keys remain. */
  lemma DeleteHas<K, V>(m: OMap<K, V>, k: K, k': K)
    ensures Has(Delete(m, k), k') <==> Has(m, k') && k' != k
  {
    var r := Delete(m, k);
    if Has(m, k') && k' != k {
      var i :| 0 <= i < |m| && m[i].0 == k';
      assert m[i] in r;
    }
    if Has(r, k') {
      var i :| 0 <= i < |r| && r[i].0 == k';
      assert r[i] in m;
    }
  }

  lemma {:induction false} SetKeepsDistinct<K, V>(m: OMap<K, V>, k: K, v: V)
    requires DistinctKeys(m)
    ensures DistinctKeys(Set(m, k, v))
  {
  }

  lemma {:induction false} DeleteKeepsDistinct<K, V>(m: OMap<K, V>, k: K)
    requires DistinctKeys(m)
    ensures DistinctKeys(Delete(m, k))
    decreases |m|
  {
    if |m| != 0 {
      var tail := m[1..];
      assert DistinctKeys(tail);
      DeleteKeepsDistinct(tail, k);
      if m[0].0 != k {
        var rest := Delete(tail, k);
        assert Delete(m, k) == [m[0]] + rest;
        assert forall i :: 0 <= i < |tail| ==> tail[i].0 != m[0].0 by {
          forall i | 0 <= i < |tail| ensures tail[i].0 != m[0].0 {
            assert tail[i] == m[i + 1];
          }
        }
        assert forall i :: 0 <= i < |rest| ==> rest[i].0 != m[0].0 by {
          forall i | 0 <= i < |rest| ensures rest[i].0 != m[0].0 {
            assert rest[i] in tail;
          }
        }
        ConsDistinct(m[0], rest);
      }
    }
  }

  lemma ConsDistinct<K, V>(e: (K, V), rest: OMap<K, V>)
    requires DistinctKeys(rest)
    requires forall i :: 0 <= i < |rest| ==> rest[i].0 != e.0
    ensures DistinctKeys([e] + rest)
  {
    var r := [e] + rest;
    forall i, j | 0 <= i < j < |r| ensures r[i].0 != r[j].0 {
      assert r[j] == rest[j - 1];
      if i > 0 {
        assert r[i] == rest[i - 1];
      }
    }
  }

  /** With distinct keys, the value stored at a position is what `Get` finds. */
  lemma GetAt<K, V>(m: OMap<K, V>, i: nat)
    requires DistinctKeys(m) && i < |m|
    ensures Get(m, m[i].0) == Some(m[i].1)
  {
    IndexOfFirst(m, m[i].0, i);
  }

  /** `Set` leaves every other key's lookup as it was. */
  lemma GetSetOther<K, V>(m: OMap<K, V>, k: K, v: V, k': K)
    requires k' != k
    ensures Get(Set(m, k, v), k') == Get(m, k')
  {
    var r := Set(m, k, v);
    if Has(m, k') {
      var a := IndexOf(m, k').value;
      IndexOfFirst(r, k', a);
    } else {
      assert !Has(r, k');
    }
  }

  /** `Delete` leaves every other key's lookup as it was. */
  lemma {:induction false} GetDeleteOther<K, V>(m: OMap<K, V>, k: K, k': K)
    requires k' != k
    ensures Get(Delete(m, k), k') == Get(m, k')
    decreases |m|
  {
    if |m| != 0 {
      GetDeleteOther(m[1..], k, k');
      if m[0].0 == k {
        assert Get(m, k') == Get(m[1..], k');
      } else if m[0].0 == k' {
        assert Delete(m, k)[0] == m[0];
      } else {
        var r := Delete(m, k);
        assert r == [m[0]] + Delete(m[1..], k);
        assert r[1..] == Delete(m[1..], k);
        assert Get(r, k') == Get(r[1..], k');
        assert Get(m, k') == Get(m[1..], k');
      }
    }
  }

  /** Deleting an absent key changes nothing. */
  lemma {:induction false} DeleteAbsent<K, V>(m: OMap<K, V>, k: K)
    requires !Has(m, k)
    ensures Delete(m, k) == m
    decreases |m|
  {
    if |m| != 0 {
      assert !Has(m[1..], k) by {
        forall i | 0 <= i < |m[1..]| ensures m[1..][i].0 != k {
          assert m[1..][i] == m[i + 1];
        }
      }
      DeleteAbsent(m[1..], k);
      assert [m[0]] + m[1..] == m;
    }
  }

  /** Deleting twice is deleting once. */
  lemma DeleteIdempotent<K, V>(m: OMap<K, V>, k: K)
    ensures Delete(Delete(m, k), k) == Delete(m, k)
  {
    DeleteHas(m, k, k);
    DeleteAbsent(Delete(m, k), k);
  }

  /** `Array.from(map.values())`: the values in iteration order. */
  function Values<K, V>(m: OMap<K, V>): (r: seq<V>)
    ensures |r| == |m|
    ensures forall i :: 0 <= i < |m| ==> r[i] == m[i].1
  {
    seq(|m|, i requires 0 <= i < |m| => m[i].1)
  }
}

=== FILE: rate_limiting.dfy ===
/** The fixed-window rate limiters: a store from key to a counter and the
    end of its window. The first call for a key, or the first after its
    window has ended, opens a new window of `windowMs` milliseconds; every
    other call counts against the window. The clock is a parameter, and the
    periodic clean-up is an explicit operation. */
module RateLimiting {
  import opened Wrappers
  import JsText

  datatype Entry = Entry(count: int, resetTime: int)

  type Store = map<string, Entry>

  /** What the middleware sees of a request: the authenticated user's id,
      when there is a user, and the client address. */
  datatype Request = Request(user: Option<int>, ip: string)

  /** How a limiter names the bucket a request falls in: the default
      scheme, a prefixed user-or-address scheme, or the address alone. */
  datatype KeyScheme = DefaultKey | PrefixedKey(prefix: string) | AddressKey(prefix: string)

  datatype LimitConfig = LimitConfig(windowMs: int, maxRequests: int, scheme: KeyScheme, message: Option<string>)

  datatype Verdict = Verdict(allowed: bool, resetTime: int, remaining: int)

  const ChatLimiter := LimitConfig(60 * 1000, 30, PrefixedKey("chat:"),
    Some("Too many messages sent. Please wait before sending another message."))
  const BlockLimiter := LimitConfig(5 * 60 * 1000, 50, PrefixedKey("block:"),
    Some("Too many block/unblock actions. Please wait before trying again."))
  const FriendRequestLimiter := LimitConfig(60 * 60 * 1000, 50, PrefixedKey("friend:"),
    Some("Too many friend requests sent. Please wait before sending more."))
  const GeneralApiLimiter := LimitConfig(5 * 60 * 1000, 200, DefaultKey,
    Some("Too many API requests. Please wait before trying again."))
  const AuthLimiter := LimitConfig(15 * 60 * 1000, 5, AddressKey("auth:"),
    Some("Too many authentication attempts. Please wait before trying again."))

  /** `getKey`: a custom scheme decides on its own; the default uses the
      user when there is one with a nonzero id, and the address otherwise.
      The prefixed schemes test only that a user is present. */
  function GetKey(scheme: KeyScheme, req: Request): (k: string)
    ensures scheme == DefaultKey && req.user.Some? && req.user.value != 0 ==>
              k == "user:" + JsText.IntToDecimal(req.user.value)
    ensures scheme == DefaultKey && (req.user.None? || req.user.value == 0) ==> k == "ip:" + req.ip
    ensures scheme.PrefixedKey? && req.user.Some? ==>
              k == scheme.prefix + "user:" + JsText.IntToDecimal(req.user.value)
    ensures scheme.PrefixedKey? && req.user.None? ==> k == scheme.prefix + "ip:" + req.ip
    ensures scheme.AddressKey? ==> k == scheme.prefix + "ip:" + req.ip
  {
    match scheme
    case DefaultKey =>
      if req.user.Some? && req.user.value != 0 then "user:" + JsText.IntToDecimal(req.user.value)
      else "ip:" + req.ip
    case PrefixedKey(p) =>
      if req.user.Some? then p + "user:" + JsText.IntToDecimal(req.user.value) else p + "ip:" + req.ip
    case AddressKey(p) => p + "ip:" + req.ip
  }

  /** Two users never share a default bucket, and a user never shares one
      with an address. */
  lemma DefaultKeysSeparate(a: Request, b: Request)
    requires a.user.Some? && a.user.value != 0
    ensures b.user.Some? && b.user.value != 0 && b.user.value != a.user.value ==>
              GetKey(DefaultKey, a) != GetKey(DefaultKey, b)
    ensures (b.user.None? || b.user.value == 0) ==> GetKey(DefaultKey, a) != GetKey(DefaultKey, b)
  {
    var ka := GetKey(DefaultKey, a);
    var kb := GetKey(DefaultKey, b);
    if b.user.Some? && b.user.value != 0 && b.user.value != a.user.value {
      JsText.ParseIntOfDecimal(a.user.value);
      JsText.ParseIntOfDecimal(b.user.value);
      assert ka[5..] == JsText.IntToDecimal(a.user.value);
      assert kb[5..] == JsText.IntToDecimal(b.user.value);
    }
    if b.user.None? || b.user.value == 0 {
      assert ka[0] == 'u' && kb[0] == 'i';
    }
  }

  /** The window a call at `now` belongs to is still open. */
  predicate Open(store: Store, key: string, now: int) {
    key in store && store[key].resetTime >= now
  }

  /** `checkLimit` for one key at time `now`. */
  function CheckLimit(store: Store, key: string, now: int, windowMs: int, maxRequests: int): (r: (Store, Verdict))
    ensures !Open(store, key, now) ==>
              r == (store[key := Entry(1, now + windowMs)], Verdict(true, now + windowMs, maxRequests - 1))
    ensures Open(store, key, now) ==>
              var count := store[key].count + 1;
              && r.0 == store[key := Entry(count, store[key].resetTime)]
              && r.1.allowed == (count <= maxRequests)
              && r.1.resetTime == store[key].resetTime
              && r.1.remaining == (if maxRequests - count > 0 then maxRequests - count else 0)
    ensures r.0.Keys == store.Keys + {key}
    ensures forall k :: k in store && k != key ==> r.0[k] == store[k]
  {
    if key !in store || store[key].resetTime < now then
      var e := Entry(1, now + windowMs);
      (store[key := e], Verdict(true, e.resetTime, maxRequests - 1))
    else
      var e := store[key].(count := store[key].count + 1);
      var remaining := if 0 > maxRequests - e.count then 0 else maxRequests - e.count;
      (store[key := e], Verdict(e.count <= maxRequests, e.resetTime, remaining))
  }

  /** A call at exactly the end of a window still counts against it; one
      millisecond later a new window opens. */
  lemma WindowEndBelongsToWindow(store: Store, key: string, windowMs: int, maxRequests: int)
    requires key in store
    ensures var t := store[key].resetTime;
            && CheckLimit(store, key, t, windowMs, maxRequests).0[key].count == store[key].count + 1
            && CheckLimit(store, key, t + 1, windowMs, maxRequests).0[key] == Entry(1, t + 1 + windowMs)
  {
  }

  /** The calls for one key at the given times, one after another: the
      store afterwards and how many were allowed. */
  function Replay(store: Store, key: string, times: seq<int>, windowMs: int, maxRequests: int): (r: (Store, nat))
    ensures r.1 <= |times|
    decreases |times|
  {
    if |times| == 0 then (store, 0)
    else
      var before := Replay(store, key, times[..|times| - 1], windowMs, maxRequests);
      var step := CheckLimit(before.0, key, times[|times| - 1], windowMs, maxRequests);
      (step.0, before.1 + if step.1.allowed then 1 else 0)
  }

  /** Within one window, at most `maxRequests` calls for a key are allowed:
      a run of calls that starts a window and stays inside it lets through
      exactly the first `maxRequests`. */
  lemma {:induction false} AtMostMaxPerWindow(store: Store, key: string, times: seq<int>, windowMs: int,
                                              maxRequests: int)
    requires maxRequests >= 1 && windowMs >= 0 && |times| > 0
    requires !Open(store, key, times[0])
    requires forall i :: 0 <= i < |times| ==> times[0] <= times[i] <= times[0] + windowMs
    ensures var r := Replay(store, key, times, windowMs, maxRequests);
            && key in r.0 && r.0[key] == Entry(|times|, times[0] + windowMs)
            && r.1 == (if |times| < maxRequests then |times| else maxRequests)
    decreases |times|
  {
    if |times| > 1 {
      var prefix := times[..|times| - 1];
      assert prefix[0] == times[0];
      assert forall i :: 0 <= i < |prefix| ==> prefix[i] == times[i];
      AtMostMaxPerWindow(store, key, prefix, windowMs, maxRequests);
    }
  }

  /** `cleanup`: exactly the entries whose window ended before `now` go. */
  function Cleanup(store: Store, now: int): (r: Store)
    ensures forall k :: k in r <==> k in store && store[k].resetTime >= now
    ensures forall k :: k in r ==> r[k] == store[k]
  {
    map k | k in store && store[k].resetTime >= now :: store[k]
  }

  /** Clean-up is invisible to callers: any later call gets the same
      verdict with or without it. */
  lemma CleanupKeepsVerdicts(store: Store, now: int, key: string, later: int, windowMs: int, maxRequests: int)
    requires now <= later
    ensures CheckLimit(Cleanup(store, now), key, later, windowMs, maxRequests).1
            == CheckLimit(store, key, later, windowMs, maxRequests).1
  {
  }

  /** The middleware: checks the request's bucket, and refuses with 429,
      the limiter's message and the seconds until the window ends
      (rounded up) when the call is not allowed. */
  function Middleware(store: Store, cfg: LimitConfig, req: Request, now: int): (r: (Store, Option<(int, string, int)>))
    ensures r.0 == CheckLimit(store, GetKey(cfg.scheme, req), now, cfg.windowMs, cfg.maxRequests).0
    ensures r.1.Some? <==> !CheckLimit(store, GetKey(cfg.scheme, req), now, cfg.windowMs, cfg.maxRequests).1.allowed
    ensures r.1.Some? ==>
              var reset := CheckLimit(store, GetKey(cfg.scheme, req), now, cfg.windowMs, cfg.maxRequests).1.resetTime;
              && r.1.value.0 == 429
              && r.1.value.1 == (if cfg.message.Some? && |cfg.message.value| > 0 then cfg.message.value
                                 else "Too many requests")
              && (r.1.value.2 - 1) * 1000 < reset - now <= r.1.value.2 * 1000
  {
    var (s, v) := CheckLimit(store, GetKey(cfg.scheme, req), now, cfg.windowMs, cfg.maxRequests);
    if v.allowed then (s, None)
    else
      var message := if cfg.message.Some? && |cfg.message.value| > 0 then cfg.message.value else "Too many requests";
      (s, Some((429, message, (v.resetTime - now + 999) / 1000)))
  }

  /** `SocketRateLimiter.checkLimit`: the same fixed-window rule under the
      key `socket:<userId>`, answering only whether the event may pass. */
  function SocketCheckLimit(store: Store, userId: string, now: int, windowMs: int, maxEvents: int): (r: (Store, bool))
    ensures r.0 == CheckLimit(store, "socket:" + userId, now, windowMs, maxEvents).0
    ensures r.1 == CheckLimit(store, "socket:" + userId, now, windowMs, maxEvents).1.allowed
  {
    var key := "socket:" + userId;
    if key !in store || store[key].resetTime < now then (store[key := Entry(1, now + windowMs)], true)
    else
      var count := store[key].count + 1;
      (store[key := Entry(count, store[key].resetTime)], count <= maxEvents)
  }

  /** The socket limiters: one minute for both, 15 messages or 50 events. */
  const SocketMessageWindow := 60000
  const SocketMessageMax := 15
  const SocketEventWindow := 60000
  const SocketEventMax := 50
}

=== FILE: seqs.dfy ===
/** Order-preserving selection from a sequence: the reference that the
    queries' `where` filters over stored rows are stated against. */
module Seqs {

  /** The elements of `xs` that satisfy `p`, in their order. */
  function Filter<T(!new)>(xs: seq<T>, p: T -> bool): (r: seq<T>)
    ensures |r| <= |xs|
    ensures forall i :: 0 <= i < |r| ==> p(r[i]) && r[i] in xs
    ensures forall i :: 0 <= i < |xs| && p(xs[i]) ==> xs[i] in r
  {
    if |xs| == 0 then []
    else
      var rest := Filter(xs[1..], p);
      assert xs == [xs[0]] + xs[1..];
      if p(xs[0]) then [xs[0]] + rest else rest
  }

  /** Each element is kept exactly as often as it occurs, when it passes,
      and not at all otherwise. */
  lemma {:induction false} FilterMultiset<T(!new)>(xs: seq<T>, p: T -> bool)
    ensures forall x :: multiset(Filter(xs, p))[x] == if p(x) then multiset(xs)[x] else 0
    decreases |xs|
  {
    if |xs| > 0 {
      FilterMultiset(xs[1..], p);
      assert xs == [xs[0]] + xs[1..];
    }
  }

  /** Filtering commutes with concatenation: what is kept from the front
      comes before what is kept from the back. */
  lemma {:induction false} FilterAppend<T(!new)>(a: seq<T>, b: seq<T>, p: T -> bool)
    ensures Filter(a + b, p) == Filter(a, p) + Filter(b, p)
    decreases |a|
  {
    if |a| == 0 {
      assert a + b == b;
    } else {
      assert (a + b)[1..] == a[1..] + b;
      FilterAppend(a[1..], b, p);
    }
  }

  /** A one-element sequence keeps its element exactly when it passes. */
  lemma FilterSingle<T(!new)>(x: T, p: T -> bool)
    ensures Filter([x], p) == if p(x) then [x] else []
  {
    assert [x][1..] == [];
  }

  /** The number of elements of `xs` that satisfy `p`. */
  function Count<T(!new)>(xs: seq<T>, p: T -> bool): (n: nat)
    ensures n == |Filter(xs, p)|
  {
    if |xs| == 0 then 0
    else (if p(xs[0]) then 1 else 0) + Count(xs[1..], p)
  }
}

=== FILE: tournaments.dfy ===
/** Tournament brackets: a tournament pairs its entrants in round 1; once
    every match of a round carries a score, the round's winners either
    name the champion (exactly one left) or are paired into the next
    round. Players are names, not accounts. The list filter applied to the
    winners is the parameter `keep`: the route's own filter is `KeepAll`,
    and `Named` is the filter that drops missing names. The match table of one tournament is a sequence
    in creation order; the database ids are positions in it. */
module Tournaments {
  import opened Wrappers
  import Seqs

  datatype TournamentStatus = InProgress | Completed

  /** A bracket match. A name is `None` where the source stores `null` or
      `undefined`: the empty seat of an odd pairing, or a missing winner
      let through by the filter. */
  datatype TMatch = TMatch(player1: Option<string>, player2: Option<string>, score1: int, score2: int, round: int)

  datatype Tournament = Tournament(
    name: string,
    ownerId: int,
    maxPlayers: int,
    status: TournamentStatus,
    matches: seq<TMatch>)

  /** Pairs entries 2k and 2k+1 into the k-th match of the round, 0-0; an
      odd last entry plays against an empty seat. */
  function Pairs(xs: seq<Option<string>>, round: int): (r: seq<TMatch>)
    ensures |r| == (|xs| + 1) / 2
    ensures forall k :: 0 <= k < |r| ==>
              && r[k].player1 == xs[2 * k]
              && r[k].player2 == (if 2 * k + 1 < |xs| then xs[2 * k + 1] else None)
              && r[k].score1 == 0 && r[k].score2 == 0 && r[k].round == round
  {
    if |xs| == 0 then []
    else if |xs| == 1 then [TMatch(xs[0], None, 0, 0, round)]
    else
      var rest := Pairs(xs[2..], round);
      assert forall k :: 0 <= k < |rest| ==> xs[2..][2 * k] == xs[2 * k + 2];
      assert forall k :: 0 <= k < |rest| && 2 * k + 1 < |xs[2..]| ==> xs[2..][2 * k + 1] == xs[2 * k + 3];
      [TMatch(xs[0], xs[1], 0, 0, round)] + rest
  }

  /** The seated players of a list of matches, in seat order; an empty
      second seat contributes nothing. */
  function Entrants(ms: seq<TMatch>): (r: seq<Option<string>>)
    ensures |r| <= 2 * |ms|
  {
    if |ms| == 0 then []
    else [ms[0].player1] + (if ms[0].player2.Some? then [ms[0].player2] else []) + Entrants(ms[1..])
  }

  /** Pairing loses and invents nobody: reading the seats back in order
      gives the entrants again. */
  lemma {:induction false} EntrantsOfPairs(xs: seq<Option<string>>, round: int)
    requires forall i :: 0 <= i < |xs| ==> xs[i].Some?
    ensures Entrants(Pairs(xs, round)) == xs
    decreases |xs|
  {
    if |xs| >= 2 {
      var p := Pairs(xs, round);
      assert p[1..] == Pairs(xs[2..], round);
      EntrantsOfPairs(xs[2..], round);
      assert xs == [xs[0], xs[1]] + xs[2..];
    }
  }

  function Lift(names: seq<string>): (r: seq<Option<string>>)
    ensures |r| == |names| && forall i :: 0 <= i < |r| ==> r[i] == Some(names[i])
  {
    seq(|names|, i requires 0 <= i < |names| => Some(names[i]))
  }

  /** `POST /tournaments/create`: an in-progress tournament whose round-1
      matches pair the entrants two by two, in the order given. */
  function CreateTournament(name: string, ownerId: int, players: seq<string>): (t: Tournament)
    requires 4 <= |players| <= 8
    ensures t.status == InProgress && t.maxPlayers == |players| && t.ownerId == ownerId
    ensures |t.matches| == (|players| + 1) / 2
    ensures forall k :: 0 <= k < |t.matches| ==>
              && t.matches[k].player1 == Some(players[2 * k])
              && t.matches[k].player2 == (if 2 * k + 1 < |players| then Some(players[2 * k + 1]) else None)
              && t.matches[k].score1 == 0 && t.matches[k].score2 == 0 && t.matches[k].round == 1
  {
    Tournament(name, ownerId, |players|, InProgress, Pairs(Lift(players), 1))
  }

  /** The matches of one round, in table order. */
  function InRound(ms: seq<TMatch>, round: int): (r: seq<TMatch>)
    ensures |r| <= |ms|
    ensures forall i :: 0 <= i < |r| ==> r[i] in ms && r[i].round == round
    ensures forall i :: 0 <= i < |ms| && ms[i].round == round ==> ms[i] in r
  {
    if |ms| == 0 then []
    else
      var rest := InRound(ms[1..], round);
      assert forall i :: 1 <= i < |ms| ==> ms[i] == ms[1..][i - 1];
      if ms[0].round == round then [ms[0]] + rest else rest
  }

  /** `InRound` is the order-preserving filter of the table by round. */
  lemma {:induction false} InRoundInOrder(ms: seq<TMatch>, round: int)
    ensures InRound(ms, round) == Seqs.Filter(ms, (m: TMatch) => m.round == round)
    decreases |ms|
  {
    if |ms| > 0 {
      InRoundInOrder(ms[1..], round);
    }
  }

  /** A match counts as played once either score is nonzero. */
  predicate Played(m: TMatch) {
    m.score1 != 0 || m.score2 != 0
  }

  /** The round-finished test, match by match. */
  function AllPlayed(ms: seq<TMatch>): (b: bool)
    ensures b <==> forall i :: 0 <= i < |ms| ==> Played(ms[i])
  {
    if |ms| == 0 then true
    else
      assert forall i :: 1 <= i < |ms| ==> ms[i] == ms[1..][i - 1];
      Played(ms[0]) && AllPlayed(ms[1..])
  }

  /** A match reported 0-0 keeps its round open. */
  lemma ZeroZeroKeepsRoundOpen(ms: seq<TMatch>, i: int)
    requires 0 <= i < |ms| && ms[i].score1 == 0 && ms[i].score2 == 0
    ensures !AllPlayed(ms)
  {
    assert !Played(ms[i]);
  }

  /** The winner's name: the first seat on a higher first score, the
      second seat on a higher second score, none on a tie. */
  function MatchWinner(m: TMatch): (w: Option<string>)
    ensures m.score1 > m.score2 ==> w == m.player1
    ensures m.score2 > m.score1 ==> w == m.player2
    ensures m.score1 == m.score2 ==> w.None?
  {
    if m.score1 > m.score2 then m.player1
    else if m.score2 > m.score1 then m.player2
    else None
  }

  /** The winners of the given matches, in order, filtered by `keep`. */
  function Winners(ms: seq<TMatch>, keep: Option<string> -> bool): (r: seq<Option<string>>)
    ensures |r| <= |ms|
    ensures forall i :: 0 <= i < |r| ==> keep(r[i]) && exists j :: 0 <= j < |ms| && MatchWinner(ms[j]) == r[i]
  {
    if |ms| == 0 then []
    else
      var rest := Winners(ms[1..], keep);
      assert forall i :: 0 <= i < |rest| ==> exists j :: 0 <= j < |ms| && MatchWinner(ms[j]) == rest[i] by {
        forall i | 0 <= i < |rest| ensures exists j :: 0 <= j < |ms| && MatchWinner(ms[j]) == rest[i] {
          var j :| 0 <= j < |ms[1..]| && MatchWinner(ms[1..][j]) == rest[i];
          assert ms[j + 1] == ms[1..][j];
        }
      }
      var w := MatchWinner(ms[0]);
      if keep(w) then [w] + rest else rest
  }

  /** Each match's winner, position for position. */
  function WinnerEach(ms: seq<TMatch>): (r: seq<Option<string>>)
    ensures |r| == |ms| && forall i :: 0 <= i < |ms| ==> r[i] == MatchWinner(ms[i])
  {
    seq(|ms|, i requires 0 <= i < |ms| => MatchWinner(ms[i]))
  }

  /** `Winners` is the matches' winners, in match order, with exactly the
      values `keep` rejects dropped. */
  lemma {:induction false} WinnersInOrder(ms: seq<TMatch>, keep: Option<string> -> bool)
    ensures Winners(ms, keep) == Seqs.Filter(WinnerEach(ms), keep)
    decreases |ms|
  {
    if |ms| > 0 {
      WinnersInOrder(ms[1..], keep);
      assert WinnerEach(ms)[1..] == WinnerEach(ms[1..]);
    }
  }

  /** Winners kept by a filter that keeps every value are exactly the
      matches' winners, one per match. */
  lemma {:induction false} WinnersKeepAll(ms: seq<TMatch>, keep: Option<string> -> bool)
    requires forall x :: keep(x)
    ensures |Winners(ms, keep)| == |ms|
    ensures forall i :: 0 <= i < |ms| ==> Winners(ms, keep)[i] == MatchWinner(ms[i])
    decreases |ms|
  {
    if |ms| > 0 {
      WinnersKeepAll(ms[1..], keep);
      assert forall i :: 1 <= i < |ms| ==> ms[i] == ms[1..][i - 1];
    }
  }

  /** What a score submission leads to. */
  datatype Outcome =
    | NoSuchMatch
    | RoundOpen
    | Champion(name: Option<string>)
    | NextRound(matches: seq<TMatch>)

  /** What a finished or unfinished round leads to, once `ms` holds the
      submitted scores. */
  function CloseRound(t: Tournament, ms: seq<TMatch>, round: int, keep: Option<string> -> bool)
    : (r: (Tournament, Outcome))
    ensures r.0.name == t.name && r.0.ownerId == t.ownerId && r.0.maxPlayers == t.maxPlayers
    ensures r.1 != NoSuchMatch
    ensures r.1 == RoundOpen <==> !AllPlayed(InRound(ms, round))
    ensures r.1 == RoundOpen ==> r.0 == t.(matches := ms)
    ensures r.1.Champion? <==> AllPlayed(InRound(ms, round)) && |Winners(InRound(ms, round), keep)| == 1
    ensures r.1.Champion? ==>
              r.0 == t.(matches := ms, status := Completed) && r.1.name == Winners(InRound(ms, round), keep)[0]
    ensures r.1.NextRound? ==>
              && r.1.matches == Pairs(Winners(InRound(ms, round), keep), round + 1)
              && r.0 == t.(matches := ms + r.1.matches)
  {
    var roundMatches := InRound(ms, round);
    if !AllPlayed(roundMatches) then (t.(matches := ms), RoundOpen)
    else
      var winners := Winners(roundMatches, keep);
      if |winners| == 1 then (t.(matches := ms, status := Completed), Champion(winners[0]))
      else
        var next := Pairs(winners, round + 1);
        (t.(matches := ms + next), NextRound(next))
  }

  /** `POST /tournaments/submit-score`: records the two scores on the
      match; once every match of its round is played, one remaining
      winner completes the tournament as champion, and any other number of
      winners is paired into matches of the next round. */
  function SubmitScore(t: Tournament, matchIndex: int, score1: int, score2: int,
                       keep: Option<string> -> bool): (r: (Tournament, Outcome))
    ensures !(0 <= matchIndex < |t.matches|) <==> r.1 == NoSuchMatch
    ensures r.1 == NoSuchMatch ==> r.0 == t
    ensures 0 <= matchIndex < |t.matches| ==>
              r == CloseRound(t, t.matches[matchIndex := t.matches[matchIndex].(score1 := score1, score2 := score2)],
                              t.matches[matchIndex].round, keep)
  {
    if !(0 <= matchIndex < |t.matches|) then (t, NoSuchMatch)
    else
      var m := t.matches[matchIndex].(score1 := score1, score2 := score2);
      CloseRound(t, t.matches[matchIndex := m], m.round, keep)
  }

  /** A submission changes nothing in the table but the two scores of its
      match, apart from appending the next round's matches. */
  lemma SubmitKeepsTable(t: Tournament, matchIndex: int, score1: int, score2: int,
                         keep: Option<string> -> bool)
    requires 0 <= matchIndex < |t.matches|
    ensures var r := SubmitScore(t, matchIndex, score1, score2, keep);
            && |r.0.matches| >= |t.matches|
            && r.0.matches[..|t.matches|] == t.matches[matchIndex := t.matches[matchIndex].(score1 := score1, score2 := score2)]
  {
    var ms := t.matches[matchIndex := t.matches[matchIndex].(score1 := score1, score2 := score2)];
    var r := SubmitScore(t, matchIndex, score1, score2, keep);
    if r.1.NextRound? {
      assert (ms + r.1.matches)[..|ms|] == ms;
    }
  }

  /** The champion won a match of the round that completed the
      tournament, and nobody else from that round was kept. */
  lemma ChampionWonLastRound(t: Tournament, matchIndex: int, score1: int, score2: int,
                             keep: Option<string> -> bool)
    requires SubmitScore(t, matchIndex, score1, score2, keep).1.Champion?
    ensures var r := SubmitScore(t, matchIndex, score1, score2, keep);
            var round := t.matches[matchIndex].round;
            exists j :: 0 <= j < |r.0.matches| && r.0.matches[j].round == round
                        && Played(r.0.matches[j]) && MatchWinner(r.0.matches[j]) == r.1.name
  {
    var r := SubmitScore(t, matchIndex, score1, score2, keep);
    var m := t.matches[matchIndex].(score1 := score1, score2 := score2);
    var ms := t.matches[matchIndex := m];
    var rm := InRound(ms, m.round);
    var w := Winners(rm, keep);
    assert r.1.name == w[0];
    var j :| 0 <= j < |rm| && MatchWinner(rm[j]) == w[0];
    assert Played(rm[j]);
    var k :| 0 <= k < |ms| && ms[k] == rm[j];
    assert r.0.matches[k] == rm[j];
  }

  /** A filter that drops missing names. */
  predicate Named(x: Option<string>) {
    x.Some?
  }

  /** The filter the route applies: calling the validation library's
      `boolean` with a winner builds a schema object, which is truthy, so
      every winner is kept. */
  predicate KeepAll(x: Option<string>) {
    true
  }

  /** A tied match of round 1 beside a decided one. */
  function TiedRound(): seq<TMatch> {
    [TMatch(Some("a"), Some("b"), 1, 1, 1), TMatch(Some("c"), Some("d"), 3, 1, 1)]
  }

  lemma TiedRoundClosed()
    ensures InRound(TiedRound(), 1) == TiedRound() && AllPlayed(TiedRound())
  {
    assert TiedRound()[1..][1..] == [];
  }

  lemma WinnersCons(m: TMatch, rest: seq<TMatch>, keep: Option<string> -> bool)
    ensures Winners([m] + rest, keep) ==
              (if keep(MatchWinner(m)) then [MatchWinner(m)] else []) + Winners(rest, keep)
  {
    assert ([m] + rest)[1..] == rest;
  }

  lemma TiedRoundWinners()
    ensures Winners(TiedRound(), KeepAll) == [None, Some("c")]
  {
    var m0 := TMatch(Some("a"), Some("b"), 1, 1, 1);
    var m1 := TMatch(Some("c"), Some("d"), 3, 1, 1);
    assert TiedRound() == [m0] + ([m1] + []);
    WinnersCons(m1, [], KeepAll);
    WinnersCons(m0, [m1], KeepAll);
  }

  lemma PairsOfTwo(x: Option<string>, y: Option<string>, round: int)
    ensures Pairs([x, y], round) == [TMatch(x, y, 0, 0, round)]
  {
    assert [x, y][2..] == [];
  }

  /** As written, a tied match of round 1 sends its missing winner on:
      the next round seats nobody against the other match's winner. */
  lemma TieSeatsNobody(t: Tournament)
    ensures CloseRound(t, TiedRound(), 1, KeepAll).1 == NextRound([TMatch(None, Some("c"), 0, 0, 2)])
  {
    TiedRoundClosed();
    TiedRoundWinners();
    PairsOfTwo(None, Some("c"), 2);
  }

  /** With missing names dropped, a closed round never seats nobody in a
      first seat, and a champion always has a name. */
  lemma NamedRoundSeatsNames(t: Tournament, ms: seq<TMatch>, round: int)
    ensures var r := CloseRound(t, ms, round, Named);
            && (r.1.Champion? ==> r.1.name.Some?)
            && (r.1.NextRound? ==> forall k :: 0 <= k < |r.1.matches| ==>
                  r.1.matches[k].player1.Some?
                  && (r.1.matches[k].player2.None? ==> k == |r.1.matches| - 1))
  {
    var w := Winners(InRound(ms, round), Named);
    var r := CloseRound(t, ms, round, Named);
    if r.1.NextRound? {
      forall k | 0 <= k < |r.1.matches|
        ensures r.1.matches[k].player1.Some?
        ensures r.1.matches[k].player2.None? ==> k == |r.1.matches| - 1
      {
        assert r.1.matches[k].player1 == w[2 * k];
        if 2 * k + 1 < |w| {
          assert r.1.matches[k].player2 == w[2 * k + 1];
        }
      }
    }
  }

  /** Selecting a round distributes over concatenation. */
  lemma {:induction false} InRoundAppend(xs: seq<TMatch>, ys: seq<TMatch>, round: int)
    ensures InRound(xs + ys, round) == InRound(xs, round) + InRound(ys, round)
    decreases |xs|
  {
    if |xs| == 0 {
      assert xs + ys == ys;
    } else {
      assert (xs + ys)[1..] == xs[1..] + ys;
      InRoundAppend(xs[1..], ys, round);
    }
  }

  /** A one-match list is its own round, or no part of another. */
  lemma InRoundSingle(m: TMatch, round: int)
    ensures InRound([m], round) == if m.round == round then [m] else []
  {
    assert [m][1..] == [];
  }

  /** Round 1 of a four-player bracket stays open after its first result. */
  lemma BracketFirstResult(a: string, b: string, c: string, d: string)
    ensures SubmitScore(CreateTournament("cup", 1, [a, b, c, d]), 0, 3, 1, Named)
            == (Tournament("cup", 1, 4, InProgress,
                           [TMatch(Some(a), Some(b), 3, 1, 1), TMatch(Some(c), Some(d), 0, 0, 1)]),
                RoundOpen)
  {
    var t0 := CreateTournament("cup", 1, [a, b, c, d]);
    var m0 := TMatch(Some(a), Some(b), 3, 1, 1);
    var m1 := TMatch(Some(c), Some(d), 0, 0, 1);
    assert t0.matches == [TMatch(Some(a), Some(b), 0, 0, 1), m1];
    var ms := [m0, m1];
    assert t0.matches[0 := m0] == ms;
    InRoundAppend([m0], [m1], 1);
    InRoundSingle(m0, 1);
    InRoundSingle(m1, 1);
    assert [m0] + [m1] == ms;
    assert InRound(ms, 1) == ms;
    assert !Played(ms[1]);
  }

  /** The second round-1 result pairs the two winners in a round-2 final. */
  lemma BracketSecondResult(a: string, b: string, c: string, d: string)
    ensures SubmitScore(Tournament("cup", 1, 4, InProgress,
                                   [TMatch(Some(a), Some(b), 3, 1, 1), TMatch(Some(c), Some(d), 0, 0, 1)]),
                        1, 2, 5, Named)
            == (Tournament("cup", 1, 4, InProgress,
                           [TMatch(Some(a), Some(b), 3, 1, 1), TMatch(Some(c), Some(d), 2, 5, 1),
                            TMatch(Some(a), Some(d), 0, 0, 2)]),
                NextRound([TMatch(Some(a), Some(d), 0, 0, 2)]))
  {
    var m0 := TMatch(Some(a), Some(b), 3, 1, 1);
    var m1 := TMatch(Some(c), Some(d), 2, 5, 1);
    var fin := TMatch(Some(a), Some(d), 0, 0, 2);
    var ms := [m0, m1];
    assert [m0, TMatch(Some(c), Some(d), 0, 0, 1)][1 := m1] == ms;
    RoundOneClosed(a, b, c, d);
    PairFinal(a, d);
    assert ms + [fin] == [m0, m1, fin];
  }

  lemma RoundOneClosed(a: string, b: string, c: string, d: string)
    ensures var ms := [TMatch(Some(a), Some(b), 3, 1, 1), TMatch(Some(c), Some(d), 2, 5, 1)];
            InRound(ms, 1) == ms && AllPlayed(ms) && Winners(ms, Named) == [Some(a), Some(d)]
  {
    var m0 := TMatch(Some(a), Some(b), 3, 1, 1);
    var m1 := TMatch(Some(c), Some(d), 2, 5, 1);
    var ms := [m0, m1];
    InRoundAppend([m0], [m1], 1);
    InRoundSingle(m0, 1);
    InRoundSingle(m1, 1);
    assert [m0] + [m1] == ms;
    assert ms[1..] == [m1] && [m1][1..] == [];
    assert Winners([m1], Named) == [Some(d)];
  }

  lemma PairFinal(a: string, d: string)
    ensures Pairs([Some(a), Some(d)], 2) == [TMatch(Some(a), Some(d), 0, 0, 2)]
  {
    assert [Some(a), Some(d)][2..] == [];
  }

  /** The final's winner is the champion and the tournament completes. */
  lemma BracketFinal(a: string, b: string, c: string, d: string)
    ensures var r := SubmitScore(Tournament("cup", 1, 4, InProgress,
                                            [TMatch(Some(a), Some(b), 3, 1, 1), TMatch(Some(c), Some(d), 2, 5, 1),
                                             TMatch(Some(a), Some(d), 0, 0, 2)]),
                                 2, 5, 4, Named);
            r.1 == Champion(Some(a)) && r.0.status == Completed
  {
    var m0 := TMatch(Some(a), Some(b), 3, 1, 1);
    var m1 := TMatch(Some(c), Some(d), 2, 5, 1);
    var fin := TMatch(Some(a), Some(d), 5, 4, 2);
    var all := [m0, m1, TMatch(Some(a), Some(d), 0, 0, 2)][2 := fin];
    assert all == [m0, m1] + [fin];
    InRoundAppend([m0, m1], [fin], 2);
    InRoundAppend([m0], [m1], 2);
    assert [m0] + [m1] == [m0, m1];
    InRoundSingle(m0, 2);
    InRoundSingle(m1, 2);
    InRoundSingle(fin, 2);
    assert InRound(all, 2) == [fin];
    assert [fin][1..] == [];
    assert Winners([fin], Named) == [Some(a)];
  }

  // ---------------------------------------------------------------- history

  /** The match the history treats as the final: the first match, in table
      order, of the highest round (the sort it uses is stable). */
  function FinalMatch(ms: seq<TMatch>): (r: Option<TMatch>)
    ensures r.None? <==> |ms| == 0
    ensures r.Some? ==> exists i :: 0 <= i < |ms| && ms[i] == r.value
                                   && (forall j :: 0 <= j < i ==> ms[j].round < r.value.round)
    ensures r.Some? ==> forall j :: 0 <= j < |ms| ==> ms[j].round <= r.value.round
  {
    if |ms| == 0 then None
    else
      match FinalMatch(ms[1..])
      case None => Some(ms[0])
      case Some(f) =>
        assert forall j :: 1 <= j < |ms| ==> ms[j] == ms[1..][j - 1];
        if ms[0].round >= f.round then Some(ms[0])
        else
          var i :| 0 <= i < |ms[1..]| && ms[1..][i] == f && (forall j :: 0 <= j < i ==> ms[1..][j].round < f.round);
          assert ms[i + 1] == f;
          assert forall j :: 0 <= j < i + 1 ==> ms[j].round < f.round;
          Some(f)
  }

  /** The history's test for a won tournament: the final's first seat when
      it has the higher score, its second seat otherwise (ties included),
      is the user. */
  predicate WonBy(ms: seq<TMatch>, username: string) {
    match FinalMatch(ms)
    case None => false
    case Some(f) => (if f.score1 > f.score2 then f.player1 else f.player2) == Some(username)
  }

  /** The history's test agrees with the bracket's winner rule on a
      decided final, and hands an undecided final to the second seat. */
  lemma WonByFinalWinner(ms: seq<TMatch>, username: string)
    requires |ms| > 0
    ensures var f := FinalMatch(ms).value;
            && (f.score1 != f.score2 ==> (WonBy(ms, username) <==> MatchWinner(f) == Some(username)))
            && (f.score1 == f.score2 ==> (WonBy(ms, username) <==> f.player2 == Some(username)))
  {
  }

  /** A JavaScript number as the history's division can produce it. */
  datatype JsNumber = Finite(v: real) | NaN | Infinity

  /** JavaScript's `n / d` for `n >= 0` and `d >= 0`. */
  function Divide(n: real, d: real): (r: JsNumber)
    requires n >= 0.0 && d >= 0.0
    ensures d > 0.0 ==> r.Finite? && r.v * d == n
    ensures d == 0.0 ==> (if n == 0.0 then r == NaN else r == Infinity)
  {
    if d > 0.0 then Finite(n / d) else if n == 0.0 then NaN else Infinity
  }

  /** `x * 100`. */
  function Percent(x: JsNumber): (r: JsNumber)
    ensures r.Finite? <==> x.Finite?
    ensures x.Finite? ==> r.v == x.v * 100.0
  {
    match x
    case Finite(v) => Finite(v * 100.0)
    case NaN => NaN
    case Infinity => Infinity
  }

  datatype History = History(total: nat, completed: nat, won: nat, winRate: JsNumber)

  /** The number of completed tournaments in the list. */
  function CountCompleted(ts: seq<Tournament>): (n: nat)
    ensures n <= |ts|
    ensures n == |Seqs.Filter(ts, (t: Tournament) => t.status == Completed)|
  {
    if |ts| == 0 then 0 else (if ts[0].status == Completed then 1 else 0) + CountCompleted(ts[1..])
  }

  /** The number of tournaments whose final the user won, by the history's
      test. */
  function CountWon(ts: seq<Tournament>, username: string): (n: nat)
    ensures n <= |ts|
    ensures n == |Seqs.Filter(ts, (t: Tournament) => WonBy(t.matches, username))|
  {
    if |ts| == 0 then 0 else (if WonBy(ts[0].matches, username) then 1 else 0) + CountWon(ts[1..], username)
  }

  /** `GET /tournaments/history` as written: the win rate divides by the
      completed tournaments while the guard looks at all of them. */
  function HistoryStatsAsWritten(ts: seq<Tournament>, username: string): (h: History)
    ensures h.total == |ts| && h.completed <= h.total && h.won <= h.total
    ensures h.completed == CountCompleted(ts) && h.won == CountWon(ts, username)
    ensures h.total == 0 ==> h.winRate == Finite(0.0)
    ensures h.total > 0 ==> h.winRate == Percent(Divide(h.won as real, h.completed as real))
  {
    var total := |ts|;
    var completed := CountCompleted(ts);
    var won := CountWon(ts, username);
    History(total, completed, won,
            if total > 0 then Percent(Divide(won as real, completed as real)) else Finite(0.0))
  }

  /** A tournament still in progress, in which the user sits in the first
      seat of a 0-0 match, makes the written win rate `NaN`: the history
      lists it, nothing is completed, and the undecided final goes to the
      other seat. */
  lemma InProgressHistoryIsNaN(username: string, other: string)
    requires other != username
    ensures var t := Tournament("cup", 1, 4, InProgress, [TMatch(Some(username), Some(other), 0, 0, 1)]);
            HistoryStatsAsWritten([t], username).winRate == NaN
  {
    var t := Tournament("cup", 1, 4, InProgress, [TMatch(Some(username), Some(other), 0, 0, 1)]);
    assert [t][1..] == [];
    assert t.matches[1..] == [];
    assert CountCompleted([t]) == 0;
    assert !WonBy(t.matches, username);
    assert CountWon([t], username) == 0;
  }

  /** The history with the divisor itself guarded: the win rate is `won`
      as a percentage of `completed`, and always a number. `won` counts
      every tournament whose final the user won by the history's test,
      in progress or not, so the rate can exceed 100. */
  function HistoryStats(ts: seq<Tournament>, username: string): (h: History)
    ensures h.total == |ts| && h.completed <= h.total && h.won <= h.total
    ensures h.completed == CountCompleted(ts) && h.won == CountWon(ts, username)
    ensures IsRate(h.winRate, h.won, h.completed)
  {
    var total := |ts|;
    var completed := CountCompleted(ts);
    var won := CountWon(ts, username);
    History(total, completed, won, GuardedRate(won, completed))
  }

  /** `rate` is a number: the percentage `won` is of `completed`, and 0
      when nothing is completed. */
  predicate IsRate(rate: JsNumber, won: nat, completed: nat) {
    && rate.Finite? && rate.v >= 0.0
    && (completed > 0 ==> rate.v * completed as real == won as real * 100.0)
    && (completed == 0 ==> rate == Finite(0.0))
  }

  /** The percentage `won` is of `completed`, and 0 when nothing is
      completed. */
  function GuardedRate(won: nat, completed: nat): (r: JsNumber)
    ensures IsRate(r, won, completed)
  {
    if completed > 0 then Finite(won as real / completed as real * 100.0) else Finite(0.0)
  }

  /** The two agree whenever some tournament is completed. */
  lemma HistoryAgreesWhenCompleted(ts: seq<Tournament>, username: string)
    requires CountCompleted(ts) > 0
    ensures HistoryStatsAsWritten(ts, username).winRate == HistoryStats(ts, username).winRate
  {
  }
}

=== FILE: users.dfy ===
/** The user directory: the listing that hides blocked users and labels
    everyone else with the caller's friendship status, and the search by
    name or e-mail. Tables are parameters; the search's `ORDER BY` is the
    order of the given rows. */
module Users {
  import opened Wrappers
  import opened Http
  import JsText
  import Friends
  import Seqs

  /** `blockedUserIds`: for every `block` row that involves the caller, the
      other user in it. */
  function BlockedCounterparts(blocks: Friends.Blocks, me: int): (r: set<int>)
    ensures forall x :: x in r <==> (me, x) in blocks || (x, me) in blocks
  {
    set p | p in blocks && (p.0 == me || p.1 == me) :: if p.0 == me then p.1 else p.0
  }

  /** `prisma.friendship.findFirst` over the two directions: some row
      linking the pair, if there is one. */
  ghost function FindFriendship(fs: Friends.Friendships, a: int, b: int): (r: Option<int>)
    ensures r.None? <==> !Friends.Linked(fs, a, b)
    ensures r.Some? ==> r.value in fs && Friends.Links(fs[r.value], a, b)
  {
    if Friends.Linked(fs, a, b) then
      var id :| id in fs && Friends.Links(fs[id], a, b);
      Some(id)
    else None
  }

  /** Under one row per pair, the row found is the row linking the pair. */
  lemma FoundIsTheRow(fs: Friends.Friendships, a: int, b: int, id: int)
    requires Friends.OnePerPair(fs) && id in fs && Friends.Links(fs[id], a, b)
    ensures FindFriendship(fs, a, b) == Some(id)
  {
    var found := FindFriendship(fs, a, b).value;
    assert Friends.Links(fs[id], fs[found].requesterId, fs[found].recipientId);
  }

  /** `friendshipStatus` as the caller sees it. */
  function Classify(f: Option<Friends.Friendship>, me: int): (r: Option<string>)
    ensures r == Some("accepted") <==> f.Some? && f.value.status == Friends.Accepted
    ensures r == Some("pending_sent") <==> f.Some? && f.value.status == Friends.Pending && f.value.requesterId == me
    ensures r == Some("pending_received") <==>
              f.Some? && f.value.status == Friends.Pending && f.value.requesterId != me
    ensures r.None? <==> f.None? || f.value.status == Friends.Declined
  {
    match f
    case None => None
    case Some(row) =>
      if row.status == Friends.Accepted then Some("accepted")
      else if row.status == Friends.Pending then
        (if row.requesterId == me then Some("pending_sent") else Some("pending_received"))
      else
        assert row.status == Friends.Declined;
        None
  }

  /** `friendship?.id || null`: an id of 0 would read as no id. */
  function FriendshipIdField(id: Option<int>): (r: Option<int>)
    ensures r.Some? <==> id.Some? && id.value != 0
    ensures r.Some? ==> r == id
  {
    if id.Some? && id.value != 0 then id else None
  }

  datatype Listed = Listed(friendshipStatus: Option<string>, friendshipId: Option<int>)

  /** What the listing says about `target`. */
  ghost function Label(fs: Friends.Friendships, me: int, target: int): Listed {
    match FindFriendship(fs, me, target)
    case None => Listed(None, None)
    case Some(id) => Listed(Classify(Some(fs[id]), me), FriendshipIdField(Some(id)))
  }

  /** `GET /users`: every user but the caller and the users on the other
      side of a block, each with its label. */
  ghost function ListUsers(users: set<int>, blocks: Friends.Blocks, fs: Friends.Friendships, me: int): (r: map<int, Listed>)
    ensures forall x :: x in r <==> x in users && x != me && (me, x) !in blocks && (x, me) !in blocks
    ensures forall x | x in r :: r[x] == Label(fs, me, x)
  {
    var hidden := {me} + BlockedCounterparts(blocks, me);
    map x | x in users && x !in hidden :: Label(fs, me, x)
  }

  /** The label agrees with the friends routes' lists: "accepted" for a
      friend, "pending_sent" for someone the caller asked, "pending_received"
      for someone who asked the caller. */
  lemma LabelMatchesLists(fs: Friends.Friendships, me: int, x: int)
    requires Friends.Valid(fs) && x != me
    ensures Label(fs, me, x).friendshipStatus == Some("accepted") <==> x in Friends.FriendsList(fs, me)
    ensures Label(fs, me, x).friendshipStatus == Some("pending_sent") <==> x in Friends.SentList(fs, me)
    ensures Label(fs, me, x).friendshipStatus == Some("pending_received") <==> x in Friends.PendingList(fs, me)
  {
    if x in Friends.FriendsList(fs, me) {
      var id :| id in fs && fs[id].status == Friends.Accepted &&
        ((fs[id].requesterId == me && fs[id].recipientId == x) ||
         (fs[id].requesterId != me && fs[id].recipientId == me && fs[id].requesterId == x));
      FoundIsTheRow(fs, me, x, id);
    }
    if x in Friends.SentList(fs, me) {
      var id :| id in fs && fs[id] == Friends.Friendship(me, x, Friends.Pending);
      FoundIsTheRow(fs, me, x, id);
    }
    if x in Friends.PendingList(fs, me) {
      var id :| id in fs && fs[id] == Friends.Friendship(x, me, Friends.Pending);
      FoundIsTheRow(fs, me, x, id);
    }
  }

  /** A pending request reads as sent on one side and received on the
      other. */
  lemma PendingSeenFromBothSides(fs: Friends.Friendships, a: int, b: int, id: int)
    requires Friends.OnePerPair(fs) && id in fs && fs[id] == Friends.Friendship(a, b, Friends.Pending) && a != b
    ensures Label(fs, a, b).friendshipStatus == Some("pending_sent")
    ensures Label(fs, b, a).friendshipStatus == Some("pending_received")
  {
    FoundIsTheRow(fs, a, b, id);
    FoundIsTheRow(fs, b, a, id);
  }

  // ---------------------------------------------------------------- search

  /** SQL `LIKE` without an escape character: `%` matches any run of
      characters and `_` any one character. Both sides are lower-cased
      before they meet, so the operator's own case folding adds nothing. */
  function Like(s: string, p: string): bool
    decreases |s| + |p|
  {
    if |p| == 0 then |s| == 0
    else if p[0] == '%' then Like(s, p[1..]) || (|s| > 0 && Like(s[1..], p))
    else |s| > 0 && (p[0] == '_' || p[0] == s[0]) && Like(s[1..], p[1..])
  }

  predicate Plain(t: string) {
    '%' !in t && '_' !in t
  }

  /** `t` occurs somewhere in `s`. */
  predicate Contains(s: string, t: string) {
    exists i | 0 <= i <= |s| :: t <= s[i..]
  }

  lemma {:induction false} PercentMatchesAll(s: string)
    ensures Like(s, "%")
    decreases |s|
  {
    if |s| > 0 {
      PercentMatchesAll(s[1..]);
    }
  }

  /** A plain pattern followed by `%` matches exactly its extensions. */
  lemma {:induction false} LikePrefix(s: string, t: string)
    requires Plain(t)
    ensures Like(s, t + "%") <==> t <= s
    decreases |t|
  {
    if |t| == 0 {
      assert t + "%" == "%";
      PercentMatchesAll(s);
    } else {
      assert (t + "%")[1..] == t[1..] + "%";
      assert t[0] != '%' && t[0] != '_';
      if |s| > 0 {
        LikePrefix(s[1..], t[1..]);
      }
    }
  }

  /** `%t%` for a plain `t` matches exactly the strings containing `t`. */
  lemma {:induction false} LikeContains(s: string, t: string)
    requires Plain(t)
    ensures Like(s, "%" + t + "%") <==> Contains(s, t)
    decreases |s|
  {
    var p := "%" + t + "%";
    assert p[1..] == t + "%";
    LikePrefix(s, t);
    assert s[0..] == s;
    if |s| > 0 {
      LikeContains(s[1..], t);
      if Contains(s[1..], t) {
        var i :| 0 <= i <= |s[1..]| && t <= s[1..][i..];
        assert s[1..][i..] == s[i + 1..];
      }
      if Contains(s, t) && !(t <= s) {
        var i :| 0 <= i <= |s| && t <= s[i..];
        assert i != 0;
        assert s[1..][i - 1..] == s[i..];
      }
    } else {
      if Contains(s, t) {
        var i :| 0 <= i <= |s| && t <= s[i..];
        assert i == 0;
      }
    }
  }

  datatype UserRow = UserRow(id: int, username: string, email: string)

  /** The rows the search's `WHERE` clause admits, in the given order. */
  function Matches(rows: seq<UserRow>, me: int, pattern: string): (r: seq<int>)
    ensures forall x :: x in r <==>
              exists k | 0 <= k < |rows| :: rows[k].id == x && x != me &&
                (Like(JsText.AsciiLower(rows[k].username), pattern) || Like(JsText.AsciiLower(rows[k].email), pattern))
  {
    if |rows| == 0 then []
    else
      var rest := Matches(rows[..|rows| - 1], me, pattern);
      var row := rows[|rows| - 1];
      assert forall k | 0 <= k < |rows| - 1 :: rows[..|rows| - 1][k] == rows[k];
      if row.id != me && (Like(JsText.AsciiLower(row.username), pattern) || Like(JsText.AsciiLower(row.email), pattern))
      then rest + [row.id] else rest
  }

  /** The `WHERE` clause of the search for one row. */
  predicate Admitted(row: UserRow, me: int, pattern: string) {
    row.id != me && (Like(JsText.AsciiLower(row.username), pattern) || Like(JsText.AsciiLower(row.email), pattern))
  }

  /** The ids of the rows, in their order. */
  function Ids(rows: seq<UserRow>): (r: seq<int>)
    ensures |r| == |rows| && forall k :: 0 <= k < |rows| ==> r[k] == rows[k].id
  {
    seq(|rows|, k requires 0 <= k < |rows| => rows[k].id)
  }

  lemma IdsAppend(a: seq<UserRow>, b: seq<UserRow>)
    ensures Ids(a + b) == Ids(a) + Ids(b)
  {
    assert forall k | 0 <= k < |a| + |b| :: Ids(a + b)[k] == (Ids(a) + Ids(b))[k];
  }

  /** The matches are the ids of the admitted rows: each admitted row once
      per appearance, in the order the rows come. */
  lemma {:induction false} MatchesInOrder(rows: seq<UserRow>, me: int, pattern: string)
    ensures Matches(rows, me, pattern) == Ids(Seqs.Filter(rows, (u: UserRow) => Admitted(u, me, pattern)))
    decreases |rows|
  {
    if |rows| > 0 {
      var front := rows[..|rows| - 1];
      var last := rows[|rows| - 1];
      assert rows == front + [last];
      MatchesSnoc(front, last, me, pattern);
      MatchesInOrder(front, me, pattern);
      Seqs.FilterAppend(front, [last], (u: UserRow) => Admitted(u, me, pattern));
      Seqs.FilterSingle(last, (u: UserRow) => Admitted(u, me, pattern));
      IdsAppend(Seqs.Filter(front, (u: UserRow) => Admitted(u, me, pattern)),
                Seqs.Filter([last], (u: UserRow) => Admitted(u, me, pattern)));
    }
  }

  lemma MatchesSnoc(front: seq<UserRow>, last: UserRow, me: int, pattern: string)
    ensures Matches(front + [last], me, pattern) ==
              Matches(front, me, pattern) + (if Admitted(last, me, pattern) then [last.id] else [])
  {
    assert (front + [last])[..|front|] == front;
  }

  const SearchLimit := 50

  /** The refusal names the query as JavaScript would print it. */
  function QueryText(query: Option<string>): string {
    if query.Some? then query.value else "undefined"
  }

  /** `GET /users/search`: a trimmed query of at least two characters,
      lower-cased by JavaScript's `toLowerCase` (the parameter
      `lowerCase`: its Unicode case mapping is not modelled), sought
      anywhere in the name or e-mail lower-cased by SQLite's `LOWER`,
      which maps ASCII capitals only, of everyone but the caller; the
      first fifty such rows, in the given order. */
  function Search(rows: seq<UserRow>, me: int, query: Option<string>, lowerCase: string -> string)
    : (r: Result<seq<int>, Reply>)
    ensures r.Failure? <==> query.None? || JsText.Utf16Length(JsText.Trim(query.value)) < 2
    ensures r.Failure? ==>
              r.error == Reply(400, "Search query must be at least 2 characters " + QueryText(query))
    ensures r.Success? ==>
              var all := Matches(rows, me, "%" + lowerCase(JsText.Trim(query.value)) + "%");
              && |r.value| <= SearchLimit
              && r.value <= all
              && (|all| <= SearchLimit ==> r.value == all)
              && (|all| > SearchLimit ==> r.value == all[..SearchLimit])
  {
    if query.None? || query.value == "" || JsText.Utf16Length(JsText.Trim(query.value)) < 2 then
      Failure(Reply(400, "Search query must be at least 2 characters " + QueryText(query)))
    else
      var all := Matches(rows, me, "%" + lowerCase(JsText.Trim(query.value)) + "%");
      Success(if |all| <= SearchLimit then all else all[..SearchLimit])
  }

  /** The length test counts UTF-16 code units, so one emoji, a
      surrogate pair, is already long enough to search for. */
  lemma SingleEmojiQueryAccepted(rows: seq<UserRow>, me: int, lowerCase: string -> string)
    ensures Search(rows, me, Some("\U{1F600}"), lowerCase).Success?
  {
    EmojiFacts();
  }

  lemma EmojiFacts()
    ensures JsText.Trim("\U{1F600}") == "\U{1F600}"
    ensures JsText.Utf16Length("\U{1F600}") == 2
  {
    assert "\U{1F600}" == "" + "\U{1F600}" + "";
    JsText.TrimAround("", "\U{1F600}", "");
  }

  /** For a search term without `%` or `_`, a row is found exactly when
      the term occurs in its lower-cased name or e-mail. */
  lemma SearchFindsSubstrings(rows: seq<UserRow>, me: int, term: string, x: int)
    requires Plain(term)
    ensures x in Matches(rows, me, "%" + term + "%") <==>
              exists k | 0 <= k < |rows| :: rows[k].id == x && x != me &&
                (Contains(JsText.AsciiLower(rows[k].username), term) || Contains(JsText.AsciiLower(rows[k].email), term))
  {
    forall k | 0 <= k < |rows|
      ensures Like(JsText.AsciiLower(rows[k].username), "%" + term + "%") <==>
                Contains(JsText.AsciiLower(rows[k].username), term)
      ensures Like(JsText.AsciiLower(rows[k].email), "%" + term + "%") <==>
                Contains(JsText.AsciiLower(rows[k].email), term)
    {
      LikeContains(JsText.AsciiLower(rows[k].username), term);
      LikeContains(JsText.AsciiLower(rows[k].email), term);
    }
  }

  /** SQLite's `LOWER` leaves non-ASCII capitals alone, so a name
      spelled with `É` is not found by the query `é…` that
      `toLowerCase` produces from `É…`. */
  lemma NonAsciiCapitalMissed()
    ensures Matches([UserRow(2, "Élan", "elan@example.com")], 1, "%" + "él" + "%") == []
  {
    var row := UserRow(2, "Élan", "elan@example.com");
    assert JsText.AsciiLower(row.username) == row.username;
    assert JsText.AsciiLower(row.email) == row.email;
    NotContained(row.username, "él");
    NotContained(row.email, "él");
    LikeContains(row.username, "él");
    LikeContains(row.email, "él");
    assert [row][..0] == [];
  }

  lemma NotContained(s: string, t: string)
    requires |t| > 0 && t[0] !in s
    ensures !Contains(s, t)
  {
    forall i | 0 <= i <= |s|
      ensures !(t <= s[i..])
    {
      if i < |s| {
        assert s[i..][0] == s[i];
      }
    }
  }
}

=== FILE: validation.dfy ===
/** The request-validation helpers: how a schema failure becomes an error
    message, and the order in which the validation middleware checks the
    parts of a request. A schema itself is not modelled: each part's check
    is given as its outcome. */
module Validation {
  import opened Wrappers
  import JsText

  /** One step of an issue's path: an object key or an array index. */
  datatype Segment = Key(name: string) | Index(n: int)

  /** A schema issue: its code, where it occurred and its message. */
  datatype Issue = Issue(code: string, path: seq<Segment>, message: string)

  /** `formatZodError`: the first issue's message, or a fixed text when
      there is no issue. */
  function FormatZodError(issues: seq<Issue>): (r: string)
    ensures |issues| > 0 ==> r == issues[0].message
    ensures |issues| == 0 ==> r == "Invalid input data"
  {
    if |issues| > 0 then issues[0].message else "Invalid input data"
  }

  /** A path step as `Array.prototype.join` writes it. */
  function SegmentText(s: Segment): string {
    match s
    case Key(k) => k
    case Index(n) => JsText.IntToDecimal(n)
  }

  function SegmentTexts(path: seq<Segment>): (r: seq<string>)
    ensures |r| == |path|
    ensures forall i :: 0 <= i < |path| ==> r[i] == SegmentText(path[i])
  {
    seq(|path|, i requires 0 <= i < |path| => SegmentText(path[i]))
  }

  /** `path.join('.')`. */
  function PathText(path: seq<Segment>): string {
    JsText.Join(SegmentTexts(path), ".")
  }

  datatype Detail = Detail(message: string, field: string, code: string)

  /** `formatZodErrorDetailed`: the first issue's message and code, and its
      path joined with dots, or "unknown" when that text is empty. */
  function FormatZodErrorDetailed(issues: seq<Issue>): (r: Detail)
    ensures |issues| == 0 ==> r == Detail("Invalid input data", "unknown", "invalid_input")
    ensures |issues| > 0 ==> r.message == issues[0].message && r.code == issues[0].code
    ensures |issues| > 0 && |issues[0].path| == 0 ==> r.field == "unknown"
    ensures |r.field| > 0
  {
    if |issues| == 0 then Detail("Invalid input data", "unknown", "invalid_input")
    else
      var f := PathText(issues[0].path);
      Detail(issues[0].message, if |f| > 0 then f else "unknown", issues[0].code)
  }

  // ------------------------------------------------------ reading the field

  /** The first position of `c` in `s`, if any. */
  function Find(s: string, c: char): (r: Option<nat>)
    ensures r.None? <==> c !in s
    ensures r.Some? ==> r.value < |s| && s[r.value] == c && c !in s[..r.value]
  {
    if |s| == 0 then None
    else if s[0] == c then Some(0)
    else
      match Find(s[1..], c)
      case None => None
      case Some(i) =>
        assert s[..i + 1] == [s[0]] + s[1..][..i];
        Some(i + 1)
  }

  /** `s.split(c)`. */
  function Split(s: string, c: char): (r: seq<string>)
    ensures |r| > 0
    decreases |s|
  {
    match Find(s, c)
    case None => [s]
    case Some(i) => [s[..i]] + Split(s[i + 1..], c)
  }

  /** The first dot of `a + "." + b` is the one between them. */
  lemma FindAfterPrefix(a: string, b: string, c: char)
    requires c !in a
    ensures Find(a + [c] + b, c) == Some(|a|)
    decreases |a|
  {
    if |a| > 0 {
      assert (a + [c] + b)[1..] == a[1..] + [c] + b;
      FindAfterPrefix(a[1..], b, c);
    }
  }

  /** Splitting the joined text on the separator gives the parts back
      when no part holds the separator. */
  lemma {:induction false} SplitJoin(parts: seq<string>, c: char)
    requires |parts| > 0
    requires forall i :: 0 <= i < |parts| ==> c !in parts[i]
    ensures Split(JsText.Join(parts, [c]), c) == parts
    decreases |parts|
  {
    if |parts| == 1 {
      assert Split(parts[0], c) == [parts[0]];
    } else {
      var rest := JsText.Join(parts[1..], [c]);
      assert JsText.Join(parts, [c]) == parts[0] + [c] + rest;
      SplitAtFirst(parts[0], rest, c);
      SplitJoin(parts[1..], c);
      assert parts == [parts[0]] + parts[1..];
    }
  }

  /** Splitting at the first separator peels off the text before it. */
  lemma SplitAtFirst(a: string, b: string, c: char)
    requires c !in a
    ensures Split(a + [c] + b, c) == [a] + Split(b, c)
  {
    var s := a + [c] + b;
    FindAfterPrefix(a, b, c);
    assert s[..|a|] == a;
    assert s[|a| + 1..] == b;
  }

  /** The detailed field of a path of plain keys reads back, split on its
      dots, to those keys: no information about the path is lost. */
  lemma FieldNamesPath(issues: seq<Issue>)
    requires |issues| > 0 && |issues[0].path| > 0
    requires forall i :: 0 <= i < |issues[0].path| ==>
               issues[0].path[i].Key? && |issues[0].path[i].name| > 0 && '.' !in issues[0].path[i].name
    ensures var names := seq(|issues[0].path|, i requires 0 <= i < |issues[0].path| => issues[0].path[i].name);
            Split(FormatZodErrorDetailed(issues).field, '.') == names
  {
    var path := issues[0].path;
    var texts := SegmentTexts(path);
    assert |texts[0]| > 0;
    JoinNonEmpty(texts, ".");
    SplitJoin(texts, '.');
    assert texts == seq(|path|, i requires 0 <= i < |path| => path[i].name);
  }

  /** A join whose first part is non-empty is non-empty. */
  lemma JoinNonEmpty(parts: seq<string>, sep: string)
    requires |parts| > 0 && |parts[0]| > 0
    ensures |JsText.Join(parts, sep)| > 0
  {
  }

  // ------------------------------------------------------------ middleware

  /** How one part of the request fares against its schema: it passes, it
      fails with schema issues, or the parse throws something else. */
  datatype Check = Passes | SchemaFails(issues: seq<Issue>) | Throws

  /** A refusal: the status, the error text and the part it names. */
  datatype Refusal = Refusal(code: int, error: string, field: Option<string>)

  /** The part has a schema and does not pass it. */
  predicate Fails(c: Option<Check>) {
    c.Some? && !c.value.Passes?
  }

  /** The refusal for a failing part. */
  function PartRefusal(c: Check, field: string, otherwise: string): (r: Refusal)
    requires !c.Passes?
    ensures r.code == 400
    ensures c.SchemaFails? ==> r == Refusal(400, FormatZodError(c.issues), Some(field))
    ensures c.Throws? ==> r == Refusal(400, otherwise, None)
  {
    match c
    case SchemaFails(issues) => Refusal(400, FormatZodError(issues), Some(field))
    case Throws => Refusal(400, otherwise, None)
  }

  /** `createValidationMiddleware`: body, then params, then query; `None`
      for a part without a schema. The first failing part decides. */
  function Validate(body: Option<Check>, params: Option<Check>, query: Option<Check>): (r: Option<Refusal>)
    ensures r.None? <==> !Fails(body) && !Fails(params) && !Fails(query)
    ensures Fails(body) ==> r == Some(PartRefusal(body.value, "body", "Invalid request body"))
    ensures !Fails(body) && Fails(params) ==> r == Some(PartRefusal(params.value, "params", "Invalid URL parameters"))
    ensures !Fails(body) && !Fails(params) && Fails(query) ==>
              r == Some(PartRefusal(query.value, "query", "Invalid query parameters"))
  {
    if Fails(body) then Some(PartRefusal(body.value, "body", "Invalid request body"))
    else if Fails(params) then Some(PartRefusal(params.value, "params", "Invalid URL parameters"))
    else if Fails(query) then Some(PartRefusal(query.value, "query", "Invalid query parameters"))
    else None
  }

  /** Once a part fails, the parts after it are never looked at. */
  lemma LaterPartsUnread(body: Option<Check>, params: Option<Check>, query: Option<Check>,
                         params': Option<Check>, query': Option<Check>)
    ensures Fails(body) ==> Validate(body, params, query) == Validate(body, params', query')
    ensures !Fails(body) && Fails(params) ==> Validate(body, params, query) == Validate(body, params, query')
  {
  }
}

=== FILE: wrappers.dfy ===
/** Failure-compatible helper datatypes shared by every module of the model.
    `None` stands for JavaScript's `null`/`undefined` wherever the source
    returns or stores an absent value. */
module Wrappers {

  datatype Option<+T> = None | Some(value: T) {

    predicate IsFailure() {
      None?
    }

    function PropagateFailure<U>(): Option<U>
      requires None?
    {
      None
    }

    function Extract(): T
      requires Some?
    {
      value
    }

    function GetOr(default: T): T {
      match this
      case Some(v) => v
      case None => default
    }
  }

  /** The outcome of an operation that either succeeds with a value or is
      rejected with an error (an HTTP status and message, a thrown Error, ...). */
  datatype Result<+R, +E> = Success(value: R) | Failure(error: E) {

    predicate IsFailure() {
      Failure?
    }

    function PropagateFailure<U>(): Result<U, E>
      requires Failure?
    {
      Failure(error)
    }

    function Extract(): R
      requires Success?
    {
      value
    }
  }
}
